=== FILE: README.md ===
# nyaa-watcher, modelled in Dafny

nyaa-watcher polls Nyaa RSS feeds and decides which uploads to download. For
each subscription it reads the feed newest-first and stops at the hash it saw
last time. It matches each title against the subscription's watchlist rules
(tags, regular expressions, exclusions) and skips anything already in the
download history. The matches are sorted by title and downloaded. Successful
downloads are appended to the history, and each one is announced on the
Discord webhooks its rule names. Configuration is JSON on disk, checked at
start-up and migrated from older file versions.

The model covers the three generations that sit side by side in the
repository:

- **The current pipeline.** Feed scanning and the dedup checkpoint
  (`Watcher`), configuration checks and the interval text (`Config`), the
  notifier (`Webhooker`), the run loop (`Functions`), version migration and
  file paths (`Updates`, `Env`).
- **The intermediate notifier** (`Webhook`).
- **The first generation.** The watcher (`LegacyWatcher`), configuration
  (`LegacyConfig`), notifier (`LegacyWebhook`) and main loop (`LegacyMain`).

Shared helpers sit in separate modules:

- `Text`: substring search, `str.replace`, `str.split`, ASCII case mapping and
  string order.
- `Template`: chains of placeholder replacement.
- `Notify`: the `show_*` field layout, the published-date clean-up and the
  Discord URL split.
- `Matching`: the tag and pattern primitives.
- `Sorting`, `Json`, `Feed` and `Wrappers`.

Several things are parameters of the model rather than modelled behaviour:

- the regular-expression engine, as `search(pattern, title)`;
- the content of each feed, as a function from RSS URL to entries;
- the HTTP status of each download;
- the clock, as the download date given to each torrent.

The process environment is an `Option<string>` per variable that is read, or a
`map` where the code copies the whole environment.

## Model

| member | source | states |
|---|---|---|
| Sorting.SortBy | src/watcher.py:9-18 | the result is ordered by title and is a permutation of the input |
| Sorting.SortByLength | src/watcher.py:16-18 | sorting neither drops nor adds torrents |
| Matching.TagMatch | src/watcher.py:86-91 | some tag occurs in the title when both are lower-cased |
| Matching.SearchAny | src/watcher.py:93-107 | some pattern of the list finds a match in the title |
| Matching.TagMatchIgnoresCase | src/watcher.py:89 | lower-casing the title first does not change the tag verdict |
| Watcher.Decide | src/watcher.py:84-111 | a rule matches iff (no tags or some tag occurs ignoring case), (no patterns or some pattern matches), and no exclusion pattern matches |
| Watcher.EmptyRuleMatchesAll | src/watcher.py:109-111 | a rule with no tags and no patterns takes every title that no exclusion pattern matches |
| Watcher.ClaimFrom | src/watcher.py:83-136 | the rule that claims a title is the first matching rule; no rule claims it when none matches or it is already downloaded |
| Watcher.Consider | src/watcher.py:82-151 | without a watchlist an entry is queued iff its hash is not in the history, with no webhooks and no watchlist name; with one it is queued iff it is not downloaded and some rule matches, and it carries the first matching rule's name (default "Unknown Watchlist") and webhooks |
| Watcher.Cut | src/watcher.py:68-75 | the scan covers exactly the entries before the first one whose hash equals the previous hash |
| Watcher.Scan | src/watcher.py:68-151 | the queue is never longer than the feed: each entry yields at most one queued torrent (which ones: `Watcher.ScanMembers`) |
| Watcher.ScanMembers | src/watcher.py:68-151 | a torrent is queued iff it lies before the checkpoint and passes `Consider` |
| Watcher.DownloadedNeverQueued | src/watcher.py:114-116 | nothing already in the history is queued, and everything queued comes from before the checkpoint |
| Watcher.ScanFromEntries | src/watcher.py:68-133 | every queued torrent is an entry of the feed |
| Watcher.ScanQueuesOnce | src/watcher.py:128-136 | with distinct feed entries, no torrent is queued twice, even when several rules match it |
| Watcher.FetchFeed | src/watcher.py:50-155 | an empty feed yields nothing and commits no checkpoint; otherwise the newest entry's hash becomes the checkpoint and the result is the scan sorted by title, as a permutation |
| Watcher.SetPreviousHash | src/watcher.py:170-175 | only the first subscription with that username changes, and an empty hash keeps the old checkpoint |
| Watcher.SetPreviousHashAt | src/watcher.py:170-175 | with distinct usernames, only the named subscription's checkpoint changes |
| Watcher.FetchAllFrom | src/watcher.py:163-168 | the subscription list keeps its length while checkpoints are committed feed by feed |
| Watcher.FetchAllFromConcat | src/watcher.py:163-168 | the batch from index `i` is the feeds' results concatenated in subscription order |
| Watcher.FetchAllFeeds | src/watcher.py:157-168 | the batch is each subscription's feed result, concatenated in subscription order |
| Watcher.FetchAllFromCommits | src/watcher.py:153-154 | after the loop from `i`, each later subscription carries its own feed's newest hash as checkpoint, and earlier ones are unchanged |
| Watcher.FetchAllFeedsCheckpoints | src/watcher.py:153-168 | after a full pass every subscription's checkpoint is its feed's newest hash, or the old one if the feed was empty |
| Watcher.CrossFeedOrderKept | src/watcher.py:163-168 | the combined batch is not re-sorted across feeds: "Zeta" from the first feed stays ahead of "Alpha" from the second |
| Watcher.AppendToHistory | src/watcher.py:27-48 | the old history is kept as a prefix, and one record per torrent follows in order with its uploader, title, date, page and hash |
| Watcher.AppendKeepsDownloaded | src/watcher.py:39-48 | appending never removes a recorded hash |
| Watcher.AppendedNeverRequeued | src/watcher.py:113-116 | once appended, a torrent's hash is never queued again by any later scan |
| Config.VerifyConfigVersion | src/config.py:136-141 | the version passes iff it is one of 1.0.0, 1.0.1, 1.1.1, 1.1.2, 1.2.0; missing or empty reports the missing version |
| Config.FirstBadWatch | src/config.py:193-210 | finds the first watchlist entry that has an empty name or no tags and no patterns |
| Config.CheckWatchlist | src/config.py:193-212 | passes iff every entry is valid, else reports the problem of the first bad entry |
| Config.VerifySubscriptionEntry | src/config.py:174-212 | each outcome holds exactly under its condition: missing properties first, then the placeholder username, then the placeholder RSS URL, then the watchlist checks |
| Config.EmptyPreviousHashAccepted | src/config.py:175 | an empty `previous_hash` is accepted like any other present one; only a null one is refused |
| Config.GeneratedSubscriptionRefused | src/config.py:75-94 | the generated sample subscription is refused, but only for its unnamed watchlist: its username and URL differ from the placeholders the check compares against |
| Config.FirstBadSub | src/config.py:168-171 | finds the first subscription entry that fails verification |
| Config.VerifySubscriptions | src/config.py:162-171 | the file passes iff it has at least one subscription, an interval of at least 60 seconds, and every entry passes; no or no listed subscriptions is its own error; a too-short interval is reported before the entries are checked; otherwise the first failing entry is reported, with its problem and its username or `Unknown User` |
| Config.PositiveValues | src/config.py:289 | every value in the list is positive, and a value is in it iff some member holds it as an integer (or `True`) |
| Config.PositiveValuesInOrder | src/config.py:289 | the list has one value per positive member, in member order: as many values as positive members, and the member at `i` gives the value at the number of positive members before it |
| Config.Elements | src/config.py:297 | the set of values has the same members as the list |
| Config.SameLengthIffDistinct | src/config.py:297-301 | the set is as long as the list iff the list has no repeats |
| Config.VerifyWebhookEntry | src/config.py:272-303 | missing name/url/notifications, then a missing notification key, then positive values above 6, then repeated positive values, each refused in that order; passes otherwise |
| Config.SharedValueRepeats | src/config.py:297-301 | two keys holding the same positive value make the entry refused as duplicate |
| Config.RepeatShared | src/config.py:289-301 | a repeated value in the list comes from two members holding the same positive value |
| Config.RepeatIffShared | src/config.py:289-301 | the list has a repeat iff two members share a positive value |
| Config.DuplicateSlotsIffShared | src/config.py:289-301 | an entry that passes the key and range checks is refused as duplicate iff two of its members share a positive value |
| Config.SharedSlotRepeats | src/config.py:297-301 | two `show_*` keys sharing a positive slot count as a repeat |
| Config.AcceptedSlotsDistinct | src/config.py:289-301 | an accepted webhook gives each positive slot to at most one `show_*` key |
| Config.AcceptedWebhookShowsAll | src/config.py:272-303 | for an accepted webhook, a field appears in the notification iff its slot is between 1 and 6 |
| Config.Decompose | src/config.py:372-374 | the interval splits into days, hours under 24, minutes under 60 and seconds under 60 that add back up to it |
| Config.DecomposeUnique | src/config.py:372-374 | that split is the only one with those bounds |
| Config.Phrases | src/config.py:376-380 | one phrase per positive component; none when every component is zero or less |
| Config.PhrasesInOrder | src/config.py:376-380 | the phrases are exactly those of the positive components, in order: the positive component at `i` gives the phrase at the number of positive components before it, and there are as many phrases as positive components |
| Config.Parts | src/config.py:372-380 | at most four phrases: those of the positive day, hour, minute and second counts of the interval, in that order |
| Config.EnglishList | src/config.py:382-385 | one phrase alone, two joined by " and ", three or more comma-joined with ", and " before the last |
| Config.IntervalString | src/config.py:365-385 | raises (`values[0]` of an empty list) iff no component is positive; otherwise the phrases joined as an English list |
| Config.PartsEmpty | src/config.py:376-385 | no component is positive iff the interval is at most zero and a whole number of days |
| Config.IntervalTenMinutes | src/config.py:365-385 | 600 seconds reads "10 minutes" |
| Config.PartsAllOnes | src/config.py:372-380 | 90061 seconds gives one of each unit, in the singular |
| Config.EnglishListFour | src/config.py:382-384 | four phrases are joined with commas and ", and" |
| Config.IntervalAllComponents | src/config.py:365-385 | 90061 seconds reads "1 day, 1 hour, 1 minute, and 1 second" |
| Config.IntervalTwoComponents | src/config.py:365-385 | 7260 seconds reads "2 hours and 1 minute", with no comma |
| LegacyConfig.VerifyConfig | config.py:15-18 | refused iff the RSS URL or the interval is null |
| LegacyConfig.EntriesValid | config.py:24-30 | every entry has a name, tags and patterns, and some tag or pattern |
| LegacyConfig.VerifyWatchlist | config.py:21-34 | accepted iff the watchlist key is present, has at least one entry, and every entry is valid |
| LegacyConfig.RecordsComplete | config.py:42-48 | every record has title, date, page and hash |
| LegacyConfig.VerifyHistory | config.py:37-52 | accepted iff the history key is present and every record is complete; an empty history is accepted |
| LegacyConfig.GetKey | config.py:59-69 | the exact key wins, then its upper-case form, then its lower-case form, then the default; the lookup fails only when all are missing |
| LegacyConfig.WatcherInterval | config.py:138-153 | the environment value wins; otherwise the file value is returned iff it is at least 1, else a configuration error |
| LegacyWatcher.TagVerdict | watcher.py:63-71 | "N/A" iff there are no tags; a match iff some tag occurs ignoring case |
| LegacyWatcher.RegexVerdict | watcher.py:73-82 | "N/A" iff there are no patterns; a match iff some pattern finds the title |
| LegacyWatcher.Positive | watcher.py:86-88 | at least one verdict is a match and neither is a miss; two "N/A" never match |
| LegacyWatcher.ClaimFrom | watcher.py:52-109 | the first eligible entry claims the torrent, unless its hash is already in the history |
| LegacyWatcher.Consider | watcher.py:52-109 | a torrent is flagged iff it is not in the history and some entry is eligible; it carries that first entry's webhooks |
| LegacyWatcher.FetchNewTorrents | watcher.py:40-113 | every flagged torrent comes from the feed and is not in the history |
| LegacyWatcher.FetchNewTorrentsMembers | watcher.py:44-109 | a torrent is flagged iff some feed entry passes `Consider` as it |
| LegacyWatcher.AddToHistory | watcher.py:31-38 | one complete record is appended with the torrent's title and hash; the rest of the history is kept |
| LegacyWatcher.AddedNeverRefetched | watcher.py:31-38 | a torrent added to the history is never flagged again |
| LegacyWatcher.AsRule | watcher.py:52-55 | a first-generation entry read as a current rule keeps its tags and patterns, with no exclusions |
| LegacyWatcher.AgreesWithCurrentMatcher | watcher.py:84-109 | for an entry the first-generation checks accept, both generations decide the same way |
| LegacyWatcher.EmptyEntryDisagrees | watcher.py:84-88 | an entry with no tags and no patterns matches nothing in the first generation and everything in the current one |
| LegacyMain.SortTorrents | main.py:37-42 | ordered by title, a permutation, same length |
| LegacyMain.Successes | main.py:80-91 | a torrent is kept iff it is in the batch with status "success"; kept and failed together count the whole batch |
| LegacyMain.Records | main.py:86 | one record per success, carrying its hash |
| LegacyMain.DownloadAll | main.py:79-91 | the history gains one record per success in order, the error count is the number of failures, and every success is then in the history |
| LegacyMain.DownloadOne | main.py:80-90 | one download: a `"success"` status adds this torrent's history record and leaves the error count alone, any other status adds one error and no record |
| LegacyMain.SuccessesRecorded | main.py:85-87 | every successful download is in the history afterwards |
| Notify.SlotsOf | src/webhooker.py:15-27 | the slot read for each `show_*` key is the key's integer value |
| Notify.SlotOwner | src/webhooker.py:16-27 | the field shown at position `i` is the first key in chain order whose value equals `i`; none when no key does |
| Notify.LayoutFrom | src/webhooker.py:15-27 | the fields from position `i` on have slots `i`..6 in increasing order, one per owned position |
| Notify.Layout | src/webhooker.py:15-28 | at most six fields with increasing slots in 1..6, none repeated, exactly the owners of the positions 1..6 |
| Notify.DistinctSlotsShowAll | src/webhooker.py:15-28 | when no two keys share a slot, a field is shown iff its slot is in 1..6 |
| Notify.SharedSlotShadows | src/webhooker.py:16-27 | when two keys share a slot, the later one in the chain is not shown, and an earlier one takes the position |
| Notify.FieldLoopRaises | src/webhook.py:11-23 | the field loop that indexes `notifications[...]` raises iff some `show_*` key is missing |
| Notify.StripSeconds | src/webhooker.py:23 | removing `:SS -0000` never lengthens the date, and a date without `:` is kept |
| Notify.StripRssDate | src/webhooker.py:23 | an RSS date ending in `:SS -0000` loses exactly that ending |
| Notify.FieldFor | src/webhooker.py:16-27 | the published field shows the date without its seconds and offset |
| Notify.ApplyFields | src/webhooker.py:6-28 | one field per shown key, in slot order |
| Notify.ParseUrl | src/webhooker.py:53-64 | the pieces contain no `/` and join back with `/` to the URL with both Discord prefixes removed |
| Notify.ParseDiscordUrl | src/webhooker.py:60-64 | a discord.com webhook URL splits into its id and token |
| Notify.ParseDiscordAppUrl | src/webhooker.py:60-64 | a discordapp.com webhook URL splits into its id and token |
| Text.Split | src/webhooker.py:63 | pieces contain no separator and join back to the input |
| Text.SplitJoin | src/webhooker.py:63 | splitting a join of separator-free pieces gives the pieces back |
| Text.Find | src/updates.py:170 | finds the first occurrence of the needle, and finds nothing iff there is none |
| Text.ReplaceWhole | src/updates.py:170 | replacing a text that is exactly the pattern yields the replacement |
| Text.ParseNatToString | src/config.py:377 | the decimal rendering of a count reads back as the same number |
| Template.NoDollarUnchanged | src/webhooker.py:40-49 | a text without `$` passes through the replacement chain unchanged |
| Template.PlaceholderBecomesValue | src/webhooker.py:40-49 | with prefix-free placeholders, each placeholder on its own becomes its value |
| Template.UnlistedKept | src/webhooker.py:40-49 | a `$` word that no placeholder starts is left in place |
| Webhooker.TagValues | src/webhooker.py:40-49 | one value for each of the ten placeholders |
| Webhooker.InsertTags | src/webhooker.py:31-50 | the template is filled iff the torrent carries a watchlist name; without one, `replace` with `None` raises |
| Webhooker.InsertTagsPlainText | src/webhooker.py:31-50 | a template without `$` comes back unchanged |
| Webhooker.InsertTagsEachTag | src/webhooker.py:40-49 | each placeholder alone becomes its own value |
| Webhooker.CategoryShowsDownloads | src/webhooker.py:47 | `$category` shows the download count |
| Webhooker.OldNameTagMangled | src/webhooker.py:40 | a template written for `$webhook_name` gets the name followed by `_name` |
| Webhooker.CreateWebhook | src/webhooker.py:67-80 | a connection is made iff the URL splits into exactly two pieces, and they are its id and token |
| Webhooker.CreateWebhookFromUrl | src/webhooker.py:67-80 | both Discord URL forms connect with their id and token |
| Webhooker.PlaceholderUrlWouldConnect | src/webhooker.py:89-99 | the sample URL splits into two pieces, so in the model, where `partial` accepts any two pieces, only the constructor's skip of that URL keeps it from connecting |
| Webhooker.Attempt | src/webhooker.py:97-111 | an entry connects iff its URL is not the sample URL and splits in two |
| Webhooker.ConnectLoop | src/webhooker.py:97-111 | a name is connected iff some entry with that name connects |
| Webhooker.ConnectLoopLastWins | src/webhooker.py:106 | of several connecting entries with one name, the last one's connection is kept |
| Webhooker.Connections | src/webhooker.py:85-111 | a lone sample entry gives no connections; otherwise the loop's connections |
| Webhooker.ConnectionsLastWins | src/webhooker.py:97-111 | the connection kept for a name comes from the last entry of that name that connected |
| Webhooker.GetJsonWebhook | src/webhooker.py:113-123 | the first entry with exactly that name, found iff one exists |
| Webhooker.GetDiscordWebhook | src/webhooker.py:125-132 | the connection stored under the name, found iff one is stored |
| Webhooker.Fill | src/webhooker.py:158-163 | a configured text is filled iff it is a string and the torrent has a watchlist name |
| Webhooker.DefaultTitle | src/webhooker.py:159 | the default title is the lead `Downloading New Torrent: ` followed by the torrent's title, unchanged |
| Webhooker.Compose | src/webhooker.py:155-169 | the link is the Nyaa page; an empty title gives the default title and any other title is the configured one filled with the torrent's tags; an empty description gives none and any other is the configured one filled; the fields are the `show_*` layout; building fails exactly when a text cannot be filled |
| Webhooker.SendNotification | src/webhooker.py:134-163 | by name, nothing is sent iff the entry or the connection is missing; with an explicit entry and URL, nothing is sent iff that URL does not connect; otherwise the composed embed goes to that connection |
| Webhooker.PlainTitleShown | src/webhooker.py:158-159 | a title without `$` is shown as written |
| Webhooker.KnownWebhookFound | src/webhooker.py:144-153 | a configured and connected name is always found |
| Webhook.TagValues | src/webhook.py:36-43 | one value for each of the eight placeholders |
| Webhook.InsertTags | src/webhook.py:35-44 | always yields a string, since every key it reads exists on a feed entry; a template without `$` comes back unchanged (each placeholder's own value: `Webhook.InsertTagsEachTag`) |
| Webhook.InsertTagsEachTag | src/webhook.py:36-43 | each placeholder alone becomes its value, `$category` again the download count |
| Webhook.WebhookTagsDiffer | src/webhook.py:36 | `$webhook` is left in place here, while the current notifier mangles `$webhook_name` |
| Webhook.FirstRefused | src/webhook.py:57-65 | finds the first entry that stops the constructor |
| Webhook.Init | src/webhook.py:49-76 | raises iff some entry has an empty name or URL, or a non-sample URL that does not split in two; reports the first such entry and which check failed; otherwise exactly the non-sample names are connected |
| Webhook.InitLastWins | src/webhook.py:69 | a repeated name keeps the last entry's connection |
| Webhook.Lookup | src/webhook.py:100-104 | `notifications[key]` is found iff the key is present |
| Webhook.Fill | src/webhook.py:101-105 | a configured text is filled iff it is a string |
| Webhook.Compose | src/webhook.py:97-111 | fails only by raising; on success every `show_*`, title and description key is present, the link is the Nyaa page, the fields are the layout, an empty title gives the default and any other is the configured one filled with the tags, an empty description gives none and any other is the configured one filled; succeeds whenever all keys are present and both texts are strings |
| Webhook.SendNotification | src/webhook.py:90-119 | nothing is sent iff the entry or the connection is missing by exact name; otherwise the composed embed goes to that connection |
| LegacyWebhook.FirstBadUrl | webhook.py:34-36 | finds the first entry whose URL does not split in two |
| LegacyWebhook.ConnectAll | webhook.py:34-40 | names and connections are stored side by side, one per entry, in entry order |
| LegacyWebhook.Init | webhook.py:24-47 | raises iff some URL does not split in two, reporting the first; otherwise the two lists are aligned with the entries |
| LegacyWebhook.GetWebhookByName | webhook.py:52-56 | the first entry whose name equals the wanted one ignoring case, found iff one exists |
| LegacyWebhook.IndexOf | webhook.py:60 | the first position of the name, found iff the name is listed |
| LegacyWebhook.GetDiscordWebhookByName | webhook.py:58-63 | the connection at the first exact position of the name, found iff the name is listed |
| LegacyWebhook.ConnectionOfFirstEntry | webhook.py:36-40 | the connection found for a name is the one made from the first entry of that name |
| LegacyWebhook.FieldLoop | webhook.py:80-94 | the `while i <= 6` loop adds exactly the fields of the `show_*` layout |
| LegacyWebhook.ElifChain | webhook.py:81-93 | one round picks the first `show_*` key of the chain whose value is `i`, or none when no key holds `i` |
| LegacyWebhook.SendNotification | webhook.py:65-111 | nothing is built iff no entry matches ignoring case; otherwise the keys are all present, the default title is set iff the configured title is empty, the description is copied as is, the fields are the layout and the link is the Nyaa page; it raises only when a key is missing |
| LegacyWebhook.CaseMismatchNotSent | webhook.py:52-63 | a name that matches an entry only ignoring case finds the entry but no connection, so nothing is sent |
| Functions.Partition | src/functions.py:58-74 | a torrent is in the successes (errors) iff it is in the batch and its status is (is not) 200, in batch order |
| Functions.Notices | src/functions.py:68-69 | every notification pairs a successful torrent with one of its webhook names, one per name |
| Functions.Fetch | src/functions.py:35-87 | when no notification raises: successes and errors split the batch in queue order, every success's webhooks are notified, the history gains the successes, and the next run is scheduled at the interval exactly when rescheduling is asked and the interval has a text, the run raising instead when it has none; when one raises: the run stops at that torrent with the downloads so far, the notifications before the raising one, an unchanged history and nothing scheduled |
| Functions.FetchOne | src/functions.py:58-75 | one download: a torrent with status 200 joins the successes and adds its own notifications, any other status joins the errors, so the two lists together grow by exactly this torrent; it reports a raise exactly when the torrent succeeded and one of its notifications raises, keeping the notifications before that one |
| Functions.Announce | src/functions.py:68-69 | one notification per webhook name of the torrent, in order, stopping at the first name whose notification raises and reporting that name |
| Functions.DownloadAll | src/functions.py:58-75 | the download loop ends either after the whole batch, exactly when no torrent is loud, or at the first loud torrent, with the successes and errors of the batch up to and including it |
| Functions.Conclude | src/functions.py:77-87 | after a loop that did not raise, the history gains the successes and the next run is scheduled exactly when asked and the interval has a text |
| Functions.FirstRaising | src/functions.py:68-69 | the first webhook name of a torrent whose notification raises: every earlier name returns |
| Functions.FirstLoud | src/functions.py:58-69 | the first torrent whose download succeeds and one of whose notifications raises: no earlier torrent is like that |
| Functions.ConfiguredRaises | src/webhooker.py:134-163 | with the configured webhooks a notification raises exactly when its entry and its connection are found and the title or the description is a non-empty text that is not a string or meets a torrent without watchlist |
| Functions.StringTemplatesNeverRaise | src/webhooker.py:158-163 | when every configured title and description is a string and every torrent has a watchlist, no torrent is loud, so `fetch` runs to the end |
| Functions.SuccessRecorded | src/functions.py:64-77 | every successful download is in the history afterwards |
| Functions.FailureStaysEligible | src/functions.py:71-77 | a failed download that was not in the history is still not in it, so the next run can retry it |
| Functions.NoticesFor | src/functions.py:64-69 | a webhook is notified about a torrent iff the torrent succeeded and lists that webhook |
| Functions.GetJsonPathAsWritten | src/functions.py:90-98 | the path starts with the watcher directory |
| Functions.AsWrittenPathDiffers | src/functions.py:97-98 | in development the path is the directory glued to `json/dev.` with no slash; it differs from the updater's path iff in development |
| Functions.DevelopmentConfigPath | src/functions.py:97-98 | with the default directory the development config is looked for at `/watcherjson/dev.config.json` |
| Functions.UpgradeAsWritten | src/functions.py:101-222 | only 1.1.2 is upgraded, to 1.2.0; every other version is left as it is |
| Functions.UpgradeAsWrittenStrandsOldConfig | src/functions.py:107-108 | a 1.0.0 configuration stays at 1.0.0 and still passes the version check |
| Functions.Upgrade | src/functions.py:101-172 | with the intended guards, 1.0.0 through 1.1.2 become 1.2.0; other versions are unchanged |
| Functions.UpgradeReachesLatest | src/config.py:311-318 | after the corrected upgrade, every version the check accepts is 1.2.0 and still accepted |
| Updates.V111AsWritten | src/updates.py:26-33 | the guard is always true, so every version is returned unchanged |
| Updates.V112AsWritten | src/updates.py:90-97 | the guard is always true, so every version is returned unchanged |
| Updates.V111AsWrittenSkipsOldFiles | src/updates.py:32-33 | the 1.0.0 and 1.0.1 files are never migrated |
| Updates.V112AsWrittenSkipsOldFiles | src/updates.py:96-97 | the 1.1.0 and 1.1.1 files are never migrated |
| Updates.V111 | src/updates.py:26-87 | 1.0.0 and 1.0.1 become 1.1.1; other versions are unchanged |
| Updates.V112 | src/updates.py:90-137 | 1.1.0 and 1.1.1 become 1.1.2; other versions are unchanged |
| Updates.V120 | src/updates.py:140-230 | only 1.1.2 changes, to 1.2.0 |
| Updates.V121 | src/updates.py:233-254 | only 1.2.0 changes, to 1.2.1 |
| Updates.UpdateFilesAsWritten | src/updates.py:18-23 | only 1.1.2 and 1.2.0 reach 1.2.1; other versions are unchanged |
| Updates.UpdateFiles | src/updates.py:18-23 | with the corrected guards, every version from 1.0.0 to 1.2.0 reaches 1.2.1, and others are unchanged |
| Updates.UpdateFilesIdempotent | src/updates.py:18-23 | running the corrected chain twice is the same as once |
| Updates.UpdateFilesAsWrittenIdempotent | src/updates.py:18-23 | running the chain as written twice is the same as once |
| Updates.AsWrittenDiffersOnOldFiles | src/updates.py:18-97 | the chain as written and the corrected one disagree exactly on 1.0.0, 1.0.1, 1.1.0 and 1.1.1 |
| Updates.GetJsonPath | src/updates.py:7-15 | the path starts with the watcher directory, `/watcher` by default |
| Updates.JsonPathShape | src/updates.py:14-15 | the path is the directory lead, the file name and `.json` |
| Updates.JsonPathsDistinct | src/updates.py:14-15 | different files never share a path |
| Updates.JsonPathDefaults | src/updates.py:14-15 | with nothing set, the path is `/watcher/<name>.json` |
| Updates.JsonPathDevelopment | src/updates.py:14 | the environment name is compared ignoring case, and development files sit under `/json/dev.` |
| Updates.TakeUntil | src/updates.py:170 | the longest prefix without `&`, which is what `[^&]*` matches |
| Updates.ExtractUsername | src/updates.py:170 | there is no user name (the search fails and `.group()` raises) iff the URL has no `u=` |
| Updates.UsernameFromFeedUrl | src/updates.py:170 | from a feed URL whose first `u=` is followed by a name, the extracted user name is that name |
| Updates.DefaultFeedUsername | src/updates.py:160-170 | the default feed URL yields `USERNAME` |
| Updates.Migrate | src/updates.py:208-214 | a record keeps its title, date, page and hash, and gains the feed's user as uploader only when it has none |
| Updates.MigrateHistory | src/updates.py:206-214 | a missing `downloads` list raises, and otherwise every record is migrated in order |
| Updates.MigrationKeepsHashes | src/updates.py:206-214 | the migrated history holds exactly the hashes of the old one |
| Env.JsonPath | src/env.py:6-8 | the path starts with the directory (empty by default) and ends with the file name and `.json` |
| Env.DevelopmentFormIff | src/env.py:7-8 | the `/dev.` form appears iff in development, and the plain form iff not |
| Env.UnsetIsProduction | src/env.py:7 | an unset `ENV` means production |
| Env.UpperCaseDevelopment | src/env.py:7 | `DEVELOPMENT` selects development files too |
| Env.JsonPathsDistinct | src/env.py:7-8 | different files never share a path |
| Env.SameModeAsUpdates | src/env.py:7 | both places decide on development mode the same way, despite their different defaults |

## Left out

- Network, file system, logging and the scheduler are not modelled. Feeds, download statuses and dates are parameters, JSON files are values, and "schedule the next run" is the returned `next` interval.
- The regular-expression engine is a parameter. Pattern compilation errors are not modelled.
- `str.lower` and `str.upper` are modelled as ASCII case mapping. Non-ASCII case mapping is left out.
- `discord.SyncWebhook.partial` is modelled as accepting any two pieces. The library converts the id with `int()`, so a non-numeric id such as `RANDOM_STRING` makes `create_webhook` return `None` from inside its `try`; the model connects it. Discord-side validation of tokens, and the `send` call, are external.
- Floating-point values in JSON are not modelled. A `show_*` value is an integer, a boolean (`True` counts as 1) or something that matches no slot.
- Python dictionaries with repeated keys are not modelled. A JSON object is a list of pairs, and the first pair wins.
- Config.VerifySubscriptionEntry: the `all(...)` test at src/config.py:194 is not modelled. Its `and` chain yields the first falsy property of the watchlist entry, or `webhooks` when every property is truthy, and `all` is applied to that one value. So an empty name or an empty list passes the test, since `all("")` and `all([])` are true. A missing or null property raises a TypeError (`all(None)`). An entry whose properties are all truthy is refused when its `webhooks` list holds a falsy name such as `""`. The name and filter checks that follow the test are modelled.
- A missing key and a JSON `null` are the same `None` in the model, but the source tells them apart in places:
  - `key not in` at src/config.py:274-283 refuses a missing key and accepts a null one, which the model treats as missing;
  - `.get(k, default)` at src/config.py:171, src/updates.py:209 and src/watcher.py:119 and 131-132 falls back to the default only for a missing key, so a null `username` is reported as `None`, not `Unknown User`, a null `uploader` stays null, and a null watchlist `name` or `webhooks` stays `None` (after validation a null property raises at src/config.py:194 first).
- Config.VerifySubscriptions: the `int(...)` coercion of `interval_sec` at src/config.py:165 is not modelled, and the interval is an integer. In the source a missing or null value raises a TypeError, a non-numeric string such as `"abc"` raises a ValueError, and a numeric string such as `"120"` is accepted.
- Notify.StripSeconds: the `:\d\d -0000` strip (src/webhooker.py:23) is modelled for the ASCII digits `0`-`9`. Python's `\d` also matches other Unicode decimal digits.
- LegacyConfig.WatcherInterval: the `int(...)` conversions at config.py:141 and config.py:147 are not modelled, and both intervals are integers. In the source a non-numeric `WATCHER_INTERVAL_SEC` or `watcher_interval_seconds` raises a ValueError.
- The `webhooker` object `fetch` receives is the `Functions.Notifier` parameter of `Functions.Fetch`. `Functions.Configured` builds the one `Webhooker.SendNotification` models; the Discord post itself is external.
- KeyErrors and TypeErrors from torrent dictionaries are not modelled: feed entries always carry every key. Only the lookups whose failure the code treats as an outcome are modelled as errors.
- Sorting.SortBy: ties between equal titles are not modelled. Python would then compare the dictionaries and raise a TypeError. The model places equal titles in some order.
- The file-rewriting bodies of `update_to_v111`/`update_to_v112` are not modelled. This covers src/updates.py:35-87 and 99-137, and src/functions.py:110-162 and 174-213. As written they can never run (see Findings).
- The watchlist reshaping of `update_to_v120` (src/updates.py:172-180 and the matching lines of src/functions.py) only copies keys, with `[]` defaults. That is how `Watcher.Rule` already reads missing keys, so it has no member of its own.
- `Config.append_to_history` (src/config.py:329-362) is not modelled. It writes the success and error lists to the history file, and its successes are already the `Functions.Fetch` history.
- Start-up file generation and parsing are not modelled: `_generate_files`, the `_new_*_json` builders, `_verify_history_parse` and `_verify_webhooks_parse`. They are file I/O around the checks that are modelled.
- `download_torrent` in main.py and src/functions.py performs an HTTP download. Its status is a parameter.
- main.py calls `watcher.fetch_new_torrents`, `add_to_history` and `get_history`. These are taken from the first-generation watcher.py.
- src/__init__.py, src/logger.py and utils/ are not part of this model.
- The `$category` placeholder is filled with the download count in both notifiers (src/webhooker.py:47, src/webhook.py:43). The model keeps this as written and states it in `Webhooker.CategoryShowsDownloads`.
- Two behaviours that a reader might not expect are kept as the code has them:
  - the combined batch of `fetch_all_feeds` is not re-sorted across feeds (`Watcher.CrossFeedOrderKept`);
  - a current-generation rule with no tags and no patterns matches every title it does not exclude (`Watcher.EmptyRuleMatchesAll`, `LegacyWatcher.EmptyEntryDisagrees`).

## Findings

| source | as written | input that shows it | evidently intended | confidence | as-written member | corrected member |
|---|---|---|---|---|---|---|
| src/updates.py:32-33 | `if version != "1.0.0" or version != "1.0.1": return version` is always true | version "1.0.0" is returned unchanged | migrate 1.0.0 and 1.0.1 to 1.1.1 (`and`) | not executed | Updates.V111AsWrittenSkipsOldFiles | Updates.V111 |
| src/updates.py:96-97 | `if version != "1.1.0" or version != "1.1.1": return version` is always true | version "1.1.1" is returned unchanged | migrate 1.1.0 and 1.1.1 to 1.1.2 (`and`) | not executed | Updates.V112AsWrittenSkipsOldFiles | Updates.V112 |
| src/functions.py:97-98 | the development file name `json/dev.<name>.json` has no leading slash | ENV=development, WATCHER_DIR unset gives `/watcherjson/dev.config.json` | `/watcher/json/dev.config.json`, as src/updates.py:14 builds it | not executed | Functions.DevelopmentConfigPath | Updates.GetJsonPath |
| src/functions.py:107-172 | the same always-true `or` guards on `Config.version` skip the 1.1.1 and 1.1.2 upgrades | a 1.0.0 configuration stays at 1.0.0 after `update_and_verify` and passes the version check | upgrade every older version to 1.2.0 | not executed | Functions.UpgradeAsWrittenStrandsOldConfig | Functions.UpgradeReachesLatest |

=== FILE: config.dfy ===
/**
 * The checks the current watcher runs on its JSON files before starting
 * (src/config.py): the version of `config.json`, the subscriptions and their
 * watchlists, the webhook entries and their `show_*` slots, and the English
 * rendering of the check interval. Reading and generating the files is not
 * modelled; their parsed contents are the inputs. An absent value is `None`,
 * whether the key is missing or holds `null`.
 */
module Config {
  import opened Wrappers
  import Text
  import Json
  import Notify

  // ---------------------------------------------------------------- config.json

  /** The versions `_verify_config_parse` accepts. */
  const ValidVersions: seq<string> := ["1.0.0", "1.0.1", "1.1.1", "1.1.2", "1.2.0"]

  datatype ConfigProblem = MissingVersion | UnknownVersion(version: string)

  /** The version check of `_verify_config_parse`: a falsy version is missing, an unlisted one unknown. */
  function VerifyConfigVersion(version: Option<string>): (r: Outcome<ConfigProblem>)
    ensures r == Pass <==> version.Some? && version.value in ValidVersions
    ensures r == Fail(MissingVersion) <==> version.None? || version.value == ""
  {
    match version
    case None => Fail(MissingVersion)
    case Some(v) =>
      if v == "" then Fail(MissingVersion)
      else if v !in ValidVersions then Fail(UnknownVersion(v))
      else Pass
  }

  // -------------------------------------------------------- subscriptions.json

  /** The `username` placeholder the check refuses. */
  const PlaceholderUsername := "USERNAME"

  /** The `rss` placeholder the check refuses. */
  const PlaceholderRss := "https://nyaa.si/?page=rss&u=NYAA_USERNAME"

  /** The smallest `interval_sec` accepted. */
  const MinIntervalSec := 60

  /** One watchlist entry as the checks see it: its `name`, `tags` and `regex`. */
  datatype RawWatch = RawWatch(name: Option<string>, tags: seq<string>, regex: seq<string>)

  /** One `subscriptions` entry. */
  datatype RawSub = RawSub(
    username: Option<string>,
    rss: Option<string>,
    watchlist: Option<seq<RawWatch>>,
    previousHash: Option<string>)

  /** The `message` of a failed `_verify_subscriptions_entry`. */
  datatype SubProblem = MissingProperties | DefaultUsername | DefaultRss | UnnamedWatchlist | NoFilters

  /** A string value that is present and not empty: Python truthiness. */
  predicate Truthy(s: Option<string>) {
    s.Some? && s.value != ""
  }

  /** The four properties are present: `username`, `rss` and `watchlist` truthy, `previous_hash` not null. */
  predicate Complete(sub: RawSub) {
    Truthy(sub.username) && Truthy(sub.rss) && sub.watchlist.Some? && |sub.watchlist.value| > 0
    && sub.previousHash.Some?
  }

  /** A watchlist entry passes: its name is not `""` and it has some tag or pattern. */
  predicate WatchValid(w: RawWatch) {
    w.name != Some("") && |w.tags| + |w.regex| > 0
  }

  /** The problem with the first watchlist entry that fails. */
  function WatchProblem(w: RawWatch): SubProblem {
    if w.name == Some("") then UnnamedWatchlist else NoFilters
  }

  /** The `for watchlist in sub.get('watchlist')` loop from index `k`: the first failing entry. */
  function FirstBadWatch(entries: seq<RawWatch>, k: nat): (r: Option<nat>)
    requires k <= |entries|
    ensures r.None? <==> forall i :: k <= i < |entries| ==> WatchValid(entries[i])
    ensures r.Some? ==> (k <= r.value < |entries| && !WatchValid(entries[r.value])
      && forall i :: k <= i < r.value ==> WatchValid(entries[i]))
    decreases |entries| - k
  {
    if k == |entries| then None
    else if entries[k].name == Some("") then Some(k)
    else if |entries[k].tags| + |entries[k].regex| == 0 then Some(k)
    else FirstBadWatch(entries, k + 1)
  }

  /** The watchlist loop's verdict: the first failing entry decides the message. */
  function CheckWatchlist(entries: seq<RawWatch>): (r: Outcome<SubProblem>)
    ensures r == Pass <==> forall i :: 0 <= i < |entries| ==> WatchValid(entries[i])
    ensures r.Fail? ==> exists i :: (0 <= i < |entries| && !WatchValid(entries[i])
      && (forall j :: 0 <= j < i ==> WatchValid(entries[j])) && r.error == WatchProblem(entries[i]))
  {
    match FirstBadWatch(entries, 0)
    case None => Pass
    case Some(i) => Fail(WatchProblem(entries[i]))
  }

  /** `_verify_subscriptions_entry`: the checks in order, the first failure reported. */
  function VerifySubscriptionEntry(sub: RawSub): (r: Outcome<SubProblem>)
    ensures r == Fail(MissingProperties) <==> !Complete(sub)
    ensures r == Fail(DefaultUsername) <==> Complete(sub) && sub.username.value == PlaceholderUsername
    ensures r == Fail(DefaultRss) <==> Complete(sub) && sub.username.value != PlaceholderUsername && sub.rss.value == PlaceholderRss
    ensures r == Pass <==> (Complete(sub) && sub.username.value != PlaceholderUsername && sub.rss.value != PlaceholderRss
      && forall i :: 0 <= i < |sub.watchlist.value| ==> WatchValid(sub.watchlist.value[i]))
  {
    if !Truthy(sub.username) || !Truthy(sub.rss) || sub.watchlist.None? || |sub.watchlist.value| == 0 || sub.previousHash.None? then
      Fail(MissingProperties)
    else if sub.username.value == PlaceholderUsername then Fail(DefaultUsername)
    else if sub.rss.value == PlaceholderRss then Fail(DefaultRss)
    else CheckWatchlist(sub.watchlist.value)
  }

  /** An empty `previous_hash`, which a fresh subscription has, is accepted like any other value. */
  lemma EmptyPreviousHashAccepted(sub: RawSub, h: string)
    requires sub.previousHash.Some?
    ensures VerifySubscriptionEntry(sub.(previousHash := Some(""))) == VerifySubscriptionEntry(sub.(previousHash := Some(h)))
  {
  }

  /**
   * The entry `_generate_files` writes is refused, but for its unnamed watchlist:
   * its `Username` and `u=USERNAME` are not the placeholders the check looks for.
   */
  lemma GeneratedSubscriptionRefused()
    ensures VerifySubscriptionEntry(RawSub(Some("Username"), Some("https://nyaa.si/?page=rss&u=USERNAME"),
                                           Some([RawWatch(Some(""), [], [])]), Some(""))) == Fail(UnnamedWatchlist)
  {
  }

  /** The contents of `subscriptions.json` as the parse check reads them. */
  datatype SubscriptionsFile = SubscriptionsFile(subscriptions: Option<seq<RawSub>>, intervalSec: int)

  datatype SubscriptionsProblem =
    | NoSubscriptions
    | BadInterval
    | BadSubscription(username: string, problem: SubProblem)

  /** The first subscription that fails, if any. */
  function FirstBadSub(subs: seq<RawSub>, k: nat): (r: Option<nat>)
    requires k <= |subs|
    ensures r.None? <==> forall i :: k <= i < |subs| ==> VerifySubscriptionEntry(subs[i]) == Pass
    ensures r.Some? ==> (k <= r.value < |subs| && VerifySubscriptionEntry(subs[r.value]).Fail?
      && forall i :: k <= i < r.value ==> VerifySubscriptionEntry(subs[i]) == Pass)
    decreases |subs| - k
  {
    if k == |subs| then None
    else if VerifySubscriptionEntry(subs[k]).Fail? then Some(k)
    else FirstBadSub(subs, k + 1)
  }

  /**
   * `_verify_subscriptions_parse`: at least one subscription, an interval of at
   * least 60 seconds, and every subscription passing; a failing one is reported
   * with its username (`Unknown User` when it has none).
   */
  function VerifySubscriptions(file: SubscriptionsFile): (r: Outcome<SubscriptionsProblem>)
    ensures r == Pass <==> (file.subscriptions.Some? && |file.subscriptions.value| > 0 && file.intervalSec >= MinIntervalSec
      && forall i :: 0 <= i < |file.subscriptions.value| ==> VerifySubscriptionEntry(file.subscriptions.value[i]) == Pass)
    ensures r == Fail(BadInterval) <==> file.subscriptions.Some? && |file.subscriptions.value| > 0 && file.intervalSec < MinIntervalSec
    ensures r.Fail? && r.error.BadSubscription? ==> file.subscriptions.Some? && exists i :: (0 <= i < |file.subscriptions.value|
      && VerifySubscriptionEntry(file.subscriptions.value[i]) == Fail(r.error.problem))
    ensures r.Fail? && r.error.BadSubscription? ==>
      && file.subscriptions.Some?
      && FirstBadSub(file.subscriptions.value, 0).Some?
      && var first := file.subscriptions.value[FirstBadSub(file.subscriptions.value, 0).value];
         r.error.username == first.username.GetOr("Unknown User") && Fail(r.error.problem) == VerifySubscriptionEntry(first)
    ensures r == Fail(NoSubscriptions) <==> file.subscriptions.None? || |file.subscriptions.value| == 0
  {
    match file.subscriptions
    case None => Fail(NoSubscriptions)
    case Some(subs) =>
      if |subs| == 0 then Fail(NoSubscriptions)
      else if file.intervalSec < MinIntervalSec then Fail(BadInterval)
      else match FirstBadSub(subs, 0)
        case None => Pass
        case Some(i) => Fail(BadSubscription(subs[i].username.GetOr("Unknown User"), VerifySubscriptionEntry(subs[i]).error))
  }

  // ------------------------------------------------------------- webhooks.json

  /** One `webhooks` entry: `name`, `url` and `notifications`, `None` when the key is missing. */
  datatype RawWebhook = RawWebhook(name: Option<string>, url: Option<string>, notifications: Option<Json.Object>)

  datatype WebhookProblem = MissingWebhookProperties | MissingShowKeys | SlotOutOfRange | DuplicateSlots

  /**
   * `[value for key, value in notifications.items() if isinstance(value, int) and value > 0]`,
   * booleans included (`true` counts as 1).
   */
  function PositiveValues(n: Json.Object): (r: seq<int>)
    ensures forall x :: x in r ==> x > 0
    ensures forall x :: x in r <==> exists i :: 0 <= i < |n| && Json.AsInt(n[i].1) == Some(x) && x > 0
    decreases |n|
  {
    if |n| == 0 then []
    else
      var rest := PositiveValues(n[1..]);
      assert forall i :: 1 <= i < |n| ==> n[i] == n[1..][i - 1];
      var v := Json.AsInt(n[0].1);
      if v.Some? && v.value > 0 then [v.value] + rest else rest
  }

  /** The elements of a list: `set(values)`. */
  function Elements(s: seq<int>): (r: set<int>)
    ensures forall x :: x in r <==> x in s
    decreases |s|
  {
    if |s| == 0 then {} else {s[0]} + Elements(s[1..])
  }

  /** No value occurs twice. */
  predicate Distinct(s: seq<int>) {
    forall i, j :: 0 <= i < j < |s| ==> s[i] != s[j]
  }

  /** `len(values) == len(set(values))` holds exactly when no value occurs twice. */
  lemma {:induction false} SameLengthIffDistinct(s: seq<int>)
    ensures |Elements(s)| <= |s|
    ensures |Elements(s)| == |s| <==> Distinct(s)
    decreases |s|
  {
    if |s| > 0 {
      SameLengthIffDistinct(s[1..]);
      var tail := s[1..];
      if s[0] in tail {
        assert Elements(s) == Elements(tail);
        var j :| 0 <= j < |tail| && tail[j] == s[0];
        assert s[j + 1] == s[0];
      } else {
        assert s[0] !in Elements(tail);
        assert |Elements(s)| == 1 + |Elements(tail)|;
        if Distinct(tail) {
          forall i, j | 0 <= i < j < |s| ensures s[i] != s[j] {
            if i == 0 {
              assert s[j] == tail[j - 1];
            } else {
              assert s[i] == tail[i - 1] && s[j] == tail[j - 1];
            }
          }
        } else {
          var i, j :| 0 <= i < j < |tail| && tail[i] == tail[j];
          assert s[i + 1] == s[j + 1];
        }
      }
    }
  }

  /** Every one of the eight notification keys is present. */
  predicate HasNotificationKeys(n: Json.Object) {
    forall k :: k in Notify.NotificationKeys ==> Json.Has(n, k)
  }

  /** `_verify_webhook_entry`: the checks in order, the first failure reported. */
  function VerifyWebhookEntry(w: RawWebhook): (r: Outcome<WebhookProblem>)
    ensures r == Fail(MissingWebhookProperties) <==> w.name.None? || w.url.None? || w.notifications.None?
    ensures r == Fail(MissingShowKeys) <==> (w.name.Some? && w.url.Some? && w.notifications.Some?
      && !HasNotificationKeys(w.notifications.value))
    ensures r == Pass <==> (w.name.Some? && w.url.Some? && w.notifications.Some?
      && HasNotificationKeys(w.notifications.value)
      && (forall x :: x in PositiveValues(w.notifications.value) ==> x <= 6)
      && Distinct(PositiveValues(w.notifications.value)))
  {
    if w.name.None? || w.url.None? || w.notifications.None? then Fail(MissingWebhookProperties)
    else
      var n := w.notifications.value;
      if exists k :: k in Notify.NotificationKeys && !Json.Has(n, k) then Fail(MissingShowKeys)
      else
        var values := PositiveValues(n);
        SameLengthIffDistinct(values);
        if exists x :: x in values && x > 6 then Fail(SlotOutOfRange)
        else if |values| != |Elements(values)| then Fail(DuplicateSlots)
        else Pass
  }

  /** Two members with the same positive integer value put that value twice into the list. */
  lemma {:induction false} SharedValueRepeats(n: Json.Object, i: nat, j: nat, v: int)
    requires i < j < |n| && v > 0
    requires Json.AsInt(n[i].1) == Some(v) && Json.AsInt(n[j].1) == Some(v)
    ensures !Distinct(PositiveValues(n))
    decreases |n|
  {
    if i == 0 {
      HeadRepeated(n, j, v);
    } else {
      var tail := n[1..];
      assert n[i] == tail[i - 1] && n[j] == tail[j - 1];
      SharedValueRepeats(tail, i - 1, j - 1, v);
      TailRepeated(n);
    }
  }

  /** A positive first value that comes back later is a repeat. */
  lemma HeadRepeated(n: Json.Object, j: nat, v: int)
    requires 0 < j < |n| && v > 0
    requires Json.AsInt(n[0].1) == Some(v) && Json.AsInt(n[j].1) == Some(v)
    ensures !Distinct(PositiveValues(n))
  {
    var tail := n[1..];
    var rest := PositiveValues(tail);
    PositiveValuesCons(n);
    assert PositiveHead(n) == [v];
    assert tail[j - 1] == n[j];
    assert v in rest;
    var k :| 0 <= k < |rest| && rest[k] == v;
    var all := PositiveValues(n);
    assert all[0] == v && all[k + 1] == rest[k];
  }

  /** A repeat among the later values is a repeat of the whole list. */
  lemma TailRepeated(n: Json.Object)
    requires |n| > 0 && !Distinct(PositiveValues(n[1..]))
    ensures !Distinct(PositiveValues(n))
  {
    PositiveValuesCons(n);
    PrependKeepsRepeat(PositiveHead(n), PositiveValues(n[1..]));
  }

  /** Values put in front of a list with a repeat leave the repeat in place. */
  lemma PrependKeepsRepeat(head: seq<int>, rest: seq<int>)
    requires !Distinct(rest)
    ensures !Distinct(head + rest)
  {
    var a, b :| 0 <= a < b < |rest| && rest[a] == rest[b];
    var all := head + rest;
    assert all[a + |head|] == rest[a] && all[b + |head|] == rest[b];
  }

  /** The value the first member contributes to `PositiveValues`, if any. */
  function PositiveHead(n: Json.Object): seq<int>
    requires |n| > 0
  {
    var v := Json.AsInt(n[0].1);
    if v.Some? && v.value > 0 then [v.value] else []
  }

  /** A non-empty object contributes its first value, then those of the rest. */
  lemma PositiveValuesCons(n: Json.Object)
    requires |n| > 0
    ensures PositiveValues(n) == PositiveHead(n) + PositiveValues(n[1..])
  {
  }

  /** A member whose value is a positive integer (or `true`). */
  predicate PositiveMember(m: (string, Json.Value)) {
    Json.AsInt(m.1).Some? && Json.AsInt(m.1).value > 0
  }

  /** How many of the first `i` members are positive: the place of member `i`'s value. */
  function PositiveRank(n: Json.Object, i: nat): nat
    requires i <= |n|
  {
    if i == 0 then 0 else PositiveRank(n, i - 1) + (if PositiveMember(n[i - 1]) then 1 else 0)
  }

  /** Dropping the first member shifts every rank by what that member contributes. */
  lemma {:induction false} PositiveRankCons(n: Json.Object, i: nat)
    requires 1 <= i <= |n|
    ensures PositiveRank(n, i) == |PositiveHead(n)| + PositiveRank(n[1..], i - 1)
  {
    if i > 1 {
      PositiveRankCons(n, i - 1);
      assert n[1..][i - 2] == n[i - 1];
    }
  }

  /**
   * The list holds one value per positive member, in member order: the member
   * at `i` gives the value at the number of positive members before it, and
   * there are as many values as positive members.
   */
  lemma {:induction false} PositiveValuesInOrder(n: Json.Object)
    ensures |PositiveValues(n)| == PositiveRank(n, |n|)
    ensures forall i :: 0 <= i < |n| && PositiveMember(n[i]) ==>
      PositiveRank(n, i) < |PositiveValues(n)| && PositiveValues(n)[PositiveRank(n, i)] == Json.AsInt(n[i].1).value
    decreases |n|
  {
    if |n| > 0 {
      var tail := n[1..];
      PositiveValuesInOrder(tail);
      PositiveValuesCons(n);
      PositiveRankCons(n, |n|);
      forall i | 0 <= i < |n| && PositiveMember(n[i])
        ensures PositiveRank(n, i) < |PositiveValues(n)| && PositiveValues(n)[PositiveRank(n, i)] == Json.AsInt(n[i].1).value
      {
        if i > 0 {
          assert tail[i - 1] == n[i];
          PositiveValueShift(n, i);
        }
      }
    }
  }

  /** A value found in the tail's list sits one place further on when the first member is positive. */
  lemma PositiveValueShift(n: Json.Object, i: nat)
    requires 0 < i < |n| && PositiveMember(n[i])
    requires PositiveRank(n[1..], i - 1) < |PositiveValues(n[1..])|
    requires PositiveValues(n[1..])[PositiveRank(n[1..], i - 1)] == Json.AsInt(n[i].1).value
    ensures PositiveRank(n, i) < |PositiveValues(n)| && PositiveValues(n)[PositiveRank(n, i)] == Json.AsInt(n[i].1).value
  {
    PositiveValuesCons(n);
    PositiveRankCons(n, i);
  }

  /** A repeat in one value put in front of a list is a repeat of the list or of that value in it. */
  lemma RepeatSplit(head: seq<int>, rest: seq<int>)
    requires |head| <= 1 && !Distinct(head + rest)
    ensures !Distinct(rest) || (|head| == 1 && head[0] in rest)
  {
    var all := head + rest;
    var a, b :| 0 <= a < b < |all| && all[a] == all[b];
    if |head| == 1 && a == 0 {
      assert all[b] == rest[b - 1];
    } else {
      assert all[a] == rest[a - |head|] && all[b] == rest[b - |head|];
    }
  }

  /** Two members share the positive integer value `v`. */
  predicate SharedPositive(n: Json.Object, i: nat, j: nat, v: int) {
    i < j < |n| && v > 0 && Json.AsInt(n[i].1) == Some(v) && Json.AsInt(n[j].1) == Some(v)
  }

  /** The converse of `SharedValueRepeats`: a repeated value comes from two members sharing it. */
  lemma {:induction false} RepeatShared(n: Json.Object)
    requires !Distinct(PositiveValues(n))
    ensures exists i, j, v :: SharedPositive(n, i, j, v)
    decreases |n|
  {
    assert |n| > 0;
    var tail := n[1..];
    PositiveValuesCons(n);
    RepeatSplit(PositiveHead(n), PositiveValues(tail));
    if !Distinct(PositiveValues(tail)) {
      RepeatShared(tail);
      var i: nat, j: nat, v: int :| SharedPositive(tail, i, j, v);
      assert n[i + 1] == tail[i] && n[j + 1] == tail[j];
      assert SharedPositive(n, i + 1, j + 1, v);
    } else {
      var v := PositiveHead(n)[0];
      assert v in PositiveValues(tail);
      var j :| 0 <= j < |tail| && Json.AsInt(tail[j].1) == Some(v) && v > 0;
      assert n[j + 1] == tail[j];
      assert SharedPositive(n, 0, j + 1, v);
    }
  }

  /** The duplicate check refuses exactly the objects in which two members share a positive value. */
  lemma RepeatIffShared(n: Json.Object)
    ensures !Distinct(PositiveValues(n)) <==> exists i, j, v :: SharedPositive(n, i, j, v)
  {
    if exists i, j, v :: SharedPositive(n, i, j, v) {
      var i: nat, j: nat, v: int :| SharedPositive(n, i, j, v);
      SharedValueRepeats(n, i, j, v);
    }
    if !Distinct(PositiveValues(n)) {
      RepeatShared(n);
    }
  }

  /**
   * Past the key and range checks, an entry is refused as duplicate exactly when
   * two of its members share a positive value.
   */
  lemma DuplicateSlotsIffShared(w: RawWebhook)
    requires w.name.Some? && w.url.Some? && w.notifications.Some? && HasNotificationKeys(w.notifications.value)
    requires forall x :: x in PositiveValues(w.notifications.value) ==> x <= 6
    ensures VerifyWebhookEntry(w) == Fail(DuplicateSlots) <==> exists i, j, v :: SharedPositive(w.notifications.value, i, j, v)
  {
    RepeatIffShared(w.notifications.value);
  }

  /** Two different `show_*` keys with the same positive slot repeat a value. */
  lemma SharedSlotRepeats(n: Json.Object, s: Notify.Show, s': Notify.Show)
    requires s != s'
    requires Notify.Slot(n, s).Some? && Notify.Slot(n, s).value > 0 && Notify.Slot(n, s) == Notify.Slot(n, s')
    ensures !Distinct(PositiveValues(n))
  {
    var v := Notify.Slot(n, s).value;
    var vs := Json.Get(n, Notify.Key(s)).value;
    var vs' := Json.Get(n, Notify.Key(s')).value;
    var i :| 0 <= i < |n| && n[i] == (Notify.Key(s), vs);
    var j :| 0 <= j < |n| && n[j] == (Notify.Key(s'), vs');
    assert Notify.Key(s) != Notify.Key(s');
    if i < j {
      SharedValueRepeats(n, i, j, v);
    } else {
      SharedValueRepeats(n, j, i, v);
    }
  }

  /** A webhook entry that passes has no two `show_*` keys in the same positive slot. */
  lemma AcceptedSlotsDistinct(w: RawWebhook)
    requires VerifyWebhookEntry(w) == Pass
    ensures Notify.SlotsDistinct(Notify.SlotsOf(w.notifications.value))
  {
    var n := w.notifications.value;
    var slots := Notify.SlotsOf(n);
    forall s, s' | s != s' && slots.Of(s).Some? && slots.Of(s).value > 0
      ensures slots.Of(s) != slots.Of(s')
    {
      if slots.Of(s) == slots.Of(s') {
        SharedSlotRepeats(n, s, s');
      }
    }
  }

  /**
   * For an accepted webhook nothing is shadowed: `_apply_fields` shows every
   * `show_*` key whose slot is 1 to 6 and no other.
   */
  lemma AcceptedWebhookShowsAll(w: RawWebhook, s: Notify.Show)
    requires VerifyWebhookEntry(w) == Pass
    ensures var slots := Notify.SlotsOf(w.notifications.value);
      s in Notify.Layout(slots) <==> slots.Of(s).Some? && 1 <= slots.Of(s).value <= 6
  {
    AcceptedSlotsDistinct(w);
    Notify.DistinctSlotsShowAll(Notify.SlotsOf(w.notifications.value), s);
  }

  // ---------------------------------------------------------- interval string

  /**
   * `divmod` by 86400, then 3600, then 60. Python's `divmod` floors, which Dafny's
   * `/` and `%` agree with for a positive divisor.
   */
  function Decompose(interval: int): (r: (int, int, int, int))
    ensures r.0 * 86400 + r.1 * 3600 + r.2 * 60 + r.3 == interval
    ensures 0 <= r.1 < 24 && 0 <= r.2 < 60 && 0 <= r.3 < 60
  {
    var days := interval / 86400;
    var hours := (interval % 86400) / 3600;
    var minutes := (interval % 86400 % 3600) / 60;
    var seconds := interval % 86400 % 3600 % 60;
    (days, hours, minutes, seconds)
  }

  /** The decomposition is the only one with hours below 24 and minutes and seconds below 60. */
  lemma DecomposeUnique(interval: int, d: int, h: int, m: int, s: int)
    requires d * 86400 + h * 3600 + m * 60 + s == interval
    requires 0 <= h < 24 && 0 <= m < 60 && 0 <= s < 60
    ensures Decompose(interval) == (d, h, m, s)
  {
    var r := Decompose(interval);
    assert 0 <= h * 3600 + m * 60 + s < 86400;
    assert 0 <= r.1 * 3600 + r.2 * 60 + r.3 < 86400;
    assert r.0 == d;
    assert 0 <= m * 60 + s < 3600 && 0 <= r.2 * 60 + r.3 < 3600;
    assert r.1 == h;
    assert r.2 == m;
  }

  /** One listed component: `f"{value} {name}"`, with an `s` when the value is above 1. */
  function Phrase(value: nat, name: string): string {
    Text.NatToString(value) + " " + name + (if value > 1 then "s" else "")
  }

  /** The phrases of the positive components, in the order given. */
  function Phrases(components: seq<(int, string)>): (r: seq<string>)
    ensures |r| <= |components|
    ensures |r| == 0 <==> forall i :: 0 <= i < |components| ==> components[i].0 <= 0
    decreases |components|
  {
    if |components| == 0 then []
    else
      var rest := Phrases(components[1..]);
      assert forall i :: 1 <= i < |components| ==> components[i] == components[1..][i - 1];
      var (value, name) := components[0];
      if value > 0 then [Phrase(value, name)] + rest else rest
  }

  /** The phrases `get_interval_string` lists for an interval. */
  function Parts(interval: int): (r: seq<string>)
    ensures |r| <= 4
    ensures var (d, h, m, s) := Decompose(interval);
      r == Listed((d, "day")) + Listed((h, "hour")) + Listed((m, "minute")) + Listed((s, "second"))
  {
    var (d, h, m, s) := Decompose(interval);
    PhrasesFour((d, "day"), (h, "hour"), (m, "minute"), (s, "second"));
    Phrases([(d, "day"), (h, "hour"), (m, "minute"), (s, "second")])
  }

  /** How many of the first `i` components are positive: the place of component `i`'s phrase. */
  function Rank(components: seq<(int, string)>, i: nat): nat
    requires i <= |components|
  {
    if i == 0 then 0 else Rank(components, i - 1) + (if components[i - 1].0 > 0 then 1 else 0)
  }

  /** A non-empty list's phrases are its head's followed by its tail's. */
  lemma PhrasesUncons(components: seq<(int, string)>)
    requires |components| > 0
    ensures Phrases(components) == Listed(components[0]) + Phrases(components[1..])
  {
  }

  /** Dropping the head shifts every rank by the head's own contribution. */
  lemma {:induction false} RankCons(components: seq<(int, string)>, i: nat)
    requires 1 <= i <= |components|
    ensures Rank(components, i) == (if components[0].0 > 0 then 1 else 0) + Rank(components[1..], i - 1)
  {
    if i > 1 {
      RankCons(components, i - 1);
      assert components[1..][i - 2] == components[i - 1];
    }
  }

  /**
   * The phrases are exactly those of the positive components, in their order:
   * the positive component at `i` gives phrase number `Rank(components, i)`, and
   * there are as many phrases as positive components.
   */
  lemma {:induction false} PhrasesInOrder(components: seq<(int, string)>)
    ensures |Phrases(components)| == Rank(components, |components|)
    ensures forall i :: 0 <= i < |components| && components[i].0 > 0 ==>
      Rank(components, i) < |Phrases(components)| && Phrases(components)[Rank(components, i)] == Phrase(components[i].0, components[i].1)
    decreases |components|
  {
    if |components| > 0 {
      var tail := components[1..];
      PhrasesInOrder(tail);
      PhrasesUncons(components);
      RankCons(components, |components|);
      forall i | 0 <= i < |components| && components[i].0 > 0
        ensures Rank(components, i) < |Phrases(components)| && Phrases(components)[Rank(components, i)] == Phrase(components[i].0, components[i].1)
      {
        if i > 0 {
          RankCons(components, i);
          assert tail[i - 1] == components[i];
        }
      }
    }
  }

  /** The phrase one component contributes: none unless it is positive. */
  function Listed(c: (int, string)): seq<string> {
    if c.0 > 0 then [Phrase(c.0, c.1)] else []
  }

  /** The four components of an interval contribute their phrases one after another. */
  lemma {:induction false} PhrasesFour(a: (int, string), b: (int, string), c: (int, string), d: (int, string))
    ensures Phrases([a, b, c, d]) == Listed(a) + Listed(b) + Listed(c) + Listed(d)
  {
    PhrasesThree(b, c, d);
    PhrasesCons(a, [b, c, d]);
    assert [a] + [b, c, d] == [a, b, c, d];
    Regroup(Listed(a), Listed(b) + Listed(c), Listed(d));
    Regroup(Listed(a), Listed(b), Listed(c));
  }

  /** The last three components contribute their phrases one after another. */
  lemma {:induction false} PhrasesThree(b: (int, string), c: (int, string), d: (int, string))
    ensures Phrases([b, c, d]) == Listed(b) + Listed(c) + Listed(d)
  {
    PhrasesTwo(c, d);
    PhrasesCons(b, [c, d]);
    assert [b] + [c, d] == [b, c, d];
    Regroup(Listed(b), Listed(c), Listed(d));
  }

  /** The last two components contribute their phrases one after another. */
  lemma {:induction false} PhrasesTwo(c: (int, string), d: (int, string))
    ensures Phrases([c, d]) == Listed(c) + Listed(d)
  {
    var empty: seq<(int, string)> := [];
    PhrasesCons(d, empty);
    assert [d] + empty == [d];
    assert Phrases(empty) == [];
    PhrasesCons(c, [d]);
    assert [c] + [d] == [c, d];
  }

  /** Concatenation of phrase lists is associative. */
  lemma Regroup(x: seq<string>, y: seq<string>, z: seq<string>)
    ensures x + (y + z) == x + y + z
  {
  }

  /** A component in front contributes its phrase, if any, before the others. */
  lemma PhrasesCons(c: (int, string), rest: seq<(int, string)>)
    ensures Phrases([c] + rest) == Listed(c) + Phrases(rest)
  {
    assert ([c] + rest)[1..] == rest;
  }

  /**
   * The list joined in English: one item alone, two with ` and `, three or more
   * with commas and a final `, and `.
   */
  function EnglishList(parts: seq<string>): (r: string)
    requires |parts| >= 1
    ensures |parts| == 1 ==> r == parts[0]
    ensures |parts| == 2 ==> r == parts[0] + " and " + parts[1]
    ensures |parts| >= 3 ==> r == Text.Join(parts[..|parts| - 1], ", ") + ", and " + parts[|parts| - 1]
  {
    if |parts| > 1 then
      var last := parts[|parts| - 1];
      var values := parts[..|parts| - 1];
      Text.Join(values, ", ") + (if |values| > 1 then "," else "") + " and " + last
    else parts[0]
  }

  /**
   * `Config.get_interval_string`. `None` stands for the `IndexError` of
   * `values[0]` when no component is positive: zero, or a negative multiple of a day.
   */
  function IntervalString(interval: int): (r: Option<string>)
    ensures r.None? <==> interval <= 0 && interval % 86400 == 0
    ensures interval > 0 ==> r.Some?
    ensures r.Some? ==> |Parts(interval)| >= 1 && r.value == EnglishList(Parts(interval))
  {
    var parts := Parts(interval);
    PartsEmpty(interval);
    if |parts| == 0 then None else Some(EnglishList(parts))
  }

  /** No component is positive exactly for zero and the negative multiples of a day. */
  lemma PartsEmpty(interval: int)
    ensures |Parts(interval)| == 0 <==> interval <= 0 && interval % 86400 == 0
  {
    var (d, h, m, s) := Decompose(interval);
    var comps: seq<(int, string)> := [(d, "day"), (h, "hour"), (m, "minute"), (s, "second")];
    assert |Parts(interval)| == 0 <==> d <= 0 && h <= 0 && m <= 0 && s <= 0 by {
      assert Parts(interval) == Phrases(comps);
      assert comps[0].0 == d && comps[1].0 == h && comps[2].0 == m && comps[3].0 == s;
    }
    if interval <= 0 && interval % 86400 == 0 {
      DecomposeUnique(interval, interval / 86400, 0, 0, 0);
    }
  }

  /** Ten minutes, the default interval, reads `10 minutes`. */
  lemma IntervalTenMinutes()
    ensures IntervalString(600) == Some("10 minutes")
  {
    DecomposeUnique(600, 0, 0, 10, 0);
    assert Parts(600) == Phrases([(0, "day"), (0, "hour"), (10, "minute"), (0, "second")]);
    PhrasesFour((0, "day"), (0, "hour"), (10, "minute"), (0, "second"));
    TenMinutesPhrase();
    assert Listed((10, "minute")) == ["10 minutes"];
    assert Parts(600) == ["10 minutes"];
  }

  /** Ten of a unit are named in the plural. */
  lemma TenMinutesPhrase()
    ensures Phrase(10, "minute") == "10 minutes"
  {
    assert Text.NatToString(10) == "10" by {
      assert Text.NatToString(1) == "1";
    }
  }

  /** The phrases of an interval of one day, one hour, one minute and one second. */
  lemma PartsAllOnes()
    ensures Parts(90061) == ["1 day", "1 hour", "1 minute", "1 second"]
  {
    DecomposeUnique(90061, 1, 1, 1, 1);
    assert Parts(90061) == Phrases([(1, "day"), (1, "hour"), (1, "minute"), (1, "second")]);
    PhrasesFour((1, "day"), (1, "hour"), (1, "minute"), (1, "second"));
    PhraseSingular("day");
    PhraseSingular("hour");
    PhraseSingular("minute");
    PhraseSingular("second");
    assert "1 " + "day" == "1 day" && "1 " + "hour" == "1 hour";
    assert "1 " + "minute" == "1 minute" && "1 " + "second" == "1 second";
  }

  /** A count of one is written without the plural `s`. */
  lemma PhraseSingular(name: string)
    ensures Phrase(1, name) == "1 " + name
    ensures Listed((1, name)) == ["1 " + name]
  {
    assert Text.NatToString(1) == "1";
  }

  /** Three or more phrases get commas and a final `, and`. */
  lemma EnglishListFour(a: string, b: string, c: string, d: string)
    ensures EnglishList([a, b, c, d]) == a + ", " + b + ", " + c + ", and " + d
  {
    var parts := [a, b, c, d];
    assert parts[..3] == [a, b, c];
    assert [a, b, c][1..] == [b, c];
    assert [b, c][1..] == [c];
    assert Text.Join([c], ", ") == c;
    assert Text.Join([b, c], ", ") == b + ", " + c;
    assert Text.Join([a, b, c], ", ") == a + ", " + Text.Join([b, c], ", ");
  }

  /** All four components, each 1, are listed with commas and a final `and`. */
  lemma IntervalAllComponents()
    ensures IntervalString(90061) == Some("1 day, 1 hour, 1 minute, and 1 second")
  {
    var r := IntervalString(90061);
    assert r.Some? && r.value == EnglishList(Parts(90061));
    PartsAllOnes();
    EnglishListFour("1 day", "1 hour", "1 minute", "1 second");
    LiteralFour();
  }

  /** The four singular phrases joined with commas and a final `, and `. */
  lemma LiteralFour()
    ensures "1 day" + ", " + "1 hour" + ", " + "1 minute" + ", and " + "1 second"
      == "1 day, 1 hour, 1 minute, and 1 second"
  {
  }

  /** Two components are joined with ` and ` alone. */
  lemma IntervalTwoComponents()
    ensures IntervalString(7260) == Some("2 hours and 1 minute")
  {
    PartsTwoComponents();
    assert IntervalString(7260) == Some(EnglishList(["2 hours", "1 minute"]));
    assert EnglishList(["2 hours", "1 minute"]) == "2 hours" + " and " + "1 minute";
    assert "2 hours" + " and " + "1 minute" == "2 hours and 1 minute";
  }

  /** Two hours and one minute give a plural and a singular phrase, and nothing for the zero components. */
  lemma PartsTwoComponents()
    ensures Parts(7260) == ["2 hours", "1 minute"]
  {
    DecomposeUnique(7260, 0, 2, 1, 0);
    assert Parts(7260) == Phrases([(0, "day"), (2, "hour"), (1, "minute"), (0, "second")]);
    PhrasesFour((0, "day"), (2, "hour"), (1, "minute"), (0, "second"));
    PhraseSingular("minute");
    assert Text.NatToString(2) == "2";
    assert Phrase(2, "hour") == "2 hours";
    assert Listed((0, "day")) == [] && Listed((0, "second")) == [];
    assert "1 " + "minute" == "1 minute";
    assert Listed((2, "hour")) == ["2 hours"];
  }
}

=== FILE: env.dfy ===
/**
 * The path helper of src/env.py, `Env.json_path`: the `WATCHER_DIR` value (empty
 * when unset), then `/dev.<name>.json` in development or `/<name>.json`
 * otherwise. The two environment variables are parameters; `None` is unset.
 */
module Env {
  import opened Wrappers
  import Text
  import Updates

  /** `os.environ.get("ENV", "production").lower() == "development"`. */
  predicate Development(env: Option<string>) {
    Text.Lower(env.GetOr("production")) == "development"
  }

  /** What `Env.json_path` puts before the file name: the directory and the mode's separator. */
  function Lead(env: Option<string>, watcherDir: Option<string>): string {
    watcherDir.GetOr("") + (if Development(env) then "/dev." else "/")
  }

  /** `Env.json_path`: the directory, then the file name in its mode's form. */
  function JsonPath(env: Option<string>, watcherDir: Option<string>, filename: string): (r: string)
    ensures Text.StartsWith(r, watcherDir.GetOr(""))
    ensures Text.EndsWith(r, filename + ".json")
  {
    var lead := Lead(env, watcherDir);
    var file := filename + ".json";
    assert (lead + file)[..|watcherDir.GetOr("")|] == watcherDir.GetOr("");
    assert (lead + file)[|lead|..] == file;
    lead + file
  }

  /** The development form is produced exactly in development mode. */
  lemma DevelopmentFormIff(env: Option<string>, watcherDir: Option<string>, filename: string)
    ensures JsonPath(env, watcherDir, filename) == watcherDir.GetOr("") + "/dev." + filename + ".json" <==> Development(env)
    ensures JsonPath(env, watcherDir, filename) == watcherDir.GetOr("") + "/" + filename + ".json" <==> !Development(env)
  {
    var dir := watcherDir.GetOr("");
    assert |dir + "/dev." + filename + ".json"| != |dir + "/" + filename + ".json"|;
  }

  /** An unset `ENV` means production. */
  lemma UnsetIsProduction(watcherDir: Option<string>, filename: string)
    ensures JsonPath(None, watcherDir, filename) == watcherDir.GetOr("") + "/" + filename + ".json"
  {
    assert Text.Lower("production") == "production";
  }

  /** The mode name is compared ignoring case. */
  lemma UpperCaseDevelopment(watcherDir: Option<string>, filename: string)
    ensures JsonPath(Some("DEVELOPMENT"), watcherDir, filename) == watcherDir.GetOr("") + "/dev." + filename + ".json"
  {
    assert Text.Lower("DEVELOPMENT") == "development";
  }

  /** Different files never share a path. */
  lemma JsonPathsDistinct(env: Option<string>, watcherDir: Option<string>, f1: string, f2: string)
    requires f1 != f2
    ensures JsonPath(env, watcherDir, f1) != JsonPath(env, watcherDir, f2)
  {
    var lead := Lead(env, watcherDir);
    assert lead + (f1 + ".json") == lead + f1 + ".json";
    assert lead + (f2 + ".json") == lead + f2 + ".json";
    if lead + f1 + ".json" == lead + f2 + ".json" {
      Text.MiddleDetermined(lead, f1, f2, ".json");
    }
  }

  /**
   * This helper and the migrations' `get_json_path` choose the mode alike,
   * although their defaults differ in case.
   */
  lemma SameModeAsUpdates(env: Option<string>)
    ensures Development(env) <==> Updates.Development(env)
  {
    if env.None? {
      assert Text.Lower("production") == "production";
      assert Text.Lower("PRODUCTION") == "production";
    }
  }
}

=== FILE: feed.dfy ===
/** The shape of one RSS entry of a Nyaa feed, shared by every generation of the watcher. */
module Feed {

  /**
   * One `feedparser` entry: `title`, `id` (the Nyaa page), `link` (the .torrent URL),
   * `nyaa_infohash`, `published` and the `nyaa_*` statistics, kept as the text the
   * feed carries.
   */
  datatype Torrent = Torrent(
    title: string,
    id: string,
    link: string,
    infohash: string,
    published: string,
    downloads: string,
    seeders: string,
    leechers: string,
    size: string,
    category: string)
}

=== FILE: functions.dfy ===
/**
 * The scheduler callback and helpers of src/functions.py. `fetch` downloads
 * every queued torrent, sends the webhook notifications of the ones that
 * succeed, records only those in the history and schedules the next run. The
 * download outcome, the clock and the scheduler are parameters: `statusOf` is
 * the HTTP status `download_torrent` reports (500 when it raises) and `dateOf`
 * the `download_datetime` attached to each torrent.
 */
module Functions {
  import opened Wrappers
  import Text
  import Config
  import Updates
  import Webhooker
  import Json
  import opened Watcher

  /** The status `download_torrent` reports for a completed download. */
  const Ok := 200

  /** The torrents of `queue` whose download has status `Ok` (or not), in queue order. */
  function Partition(queue: seq<Queued>, statusOf: Queued -> int, ok: bool): (r: seq<Queued>)
    ensures |r| <= |queue|
    ensures forall q :: q in r <==> q in queue && (statusOf(q) == Ok) == ok
  {
    if |queue| == 0 then []
    else
      var rest := Partition(queue[1..], statusOf, ok);
      assert forall q :: q in queue <==> q == queue[0] || q in queue[1..];
      if (statusOf(queue[0]) == Ok) == ok then [queue[0]] + rest else rest
  }

  /** One notification per webhook name of each torrent, in order. */
  function Notices(torrents: seq<Queued>): (r: seq<(string, Queued)>)
    ensures forall n :: n in r ==> n.1 in torrents && n.0 in n.1.webhooks
    ensures |r| == WebhookTotal(torrents)
  {
    if |torrents| == 0 then []
    else
      var rest := Notices(torrents[1..]);
      assert forall q :: q in torrents[1..] ==> q in torrents;
      seq(|torrents[0].webhooks|, k requires 0 <= k < |torrents[0].webhooks| => (torrents[0].webhooks[k], torrents[0])) + rest
  }

  /** The number of webhook names over all `torrents`. */
  function WebhookTotal(torrents: seq<Queued>): nat {
    if |torrents| == 0 then 0 else |torrents[0].webhooks| + WebhookTotal(torrents[1..])
  }

  /** How a run of `fetch` ended. */
  datatype Stop =
    | Finished
      /** `send_notification` raised for webhook name `webhook` of the torrent at `torrent`. */
    | NotificationRaised(torrent: nat, webhook: nat)
      /** Rescheduling asked for the text of an interval that has none. */
    | IntervalRaised

  /** What one run of `fetch` leaves behind. */
  datatype Run = Run(
    successes: seq<Queued>,
    errors: seq<Queued>,
    notifications: seq<(string, Queued)>,
    downloads: seq<DownloadRecord>,
    next: Option<int>,
    stop: Stop)

  /**
   * What `webhooker.send_notification(name, torrent)` does for a webhook name
   * and a torrent; `Webhooker.SendNotification` with no explicit webhook models it.
   */
  type Notifier = (string, Queued) -> Result<Webhooker.Delivery, Webhooker.SendError>

  /** The notifier the configured webhooks and connections give. */
  function Configured(hooks: seq<Webhooker.WebhookJson>, connections: map<string, Webhooker.Connection>): Notifier {
    (name, q) => Webhooker.SendNotification(hooks, connections, name, q, None, "")
  }

  /** A configured text `_insert_tags` cannot fill: neither empty nor a string it can fill for `q`. */
  predicate Unfillable(v: Option<Json.Value>, q: Queued) {
    v != Some(Json.Str("")) && !(v.Some? && v.value.Str? && q.watchlist.Some?)
  }

  /**
   * With the configured webhooks a notification raises exactly when its entry
   * and its connection are found and the title or the description cannot be
   * filled in.
   */
  lemma ConfiguredRaises(hooks: seq<Webhooker.WebhookJson>, connections: map<string, Webhooker.Connection>,
                         name: string, q: Queued)
    ensures NoticeRaises(Configured(hooks, connections), name, q) <==>
      && Webhooker.GetJsonWebhook(hooks, name).Some?
      && name in connections
      && (|| Unfillable(Json.Get(Webhooker.GetJsonWebhook(hooks, name).value.notifications, "title"), q)
          || Unfillable(Json.Get(Webhooker.GetJsonWebhook(hooks, name).value.notifications, "description"), q))
  {
  }

  /** `send_notification(name, q)` raises rather than returning. */
  predicate NoticeRaises(notify: Notifier, name: string, q: Queued) {
    notify(name, q) == Failure(Webhooker.Raises)
  }

  /** The first webhook name of `q`, from position `k` on, whose notification raises. */
  function FirstRaising(notify: Notifier,
                        q: Queued, k: nat): (r: Option<nat>)
    requires k <= |q.webhooks|
    ensures r.Some? ==> k <= r.value < |q.webhooks| && NoticeRaises(notify, q.webhooks[r.value], q)
    ensures forall j :: k <= j < |q.webhooks| && (r.None? || j < r.value) ==>
      !NoticeRaises(notify, q.webhooks[j], q)
    decreases |q.webhooks| - k
  {
    if k == |q.webhooks| then None
    else if NoticeRaises(notify, q.webhooks[k], q) then Some(k)
    else FirstRaising(notify, q, k + 1)
  }

  /** The configured text under `key` is a string. */
  predicate TextValued(n: Json.Object, key: string) {
    Json.Get(n, key).Some? && Json.Get(n, key).value.Str?
  }

  /**
   * When every configured title and description is a string and every torrent
   * has a watchlist, no notification raises, so `fetch` runs to the end.
   */
  lemma StringTemplatesNeverRaise(queue: seq<Queued>, statusOf: Queued -> int,
                                  hooks: seq<Webhooker.WebhookJson>, connections: map<string, Webhooker.Connection>)
    requires forall q :: q in queue ==> q.watchlist.Some?
    requires forall h :: h in hooks ==> TextValued(h.notifications, "title") && TextValued(h.notifications, "description")
    ensures FirstLoud(queue, statusOf, Configured(hooks, connections), 0).None?
  {
    var notify := Configured(hooks, connections);
    forall j | 0 <= j < |queue| ensures !Loud(statusOf, notify, queue[j]) {
      var q := queue[j];
      forall k | 0 <= k < |q.webhooks| ensures !NoticeRaises(notify, q.webhooks[k], q) {
        ConfiguredRaises(hooks, connections, q.webhooks[k], q);
      }
    }
  }

  /** A torrent whose download succeeds and one of whose notifications raises. */
  predicate Loud(statusOf: Queued -> int, notify: Notifier, q: Queued)
  {
    statusOf(q) == Ok && FirstRaising(notify, q, 0).Some?
  }

  /** The position of the first loud torrent of `queue` from `i` on. */
  function FirstLoud(queue: seq<Queued>, statusOf: Queued -> int, notify: Notifier, i: nat): (r: Option<nat>)
    requires i <= |queue|
    ensures r.Some? ==> i <= r.value < |queue| && Loud(statusOf, notify, queue[r.value])
    ensures forall j :: i <= j < |queue| && (r.None? || j < r.value) ==> !Loud(statusOf, notify, queue[j])
    decreases |queue| - i
  {
    if i == |queue| then None
    else if Loud(statusOf, notify, queue[i]) then Some(i)
    else FirstLoud(queue, statusOf, notify, i + 1)
  }

  /**
   * `fetch`: each queued torrent goes to `successes` on status 200 and to
   * `errors` otherwise, keeping queue order; the notifications go out for the
   * successes only; `append_to_history` receives the successes; and the next run
   * is scheduled after `interval` seconds when `reschedule` is set. A
   * notification that raises ends the run on the spot: later torrents are not
   * downloaded, the history is not written and nothing is scheduled. Asking to
   * reschedule at an interval with no text raises after the history is written.
   */
  method Fetch(queue: seq<Queued>, downloads: seq<DownloadRecord>, statusOf: Queued -> int, dateOf: Queued -> string,
               notify: Notifier,
               interval: int, reschedule: bool) returns (run: Run)
    ensures FirstLoud(queue, statusOf, notify, 0).None? ==>
      && run.successes == Partition(queue, statusOf, true)
      && run.errors == Partition(queue, statusOf, false)
      && |run.successes| + |run.errors| == |queue|
      && run.notifications == Notices(run.successes)
      && run.downloads == AppendToHistory(downloads, run.successes, dateOf)
      && (run.next.Some? <==> reschedule && Config.IntervalString(interval).Some?)
      && (run.stop == IntervalRaised <==> reschedule && Config.IntervalString(interval).None?)
      && !run.stop.NotificationRaised?
    ensures var loud := FirstLoud(queue, statusOf, notify, 0);
      loud.Some? ==>
        var at := loud.value;
        && run.stop == NotificationRaised(at, FirstRaising(notify, queue[at], 0).value)
        && run.successes == Partition(queue[..at + 1], statusOf, true)
        && run.errors == Partition(queue[..at + 1], statusOf, false)
        && run.notifications == Notices(Partition(queue[..at], statusOf, true)) + OwnNotices(queue[at])[..run.stop.webhook]
        && run.downloads == downloads
        && run.next.None?
    ensures run.next.Some? ==> run.next.value == interval
  {
    var successes, errors, notifications, failed, at := DownloadAll(queue, statusOf, notify);
    if failed.Some? {
      ghost var loud := FirstLoud(queue, statusOf, notify, 0);
      assert loud == Some(at) && at < |queue|;
      run := Run(successes, errors, notifications, downloads, None, NotificationRaised(at, failed.value));
    } else {
      run := Conclude(queue, downloads, statusOf, dateOf, interval, reschedule, successes, errors, notifications);
    }
  }

  /**
   * The download loop of `fetch`: it stops at the first notification that
   * raises, `failed` naming the webhook and `at` the torrent.
   */
  method DownloadAll(queue: seq<Queued>, statusOf: Queued -> int,
                     notify: Notifier)
    returns (successes: seq<Queued>, errors: seq<Queued>, notifications: seq<(string, Queued)>, failed: Option<nat>, at: nat)
    ensures FirstLoud(queue, statusOf, notify, 0) == (if failed.Some? then Some(at) else None)
    ensures failed.None? ==> successes == Partition(queue, statusOf, true) && errors == Partition(queue, statusOf, false)
    ensures failed.None? ==> notifications == Notices(successes) && |successes| + |errors| == |queue|
    ensures failed.Some? ==> at < |queue| && failed == FirstRaising(notify, queue[at], 0)
    ensures failed.Some? ==>
      successes == Partition(queue[..at + 1], statusOf, true) && errors == Partition(queue[..at + 1], statusOf, false)
    ensures failed.Some? && at < |queue| ==>
      notifications == Notices(Partition(queue[..at], statusOf, true)) + OwnNotices(queue[at])[..failed.value]
  {
    successes, errors, notifications, failed, at := [], [], [], None, 0;
    while at < |queue|
      invariant 0 <= at <= |queue|
      invariant successes == Partition(queue[..at], statusOf, true)
      invariant errors == Partition(queue[..at], statusOf, false)
      invariant notifications == Notices(successes)
      invariant |successes| + |errors| == at
      invariant FirstLoud(queue, statusOf, notify, 0) == FirstLoud(queue, statusOf, notify, at)
    {
      var successes', errors', notifications', failed' := FetchOne(queue, at, statusOf, notify, successes, errors, notifications);
      if failed'.Some? {
        successes, errors, notifications, failed := successes', errors', notifications', failed';
        return;
      }
      successes, errors, notifications := successes', errors', notifications';
      at := at + 1;
    }
    assert queue[..at] == queue;
  }

  /**
   * The end of a `fetch` whose notifications all returned: the history gains the
   * successes, then the next run is scheduled, which raises when the interval
   * has no text.
   */
  method Conclude(queue: seq<Queued>, downloads: seq<DownloadRecord>, statusOf: Queued -> int, dateOf: Queued -> string,
                  interval: int, reschedule: bool,
                  successes: seq<Queued>, errors: seq<Queued>, notifications: seq<(string, Queued)>) returns (run: Run)
    requires successes == Partition(queue, statusOf, true)
    requires errors == Partition(queue, statusOf, false)
    ensures run.successes == successes && run.errors == errors && run.notifications == notifications
    ensures run.downloads == AppendToHistory(downloads, successes, dateOf)
    ensures run.next.Some? <==> reschedule && Config.IntervalString(interval).Some?
    ensures run.next.Some? ==> run.next.value == interval
    ensures run.stop == IntervalRaised <==> reschedule && Config.IntervalString(interval).None?
    ensures !run.stop.NotificationRaised?
  {
    var history := downloads;
    if |queue| > 0 {
      history := AppendToHistory(downloads, successes, dateOf);
    } else {
      assert successes == [];
    }
    if reschedule && Config.IntervalString(interval).None? {
      run := Run(successes, errors, notifications, history, None, IntervalRaised);
    } else {
      run := Run(successes, errors, notifications, history, if reschedule then Some(interval) else None, Finished);
    }
  }

  /**
   * One round of the `fetch` loop: the torrent at `i` is downloaded and filed by
   * its status; `failed` is the webhook name whose notification raised.
   */
  method FetchOne(queue: seq<Queued>, i: nat, statusOf: Queued -> int,
                  notify: Notifier,
                  successes: seq<Queued>, errors: seq<Queued>, notifications: seq<(string, Queued)>)
    returns (successes': seq<Queued>, errors': seq<Queued>, notifications': seq<(string, Queued)>, failed: Option<nat>)
    requires i < |queue|
    requires successes == Partition(queue[..i], statusOf, true)
    requires errors == Partition(queue[..i], statusOf, false)
    requires notifications == Notices(successes)
    ensures successes' == Partition(queue[..i + 1], statusOf, true)
    ensures errors' == Partition(queue[..i + 1], statusOf, false)
    ensures |successes'| + |errors'| == |successes| + |errors| + 1
    ensures failed.Some? <==> Loud(statusOf, notify, queue[i])
    ensures failed.Some? ==> failed == FirstRaising(notify, queue[i], 0)
    ensures failed.Some? ==> notifications' == notifications + OwnNotices(queue[i])[..failed.value]
    ensures failed.None? ==> notifications' == Notices(successes')
  {
    var torrent := queue[i];
    PartitionStep(queue, i, statusOf);
    if statusOf(torrent) == Ok {
      NoticesSnoc(successes, torrent);
      notifications', failed := Announce(notifications, torrent, notify);
      successes', errors' := successes + [torrent], errors;
    } else {
      successes', errors', notifications', failed := successes, errors + [torrent], notifications, None;
    }
  }

  /** One more torrent of the queue goes to the side its status selects. */
  lemma PartitionStep(queue: seq<Queued>, i: nat, statusOf: Queued -> int)
    requires i < |queue|
    ensures Partition(queue[..i + 1], statusOf, true) ==
      Partition(queue[..i], statusOf, true) + (if statusOf(queue[i]) == Ok then [queue[i]] else [])
    ensures Partition(queue[..i + 1], statusOf, false) ==
      Partition(queue[..i], statusOf, false) + (if statusOf(queue[i]) == Ok then [] else [queue[i]])
  {
    assert queue[..i + 1] == queue[..i] + [queue[i]];
    PartitionSnoc(queue[..i], queue[i], statusOf, true);
    PartitionSnoc(queue[..i], queue[i], statusOf, false);
  }

  /**
   * The `for webhook_name in torrent['webhooks']` loop: one notification per
   * name, in order, until one raises; `failed` is the name that raised.
   */
  method Announce(sent: seq<(string, Queued)>, torrent: Queued,
                  notify: Notifier)
    returns (r: seq<(string, Queued)>, failed: Option<nat>)
    ensures failed == FirstRaising(notify, torrent, 0)
    ensures failed.None? ==> r == sent + OwnNotices(torrent)
    ensures failed.Some? ==> r == sent + OwnNotices(torrent)[..failed.value]
  {
    r := sent;
    var k := 0;
    while k < |torrent.webhooks|
      invariant 0 <= k <= |torrent.webhooks|
      invariant r == sent + OwnNotices(torrent)[..k]
      invariant FirstRaising(notify, torrent, 0) == FirstRaising(notify, torrent, k)
    {
      if NoticeRaises(notify, torrent.webhooks[k], torrent) {
        failed := Some(k);
        return;
      }
      r := r + [(torrent.webhooks[k], torrent)];
      assert OwnNotices(torrent)[..k + 1] == OwnNotices(torrent)[..k] + [(torrent.webhooks[k], torrent)];
      k := k + 1;
    }
    failed := None;
    assert OwnNotices(torrent)[..k] == OwnNotices(torrent);
  }

  /** The notifications of one torrent. */
  function OwnNotices(t: Queued): (r: seq<(string, Queued)>)
    ensures |r| == |t.webhooks|
    ensures forall k :: 0 <= k < |r| ==> r[k] == (t.webhooks[k], t)
  {
    seq(|t.webhooks|, k requires 0 <= k < |t.webhooks| => (t.webhooks[k], t))
  }

  /** Appending a torrent to the queue appends it to the side its status selects. */
  lemma {:induction false} PartitionSnoc(queue: seq<Queued>, t: Queued, statusOf: Queued -> int, ok: bool)
    ensures Partition(queue + [t], statusOf, ok) ==
      Partition(queue, statusOf, ok) + (if (statusOf(t) == Ok) == ok then [t] else [])
    decreases |queue|
  {
    if |queue| > 0 {
      var longer := queue + [t];
      assert longer[0] == queue[0] && longer[1..] == queue[1..] + [t];
      PartitionSnoc(queue[1..], t, statusOf, ok);
      PartitionCons(longer, statusOf, ok);
      PartitionCons(queue, statusOf, ok);
      var head := if (statusOf(queue[0]) == Ok) == ok then [queue[0]] else [];
      var last := if (statusOf(t) == Ok) == ok then [t] else [];
      assert Partition(longer, statusOf, ok) == head + (Partition(queue[1..], statusOf, ok) + last);
      assert head + (Partition(queue[1..], statusOf, ok) + last) == (head + Partition(queue[1..], statusOf, ok)) + last;
    } else {
      assert queue + [t] == [t];
      assert [t][1..] == [];
    }
  }

  /** The head of a non-empty queue goes in front of the partition of its tail. */
  lemma PartitionCons(queue: seq<Queued>, statusOf: Queued -> int, ok: bool)
    requires |queue| > 0
    ensures Partition(queue, statusOf, ok) ==
      (if (statusOf(queue[0]) == Ok) == ok then [queue[0]] else []) + Partition(queue[1..], statusOf, ok)
  {
  }

  /** Appending a torrent appends its own notifications. */
  lemma {:induction false} NoticesSnoc(torrents: seq<Queued>, t: Queued)
    ensures Notices(torrents + [t]) == Notices(torrents) + OwnNotices(t)
    decreases |torrents|
  {
    if |torrents| > 0 {
      var longer := torrents + [t];
      assert longer[0] == torrents[0] && longer[1..] == torrents[1..] + [t];
      NoticesSnoc(torrents[1..], t);
      NoticesCons(longer);
      NoticesCons(torrents);
    } else {
      assert torrents + [t] == [t];
      assert Notices([t][1..]) == [];
      NoticesCons([t]);
    }
  }

  /** A non-empty sequence's notifications start with those of its head. */
  lemma NoticesCons(torrents: seq<Queued>)
    requires |torrents| > 0
    ensures Notices(torrents) == OwnNotices(torrents[0]) + Notices(torrents[1..])
  {
    assert OwnNotices(torrents[0]) == seq(|torrents[0].webhooks|, k requires 0 <= k < |torrents[0].webhooks| => (torrents[0].webhooks[k], torrents[0]));
  }

  /** Every success is recorded, so the next scan skips it. */
  lemma SuccessRecorded(queue: seq<Queued>, downloads: seq<DownloadRecord>, statusOf: Queued -> int, dateOf: Queued -> string, q: Queued)
    requires q in queue && statusOf(q) == Ok
    ensures Downloaded(AppendToHistory(downloads, Partition(queue, statusOf, true), dateOf), q.torrent.infohash)
  {
    var s := Partition(queue, statusOf, true);
    var h := AppendToHistory(downloads, s, dateOf);
    var k :| 0 <= k < |s| && s[k] == q;
    assert h[|downloads| + k].hash == q.torrent.infohash;
  }

  /**
   * A failed download stays eligible: unless its hash was already downloaded or
   * another torrent with that hash succeeded, it is still absent from the history.
   */
  lemma FailureStaysEligible(queue: seq<Queued>, downloads: seq<DownloadRecord>, statusOf: Queued -> int, dateOf: Queued -> string, q: Queued)
    requires q in queue && statusOf(q) != Ok
    requires !Downloaded(downloads, q.torrent.infohash)
    requires forall p :: p in queue && statusOf(p) == Ok ==> p.torrent.infohash != q.torrent.infohash
    ensures !Downloaded(AppendToHistory(downloads, Partition(queue, statusOf, true), dateOf), q.torrent.infohash)
  {
    var s := Partition(queue, statusOf, true);
    var h := AppendToHistory(downloads, s, dateOf);
    forall i | 0 <= i < |h| ensures h[i].hash != q.torrent.infohash {
      if i < |downloads| {
        assert h[..|downloads|][i] == downloads[i];
      } else {
        assert s[i - |downloads|] in s;
      }
    }
  }

  /** A notification names a torrent exactly when that torrent succeeded and lists the webhook. */
  lemma {:induction false} NoticesFor(torrents: seq<Queued>, q: Queued, name: string)
    ensures (name, q) in Notices(torrents) <==> q in torrents && name in q.webhooks
    decreases |torrents|
  {
    if |torrents| > 0 {
      NoticesFor(torrents[1..], q, name);
      var own := OwnNotices(torrents[0]);
      assert Notices(torrents) == own + Notices(torrents[1..]);
      assert q in torrents <==> q == torrents[0] || q in torrents[1..];
      if q == torrents[0] && name in q.webhooks {
        var k :| 0 <= k < |q.webhooks| && q.webhooks[k] == name;
        assert own[k] == (name, q);
      }
    }
  }

  // ---------------------------------------------------------------------------
  // Paths and versions
  // ---------------------------------------------------------------------------

  /**
   * `get_json_path` as written here: the development lead `json/dev.` has no
   * leading `/`, unlike the production lead `/`.
   */
  function GetJsonPathAsWritten(env: Option<string>, watcherDir: Option<string>, filename: string): (r: string)
    ensures Text.StartsWith(r, watcherDir.GetOr("/watcher"))
  {
    var dir := watcherDir.GetOr("/watcher");
    var path := (if Updates.Development(env) then "json/dev." else "/") + filename + ".json";
    assert dir + path == dir + ((if Updates.Development(env) then "json/dev." else "/") + filename + ".json");
    dir + path
  }

  /**
   * In development the path as written glues the file to the directory name, so
   * it differs from the migrations' path; in production the two agree.
   */
  lemma AsWrittenPathDiffers(env: Option<string>, watcherDir: Option<string>, filename: string)
    ensures Updates.Development(env) ==>
      GetJsonPathAsWritten(env, watcherDir, filename) == watcherDir.GetOr("/watcher") + "json/dev." + filename + ".json"
    ensures Updates.Development(env) <==>
      GetJsonPathAsWritten(env, watcherDir, filename) != Updates.GetJsonPath(env, watcherDir, filename)
  {
    Updates.JsonPathShape(env, watcherDir, filename);
    var dir := watcherDir.GetOr("/watcher");
    assert |dir + "json/dev." + filename + ".json"| != |dir + "/json/dev." + filename + ".json"|;
  }

  /** With the default directory, the development config is looked for at `/watcherjson/dev.config.json`. */
  lemma DevelopmentConfigPath()
    ensures GetJsonPathAsWritten(Some("development"), None, "config") == "/watcherjson/dev.config.json"
  {
    assert Text.Lower("development") == "development";
    assert "/watcher" + "json/dev." + "config" + ".json" == "/watcherjson/dev.config.json";
  }

  /**
   * `update_to_v111`, `update_to_v112` and `update_to_v120` of this file, as
   * `Config.update_and_verify` runs them on `Config.version`. The first two share
   * the always-true guards of the migrations, so only 1.1.2 moves, to 1.2.0.
   */
  function UpgradeAsWritten(version: string): (r: string)
    ensures version == "1.1.2" ==> r == "1.2.0"
    ensures version != "1.1.2" ==> r == version
  {
    Updates.V120(Updates.V112AsWritten(Updates.V111AsWritten(version)))
  }

  /** A 1.0.0 configuration passes the version check without having been migrated. */
  lemma UpgradeAsWrittenStrandsOldConfig()
    ensures UpgradeAsWritten("1.0.0") == "1.0.0"
    ensures Config.VerifyConfigVersion(Some(UpgradeAsWritten("1.0.0"))) == Pass
  {
    assert "1.0.0" in Config.ValidVersions;
  }

  /** The same three steps with the intended guards: every earlier version reaches 1.2.0. */
  function Upgrade(version: string): (r: string)
    ensures version in ["1.0.0", "1.0.1", "1.1.0", "1.1.1", "1.1.2"] ==> r == "1.2.0"
    ensures version !in ["1.0.0", "1.0.1", "1.1.0", "1.1.1", "1.1.2"] ==> r == version
  {
    Updates.V120(Updates.V112(Updates.V111(version)))
  }

  /** After the corrected upgrade, every accepted configuration is at 1.2.0 and still accepted. */
  lemma UpgradeReachesLatest(version: string)
    requires Config.VerifyConfigVersion(Some(version)) == Pass
    ensures Upgrade(version) == "1.2.0"
    ensures Config.VerifyConfigVersion(Some(Upgrade(version))) == Pass
  {
    assert version in Config.ValidVersions;
    assert "1.2.0" in Config.ValidVersions;
  }
}

=== FILE: json.dfy ===
/**
 * The part of a parsed JSON document the configuration checks and the
 * notification builders look at: scalar values and objects. An object is a list
 * of key/value members with distinct keys, as `json.loads` produces.
 */
module Json {
  import opened Wrappers

  /** A JSON value; arrays, nested objects and floats are all `Other`. */
  datatype Value = Str(s: string) | Int(i: int) | Bool(b: bool) | Null | Other

  type Object = seq<(string, Value)>

  /** `key in obj`. */
  predicate Has(obj: Object, key: string) {
    exists i :: 0 <= i < |obj| && obj[i].0 == key
  }

  /** `obj.get(key)`: `None` when the key is absent. */
  function Get(obj: Object, key: string): (r: Option<Value>)
    ensures r.Some? <==> Has(obj, key)
    ensures r.Some? ==> exists i :: 0 <= i < |obj| && obj[i] == (key, r.value)
    decreases |obj|
  {
    if |obj| == 0 then None
    else if obj[0].0 == key then Some(obj[0].1)
    else
      var rest := Get(obj[1..], key);
      assert forall i :: 1 <= i < |obj| ==> obj[i] == obj[1..][i - 1];
      rest
  }

  /**
   * The integer a value stands for under `isinstance(value, int)`: Python's
   * `bool` is an `int`, so `true` is 1 and `false` is 0.
   */
  function AsInt(v: Value): (r: Option<int>)
    ensures r.Some? <==> v.Int? || v.Bool?
    ensures v == Bool(true) ==> r == Some(1)
  {
    match v
    case Int(i) => Some(i)
    case Bool(b) => Some(if b then 1 else 0)
    case _ => None
  }

  /** Python's `value == n` for an integer `n`. */
  predicate EqualsInt(v: Value, n: int) {
    AsInt(v) == Some(n)
  }
}

=== FILE: legacy_config.dfy ===
/**
 * The configuration checks of the first-generation watcher (config.py): the shape
 * checks on `config.json`, `watchlist.json` and `history.json`, the environment
 * lookup `_get_key`, and the interval check of `get_watcher_interval`.
 * A JSON `null` is `None`; the files' contents are passed in.
 */
module LegacyConfig {
  import opened Wrappers
  import Text

  /** The contents of `config.json`. */
  datatype ConfigFile = ConfigFile(nyaaRss: Option<string>, intervalSeconds: Option<int>)

  /**
   * One `watchlist.json` entry. A missing or empty `webhooks` key is the empty list,
   * which is how the watcher reads it.
   */
  datatype WatchEntry = WatchEntry(
    name: Option<string>,
    tags: Option<seq<string>>,
    regex: Option<seq<string>>,
    webhooks: seq<string>)

  /** One `history.json` record. */
  datatype HistoryRecord = HistoryRecord(
    title: Option<string>,
    date: Option<string>,
    page: Option<string>,
    hash: Option<string>)

  /** The error `get_watcher_interval` raises. */
  datatype ConfigError = NonPositiveInterval

  /** `_verify_config`: both `nyaa_rss` and `watcher_interval_seconds` must be non-null. */
  function VerifyConfig(c: ConfigFile): (r: bool)
    ensures !r <==> c.nyaaRss.None? || c.intervalSeconds.None?
  {
    if c.nyaaRss.None? || c.intervalSeconds.None? then false else true
  }

  /** A watchlist entry `_verify_watchlist` accepts. */
  predicate EntryValid(e: WatchEntry) {
    && e.name.Some? && e.tags.Some? && e.regex.Some?
    && (|e.tags.value| > 0 || |e.regex.value| > 0)
  }

  /** The `for entry in watchlist["watchlist"]` loop of `_verify_watchlist`. */
  function EntriesValid(entries: seq<WatchEntry>): (r: bool)
    ensures r <==> forall i :: 0 <= i < |entries| ==> EntryValid(entries[i])
    decreases |entries|
  {
    if |entries| == 0 then true
    else
      var e := entries[0];
      if e.name.None? || e.tags.None? || e.regex.None? || (|e.tags.value| == 0 && |e.regex.value| == 0) then false
      else
        var rest := EntriesValid(entries[1..]);
        assert forall i :: 1 <= i < |entries| ==> entries[i] == entries[1..][i - 1];
        rest
  }

  /**
   * `_verify_watchlist` on the `watchlist` key (`None` when the key is missing):
   * the list must be present, non-empty and every entry valid.
   */
  function VerifyWatchlist(watchlist: Option<seq<WatchEntry>>): (r: bool)
    ensures r <==> (watchlist.Some? && |watchlist.value| >= 1
      && forall i :: 0 <= i < |watchlist.value| ==> EntryValid(watchlist.value[i]))
  {
    match watchlist
    case None => false
    case Some(entries) => if |entries| >= 1 then EntriesValid(entries) else false
  }

  /** The history record has all four keys `add_to_history` writes. */
  predicate RecordComplete(h: HistoryRecord) {
    h.title.Some? && h.date.Some? && h.page.Some? && h.hash.Some?
  }

  /** The `for entry in history["history"]` loop of `_verify_history`. */
  function RecordsComplete(records: seq<HistoryRecord>): (r: bool)
    ensures r <==> forall i :: 0 <= i < |records| ==> RecordComplete(records[i])
    decreases |records|
  {
    if |records| == 0 then true
    else
      var h := records[0];
      if h.title.None? || h.date.None? || h.page.None? || h.hash.None? then false
      else
        var rest := RecordsComplete(records[1..]);
        assert forall i :: 1 <= i < |records| ==> records[i] == records[1..][i - 1];
        rest
  }

  /**
   * `_verify_history` on the `history` key (`None` when missing): an empty list is
   * accepted, otherwise every record must have all four fields non-null.
   */
  function VerifyHistory(history: Option<seq<HistoryRecord>>): (r: bool)
    ensures history == Some([]) ==> r
    ensures r <==> history.Some? && forall i :: 0 <= i < |history.value| ==> RecordComplete(history.value[i])
  {
    match history
    case None => false
    case Some(records) => if |records| == 0 then true else RecordsComplete(records)
  }

  /**
   * `Config._get_key`: the value under `key`, else under `key.upper()`, else under
   * `key.lower()`, else the default when one is given; `None` stands for `False`.
   */
  function GetKey(env: map<string, string>, key: string, default: Option<string>): (r: Option<string>)
    ensures key in env ==> r == Some(env[key])
    ensures key !in env && Text.Upper(key) in env ==> r == Some(env[Text.Upper(key)])
    ensures key !in env && Text.Upper(key) !in env && Text.Lower(key) in env ==> r == Some(env[Text.Lower(key)])
    ensures r.None? <==> key !in env && Text.Upper(key) !in env && Text.Lower(key) !in env && default.None?
    ensures r.Some? ==> r.value in env.Values || r == default
  {
    if key in env then Some(env[key])
    else if Text.Upper(key) in env then Some(env[Text.Upper(key)])
    else if Text.Lower(key) in env then Some(env[Text.Lower(key)])
    else if default.Some? then default
    else None
  }

  /**
   * `get_watcher_interval`: a set `WATCHER_INTERVAL_SEC` (already read as a number)
   * is returned without any check; otherwise the file's value must be at least 1.
   */
  function WatcherInterval(envValue: Option<int>, fileValue: int): (r: Result<int, ConfigError>)
    ensures envValue.Some? ==> r == Success(envValue.value)
    ensures envValue.None? ==> (r.Success? <==> fileValue >= 1)
    ensures envValue.None? && r.Success? ==> r.value == fileValue
  {
    match envValue
    case Some(v) => Success(v)
    case None => if fileValue >= 1 then Success(fileValue) else Failure(NonPositiveInterval)
  }
}

=== FILE: legacy_main.dfy ===
/**
 * The scheduler tick of the first-generation watcher (main.py): flagged torrents
 * are sorted by title and downloaded one by one; only a download reported as
 * `"success"` enters the history, and every other outcome counts as an error.
 * The download itself is not modelled: `statusOf` gives what `download_torrent`
 * returned and `dateOf` the time `add_to_history` read from the clock.
 */
module LegacyMain {
  import opened Wrappers
  import Sorting
  import opened LegacyConfig
  import opened LegacyWatcher

  /** The status `download_torrent` returns on a written file. */
  const Success := "success"

  /** The sort key of a flagged torrent: its title. */
  function FlaggedTitle(f: Flagged): string {
    f.torrent.title
  }

  /** `sort_torrents`: the flagged torrents ordered by title. */
  function SortTorrents(torrents: seq<Flagged>): (r: seq<Flagged>)
    ensures Sorting.SortedBy(r, FlaggedTitle)
    ensures multiset(r) == multiset(torrents)
    ensures |r| == |torrents|
    ensures torrents == [] ==> r == []
  {
    var r := Sorting.SortBy(torrents, FlaggedTitle);
    Sorting.SortByLength(torrents, FlaggedTitle);
    r
  }

  /** The number of torrents whose download did not report success. */
  function Failures(torrents: seq<Flagged>, statusOf: Flagged -> string): (n: nat)
    ensures n <= |torrents|
    decreases |torrents|
  {
    if |torrents| == 0 then 0
    else (if statusOf(torrents[0]) == Success then 0 else 1) + Failures(torrents[1..], statusOf)
  }

  /** The torrents whose download reported success, in download order. */
  function Successes(torrents: seq<Flagged>, statusOf: Flagged -> string): (r: seq<Flagged>)
    ensures |r| + Failures(torrents, statusOf) == |torrents|
    ensures forall f :: f in r <==> f in torrents && statusOf(f) == Success
    decreases |torrents|
  {
    if |torrents| == 0 then []
    else
      var rest := Successes(torrents[1..], statusOf);
      assert forall f :: f in torrents <==> f == torrents[0] || f in torrents[1..];
      if statusOf(torrents[0]) == Success then [torrents[0]] + rest else rest
  }

  /** The records `add_to_history` writes for `torrents`, in order. */
  function Records(torrents: seq<Flagged>, dateOf: Flagged -> string): (r: seq<HistoryRecord>)
    ensures |r| == |torrents|
    ensures forall i :: 0 <= i < |torrents| ==> r[i].hash == Some(torrents[i].torrent.infohash)
  {
    seq(|torrents|, i requires 0 <= i < |torrents| => HistoryEntry(torrents[i].torrent, dateOf(torrents[i])))
  }

  /**
   * The download loop of `check_rss`: the history grows by one record per
   * successful download, in download order, and `errors` counts the rest.
   */
  method DownloadAll(history: seq<HistoryRecord>, torrents: seq<Flagged>, statusOf: Flagged -> string, dateOf: Flagged -> string)
    returns (newHistory: seq<HistoryRecord>, errors: nat)
    ensures newHistory == history + Records(Successes(torrents, statusOf), dateOf)
    ensures errors == Failures(torrents, statusOf)
    ensures errors + |newHistory| == |history| + |torrents|
    ensures forall f :: f in torrents && statusOf(f) == Success ==> InHistory(newHistory, f.torrent.infohash)
  {
    newHistory := history;
    errors := 0;
    var k := 0;
    while k < |torrents|
      invariant 0 <= k <= |torrents|
      invariant newHistory == history + Records(Successes(torrents[..k], statusOf), dateOf)
      invariant errors == Failures(torrents[..k], statusOf)
    {
      newHistory, errors := DownloadOne(history, torrents, k, statusOf, dateOf, newHistory, errors);
      k := k + 1;
    }
    assert torrents[..k] == torrents;
    SuccessesRecorded(history, torrents, statusOf, dateOf);
  }

  /** One round of the download loop: a success adds its record, anything else counts as an error. */
  method DownloadOne(history: seq<HistoryRecord>, torrents: seq<Flagged>, k: nat, statusOf: Flagged -> string, dateOf: Flagged -> string,
                     newHistory: seq<HistoryRecord>, errors: nat)
    returns (newHistory': seq<HistoryRecord>, errors': nat)
    requires k < |torrents|
    requires newHistory == history + Records(Successes(torrents[..k], statusOf), dateOf)
    requires errors == Failures(torrents[..k], statusOf)
    ensures newHistory' == history + Records(Successes(torrents[..k + 1], statusOf), dateOf)
    ensures errors' == Failures(torrents[..k + 1], statusOf)
  {
    var t := torrents[k];
    SuccessesSnoc(torrents[..k], t, statusOf);
    assert torrents[..k + 1] == torrents[..k] + [t];
    if statusOf(t) == Success {
      RecordsSnoc(Successes(torrents[..k], statusOf), t, dateOf);
      newHistory' := AddToHistory(newHistory, t.torrent, dateOf(t));
      errors' := errors;
    } else {
      newHistory' := newHistory;
      errors' := errors + 1;
    }
  }

  /** Appending the records of a torrent list extended by one torrent appends one more record. */
  lemma RecordsSnoc(torrents: seq<Flagged>, t: Flagged, dateOf: Flagged -> string)
    ensures Records(torrents + [t], dateOf) == Records(torrents, dateOf) + [HistoryEntry(t.torrent, dateOf(t))]
  {
  }

  /** Every successful download's hash is in the history the loop leaves behind. */
  lemma SuccessesRecorded(history: seq<HistoryRecord>, torrents: seq<Flagged>, statusOf: Flagged -> string, dateOf: Flagged -> string)
    ensures forall f :: f in torrents && statusOf(f) == Success ==>
      InHistory(history + Records(Successes(torrents, statusOf), dateOf), f.torrent.infohash)
  {
    var ok := Successes(torrents, statusOf);
    var h := history + Records(ok, dateOf);
    forall f | f in torrents && statusOf(f) == Success ensures InHistory(h, f.torrent.infohash) {
      assert f in ok;
      var j :| 0 <= j < |ok| && ok[j] == f;
      assert h[|history| + j] == Records(ok, dateOf)[j];
    }
  }

  /** Counting over a sequence extended by one torrent. */
  lemma {:induction false} SuccessesSnoc(torrents: seq<Flagged>, t: Flagged, statusOf: Flagged -> string)
    ensures Successes(torrents + [t], statusOf) == Successes(torrents, statusOf) + (if statusOf(t) == Success then [t] else [])
    ensures Failures(torrents + [t], statusOf) == Failures(torrents, statusOf) + (if statusOf(t) == Success then 0 else 1)
    decreases |torrents|
  {
    if |torrents| == 0 {
      assert [t][1..] == [];
    } else {
      assert (torrents + [t])[1..] == torrents[1..] + [t];
      SuccessesSnoc(torrents[1..], t, statusOf);
    }
  }
}

=== FILE: legacy_watcher.dfy ===
/**
 * The matcher of the first-generation watcher (watcher.py). Every feed entry is
 * examined (there is no checkpoint and no exclude pattern); each watchlist entry
 * gives a three-valued tag verdict and regex verdict, and the entry is flagged for
 * the first watchlist entry with a positive verdict unless its hash is already in
 * `history["history"]`.
 */
module LegacyWatcher {
  import opened Wrappers
  import Text
  import Matching
  import opened Feed
  import opened LegacyConfig
  import Watcher

  /** The `"N/A"` / `True` / `False` values of `tag_match` and `regex_match`. */
  datatype Verdict = NotApplicable | Matched | Unmatched

  /** A feed entry with the `webhooks` key the matcher sets on it. */
  datatype Flagged = Flagged(torrent: Torrent, webhooks: seq<string>)

  /** `tag_match`: `"N/A"` for no tags, else whether some tag occurs in the title, ignoring case. */
  function TagVerdict(tags: seq<string>, title: string): (r: Verdict)
    ensures r == NotApplicable <==> |tags| == 0
    ensures r == Matched <==> exists i :: 0 <= i < |tags| && Text.Contains(Text.Lower(title), Text.Lower(tags[i]))
  {
    if |tags| == 0 then NotApplicable
    else if Matching.TagMatch(tags, title) then Matched
    else Unmatched
  }

  /** `regex_match`: `"N/A"` for no patterns, else whether some pattern's search finds the title. */
  function RegexVerdict(search: Matching.Search, regexes: seq<string>, title: string): (r: Verdict)
    ensures r == NotApplicable <==> |regexes| == 0
    ensures r == Matched <==> exists i :: 0 <= i < |regexes| && search(regexes[i], title)
  {
    if |regexes| == 0 then NotApplicable
    else if Matching.SearchAny(search, regexes, title) then Matched
    else Unmatched
  }

  /**
   * The three accepted combinations (True, True), (N/A, True) and (True, N/A):
   * at least one test matched and none failed.
   */
  function Positive(tag: Verdict, regex: Verdict): (r: bool)
    ensures r <==> (tag == Matched || regex == Matched) && tag != Unmatched && regex != Unmatched
    ensures tag == NotApplicable && regex == NotApplicable ==> !r
  {
    || (tag == Matched && regex == Matched)
    || (tag == NotApplicable && regex == Matched)
    || (tag == Matched && regex == NotApplicable)
  }

  /** `len(tags)` and `len(regexes)` are defined: a null list makes the matcher raise. */
  predicate Evaluable(entries: seq<WatchEntry>) {
    forall i :: 0 <= i < |entries| ==> entries[i].tags.Some? && entries[i].regex.Some?
  }

  /** The watchlist entry gives a positive verdict for `title`. */
  predicate Eligible(search: Matching.Search, e: WatchEntry, title: string) {
    && e.tags.Some? && e.regex.Some?
    && Positive(TagVerdict(e.tags.value, title), RegexVerdict(search, e.regex.value, title))
  }

  /** Some history record carries `hash` as its `nyaa_hash`. */
  predicate InHistory(history: seq<HistoryRecord>, hash: string) {
    exists i :: 0 <= i < |history| && history[i].hash == Some(hash)
  }

  /** Entry `j` is the first watchlist entry with a positive verdict. */
  predicate FirstEligible(search: Matching.Search, entries: seq<WatchEntry>, title: string, j: int) {
    && 0 <= j < |entries|
    && Eligible(search, entries[j], title)
    && forall k :: 0 <= k < j ==> !Eligible(search, entries[k], title)
  }

  /**
   * The `for watchlist_entry in ...` loop from index `k`: it breaks at the first
   * entry with a positive verdict whose hash is not in the history. A positive
   * verdict on a seen hash does not break, so the loop goes on.
   */
  function ClaimFrom(search: Matching.Search, entries: seq<WatchEntry>, history: seq<HistoryRecord>, t: Torrent, k: nat): (r: Option<nat>)
    requires Evaluable(entries)
    requires k <= |entries|
    ensures r.Some? <==> !InHistory(history, t.infohash) && exists j :: k <= j < |entries| && Eligible(search, entries[j], t.title)
    ensures r.Some? ==> k <= r.value < |entries| && Eligible(search, entries[r.value], t.title)
    ensures r.Some? ==> forall j :: k <= j < r.value ==> !Eligible(search, entries[j], t.title)
    decreases |entries| - k
  {
    if k == |entries| then None
    else
      var e := entries[k];
      var positive := Positive(TagVerdict(e.tags.value, t.title), RegexVerdict(search, e.regex.value, t.title));
      var hashMatch := positive && InHistory(history, t.infohash);
      if positive && !hashMatch then Some(k)
      else ClaimFrom(search, entries, history, t, k + 1)
  }

  /**
   * What the matcher does with one feed entry: flag it, carrying the webhooks of
   * the first positive watchlist entry, exactly when some entry is positive and
   * its hash is not in the history.
   */
  function Consider(search: Matching.Search, entries: seq<WatchEntry>, history: seq<HistoryRecord>, t: Torrent): (r: Option<Flagged>)
    requires Evaluable(entries)
    ensures r.Some? <==> !InHistory(history, t.infohash) && exists j :: 0 <= j < |entries| && Eligible(search, entries[j], t.title)
    ensures r.Some? ==> r.value.torrent == t
    ensures r.Some? ==> exists j :: FirstEligible(search, entries, t.title, j) && r.value.webhooks == entries[j].webhooks
  {
    match ClaimFrom(search, entries, history, t, 0)
    case None => None
    case Some(j) => Some(Flagged(t, entries[j].webhooks))
  }

  /** `fetch_new_torrents` on the parsed feed: every entry is examined, in feed order. */
  function FetchNewTorrents(search: Matching.Search, entries: seq<WatchEntry>, history: seq<HistoryRecord>, feed: seq<Torrent>): (r: seq<Flagged>)
    requires Evaluable(entries)
    ensures |r| <= |feed|
    ensures forall f :: f in r ==> f.torrent in feed && !InHistory(history, f.torrent.infohash)
    decreases |feed|
  {
    if |feed| == 0 then []
    else
      var rest := FetchNewTorrents(search, entries, history, feed[1..]);
      match Consider(search, entries, history, feed[0])
      case None => rest
      case Some(f) => [f] + rest
  }

  /** A torrent is flagged exactly when `Consider` flags some feed entry as it. */
  lemma FetchNewTorrentsMembers(search: Matching.Search, entries: seq<WatchEntry>, history: seq<HistoryRecord>, feed: seq<Torrent>)
    requires Evaluable(entries)
    ensures forall f :: f in FetchNewTorrents(search, entries, history, feed) <==>
      exists i :: 0 <= i < |feed| && Consider(search, entries, history, feed[i]) == Some(f)
  {
    var r := FetchNewTorrents(search, entries, history, feed);
    forall f ensures f in r <==> exists i :: 0 <= i < |feed| && Consider(search, entries, history, feed[i]) == Some(f) {
      if f in r {
        var i := FlaggedHasSource(search, entries, history, feed, f);
      }
      if exists i :: 0 <= i < |feed| && Consider(search, entries, history, feed[i]) == Some(f) {
        var i :| 0 <= i < |feed| && Consider(search, entries, history, feed[i]) == Some(f);
        SourceFlagged(search, entries, history, feed, i, f);
      }
    }
  }

  /** Every flagged torrent comes from a feed entry that `Consider` flags as it. */
  lemma {:induction false} FlaggedHasSource(search: Matching.Search, entries: seq<WatchEntry>, history: seq<HistoryRecord>, feed: seq<Torrent>, f: Flagged)
    returns (i: nat)
    requires Evaluable(entries) && f in FetchNewTorrents(search, entries, history, feed)
    ensures i < |feed| && Consider(search, entries, history, feed[i]) == Some(f)
    decreases |feed|
  {
    FlaggedCons(search, entries, history, feed, f);
    if Consider(search, entries, history, feed[0]) == Some(f) {
      i := 0;
    } else {
      var j := FlaggedHasSource(search, entries, history, feed[1..], f);
      i := j + 1;
      assert feed[1..][j] == feed[i];
    }
  }

  /** Every feed entry that `Consider` flags ends up flagged. */
  lemma {:induction false} SourceFlagged(search: Matching.Search, entries: seq<WatchEntry>, history: seq<HistoryRecord>, feed: seq<Torrent>, i: nat, f: Flagged)
    requires Evaluable(entries) && i < |feed| && Consider(search, entries, history, feed[i]) == Some(f)
    ensures f in FetchNewTorrents(search, entries, history, feed)
    decreases i
  {
    if i == 0 {
      FlaggedCons(search, entries, history, feed, f);
    } else {
      var tail := feed[1..];
      assert tail[i - 1] == feed[i];
      SourceFlagged(search, entries, history, tail, i - 1, f);
      FlaggedCons(search, entries, history, feed, f);
    }
  }

  /** A torrent is flagged from a non-empty feed when the first entry flags it or the rest does. */
  lemma FlaggedCons(search: Matching.Search, entries: seq<WatchEntry>, history: seq<HistoryRecord>, feed: seq<Torrent>, f: Flagged)
    requires Evaluable(entries) && |feed| > 0
    ensures f in FetchNewTorrents(search, entries, history, feed) <==>
      Consider(search, entries, history, feed[0]) == Some(f) || f in FetchNewTorrents(search, entries, history, feed[1..])
  {
  }

  /** The record `add_to_history` writes for a torrent at time `now`. */
  function HistoryEntry(t: Torrent, now: string): HistoryRecord {
    HistoryRecord(Some(t.title), Some(now), Some(t.id), Some(t.infohash))
  }

  /** `add_to_history`: one complete record carrying the torrent's hash, after the existing ones. */
  function AddToHistory(history: seq<HistoryRecord>, t: Torrent, now: string): (r: seq<HistoryRecord>)
    ensures |r| == |history| + 1 && r[..|history|] == history
    ensures r[|history|].hash == Some(t.infohash) && r[|history|].title == Some(t.title)
    ensures RecordComplete(r[|history|])
  {
    history + [HistoryEntry(t, now)]
  }

  /** Once added to the history, a torrent is never flagged again, whatever the watchlist. */
  lemma AddedNeverRefetched(search: Matching.Search, entries: seq<WatchEntry>, history: seq<HistoryRecord>, t: Torrent, now: string, feed: seq<Torrent>)
    requires Evaluable(entries)
    ensures forall f :: f in FetchNewTorrents(search, entries, AddToHistory(history, t, now), feed) ==> f.torrent.infohash != t.infohash
  {
    var h := AddToHistory(history, t, now);
    assert h[|history|].hash == Some(t.infohash);
    assert InHistory(h, t.infohash);
  }

  /** The rule of the current watcher that a legacy watchlist entry corresponds to. */
  function AsRule(e: WatchEntry): (r: Watcher.Rule)
    requires e.tags.Some? && e.regex.Some?
    ensures r.tags == e.tags.value && r.regex == e.regex.value && r.excludeRegex == []
  {
    Watcher.Rule(e.name, e.tags.value, e.regex.value, [], e.webhooks)
  }

  /**
   * On every entry the legacy validator accepts (a name, and some tag or pattern),
   * the three-valued verdict and the current watcher's decision agree.
   */
  lemma AgreesWithCurrentMatcher(search: Matching.Search, e: WatchEntry, title: string)
    requires EntryValid(e)
    ensures Eligible(search, e, title) <==> Watcher.Decide(search, AsRule(e), title)
  {
  }

  /**
   * The two generations disagree on an entry with neither tags nor patterns:
   * (N/A, N/A) is never positive here, while the current watcher matches every title.
   */
  lemma EmptyEntryDisagrees(search: Matching.Search, e: WatchEntry, title: string)
    requires e.tags == Some([]) && e.regex == Some([])
    ensures !Eligible(search, e, title)
    ensures Watcher.Decide(search, AsRule(e), title)
  {
    Watcher.EmptyRuleMatchesAll(search, AsRule(e), title);
  }
}

=== FILE: legacy_webhook.dfy ===
/**
 * The Discord notifier of the first-generation watcher (webhook.py). Connected
 * webhooks are kept as two lists, names and connections, appended together. The
 * webhook entry is found ignoring case but the connection by exact name, the
 * configured title is used only to choose the default one, the description is
 * copied as it is, and the fields come from a `while` loop over slots 1 to 6.
 */
module LegacyWebhook {
  import opened Wrappers
  import Text
  import Json
  import opened Feed
  import opened Notify
  import Webhooker

  /** The connected webhooks: `webhook_names` and `discord_webhooks`. */
  datatype Connected = Connected(names: seq<string>, hooks: seq<Webhooker.Connection>)

  /** A `discord.Embed` of this generation: the description is whatever value the entry holds. */
  datatype LegacyEmbed = LegacyEmbed(title: Option<string>, description: Json.Value, url: string, fields: seq<Field>)

  /** What `send_notification` ends with: the embed, and the connection it goes to if one was found. */
  datatype Notice = Notice(embed: LegacyEmbed, target: Option<Webhooker.Connection>)

  /** The first entry whose URL does not split in two, from `k` on. */
  function FirstBadUrl(entries: seq<Webhooker.WebhookJson>, k: nat): (r: Option<nat>)
    requires k <= |entries|
    ensures r.Some? <==> exists i :: k <= i < |entries| && Webhooker.CreateWebhook(entries[i].url).None?
    ensures r.Some? ==> k <= r.value < |entries| && Webhooker.CreateWebhook(entries[r.value].url).None?
    ensures r.Some? ==> forall i :: k <= i < r.value ==> Webhooker.CreateWebhook(entries[i].url).Some?
    decreases |entries| - k
  {
    if k == |entries| then None
    else if Webhooker.CreateWebhook(entries[k].url).None? then Some(k)
    else FirstBadUrl(entries, k + 1)
  }

  /** The two lists the loop of `__init__` fills when every URL splits. */
  function ConnectAll(entries: seq<Webhooker.WebhookJson>): (r: Connected)
    requires forall i :: 0 <= i < |entries| ==> Webhooker.CreateWebhook(entries[i].url).Some?
    ensures |r.names| == |r.hooks| == |entries|
    ensures forall i :: 0 <= i < |entries| ==>
      r.names[i] == entries[i].name && Some(r.hooks[i]) == Webhooker.CreateWebhook(entries[i].url)
  {
    Connected(seq(|entries|, i requires 0 <= i < |entries| => entries[i].name),
              seq(|entries|, i requires 0 <= i < |entries| => Webhooker.CreateWebhook(entries[i].url).value))
  }

  /**
   * `Webhook.__init__`: there is no sample-entry skip and no name check, and the
   * unpacking of `_parse_url` sits outside the `try`, so the first URL that does
   * not split in two raises. Otherwise every entry is connected, index for index.
   */
  function Init(entries: seq<Webhooker.WebhookJson>): (r: Result<Connected, nat>)
    ensures r.Failure? <==> exists i :: 0 <= i < |entries| && Webhooker.CreateWebhook(entries[i].url).None?
    ensures r.Failure? ==> (r.error < |entries| && Webhooker.CreateWebhook(entries[r.error].url).None?
      && forall i :: 0 <= i < r.error ==> Webhooker.CreateWebhook(entries[i].url).Some?)
    ensures r.Success? ==> |r.value.names| == |r.value.hooks| == |entries|
    ensures r.Success? ==> forall i :: 0 <= i < |entries| ==>
      r.value.names[i] == entries[i].name && Some(r.value.hooks[i]) == Webhooker.CreateWebhook(entries[i].url)
  {
    match FirstBadUrl(entries, 0)
    case Some(i) => Failure(i)
    case None => Success(ConnectAll(entries))
  }

  /** Entry `i` is the first whose name equals `name` ignoring case. */
  predicate FirstNamedIgnoringCase(entries: seq<Webhooker.WebhookJson>, name: string, i: int) {
    && 0 <= i < |entries| && Text.Lower(entries[i].name) == Text.Lower(name)
    && forall j :: 0 <= j < i ==> Text.Lower(entries[j].name) != Text.Lower(name)
  }

  /** `get_webhook_by_name`: the first entry whose name matches ignoring case; `None` is its `False`. */
  function GetWebhookByName(entries: seq<Webhooker.WebhookJson>, name: string): (r: Option<Webhooker.WebhookJson>)
    ensures r.Some? <==> exists i :: 0 <= i < |entries| && Text.Lower(entries[i].name) == Text.Lower(name)
    ensures r.Some? ==> exists i :: FirstNamedIgnoringCase(entries, name, i) && r.value == entries[i]
    decreases |entries|
  {
    if |entries| == 0 then None
    else if Text.Lower(entries[0].name) == Text.Lower(name) then Some(entries[0])
    else
      var rest := GetWebhookByName(entries[1..], name);
      assert forall i :: 1 <= i < |entries| ==> entries[1..][i - 1] == entries[i];
      rest
  }

  /** `list.index`: the first position of `x`. */
  function IndexOf(s: seq<string>, x: string): (r: Option<nat>)
    ensures r.Some? <==> x in s
    ensures r.Some? ==> r.value < |s| && s[r.value] == x && forall j :: 0 <= j < r.value ==> s[j] != x
    decreases |s|
  {
    if |s| == 0 then None
    else if s[0] == x then Some(0)
    else
      match IndexOf(s[1..], x)
      case None => None
      case Some(k) =>
        assert forall j :: 1 <= j < k + 1 ==> s[j] == s[1..][j - 1];
        Some(k + 1)
  }

  /**
   * `get_discord_webhook_by_name`: the connection at the first position of the
   * exact name; `None` (its `False`) when the name is absent or the position is
   * past the connections.
   */
  function GetDiscordWebhookByName(c: Connected, name: string): (r: Option<Webhooker.Connection>)
    ensures r.Some? <==> name in c.names && IndexOf(c.names, name).value < |c.hooks|
    ensures r.Some? ==> r.value == c.hooks[IndexOf(c.names, name).value]
  {
    match IndexOf(c.names, name)
    case None => None
    case Some(k) => if k < |c.hooks| then Some(c.hooks[k]) else None
  }

  /** With the lists of `__init__`, the connection of a name is that of its first entry. */
  lemma ConnectionOfFirstEntry(entries: seq<Webhooker.WebhookJson>, name: string, i: nat)
    requires Init(entries).Success?
    requires i < |entries| && entries[i].name == name && forall j :: 0 <= j < i ==> entries[j].name != name
    ensures Some(GetDiscordWebhookByName(Init(entries).value, name).value) == Webhooker.CreateWebhook(entries[i].url)
  {
    var c := Init(entries).value;
    assert c.names[i] == name;
    var k := IndexOf(c.names, name).value;
    assert k == i;
  }

  /**
   * The `while i <= 6` loop: for each slot, the field of the first key in the
   * `elif` chain that holds it. A missing key is handled by the caller.
   */
  method FieldLoop(n: Json.Object, t: Torrent) returns (fields: seq<Field>)
    ensures fields == ApplyFields(n, t)
  {
    var slots := SlotsOf(n);
    fields := [];
    var i := 1;
    while i <= 6
      invariant 1 <= i <= 7
      invariant fields + Pending(slots, i, t) == Pending(slots, 1, t)
    {
      var owner := ElifChain(n, slots, i);
      fields := FieldStep(slots, i, t, fields, owner);
      i := i + 1;
    }
    PendingEnds(n, t);
  }

  /** The fields still to be appended from slot `i` on. */
  function Pending(slots: Slots, i: int, t: Torrent): seq<Field>
    requires 1 <= i <= 7
  {
    FieldsOf(LayoutFrom(slots, i), t)
  }

  /** Nothing is pending after slot 6, and everything pending at slot 1 is what `_apply_fields` builds. */
  lemma PendingEnds(n: Json.Object, t: Torrent)
    ensures Pending(SlotsOf(n), 7, t) == []
    ensures ApplyFields(n, t) == Pending(SlotsOf(n), 1, t)
  {
    assert LayoutFrom(SlotsOf(n), 7) == [];
    ApplyFieldsIsFieldsOf(n, t);
  }

  /** The `if`/`elif` chain of one round: the first `show_*` key whose value is `i`. */
  method ElifChain(n: Json.Object, slots: Slots, i: int) returns (owner: Option<Show>)
    requires slots == SlotsOf(n)
    ensures owner == SlotOwner(slots, i)
  {
    owner := None;
    OwnerChain(n, i);
    if Slot(n, Downloads) == Some(i) {
      owner := Some(Downloads);
    } else if Slot(n, Seeders) == Some(i) {
      owner := Some(Seeders);
    } else if Slot(n, Leechers) == Some(i) {
      owner := Some(Leechers);
    } else if Slot(n, Published) == Some(i) {
      owner := Some(Published);
    } else if Slot(n, Category) == Some(i) {
      owner := Some(Category);
    } else if Slot(n, Size) == Some(i) {
      owner := Some(Size);
    }
  }

  /** The owner of slot `i`, read key by key from `notifications` as the `elif` chain does. */
  lemma OwnerChain(n: Json.Object, i: int)
    ensures SlotOwner(SlotsOf(n), i) ==
      if Slot(n, Downloads) == Some(i) then Some(Downloads)
      else if Slot(n, Seeders) == Some(i) then Some(Seeders)
      else if Slot(n, Leechers) == Some(i) then Some(Leechers)
      else if Slot(n, Published) == Some(i) then Some(Published)
      else if Slot(n, Category) == Some(i) then Some(Category)
      else if Slot(n, Size) == Some(i) then Some(Size)
      else None
  {
    var slots := SlotsOf(n);
    assert slots.Of(Downloads) == Slot(n, Downloads) && slots.Of(Seeders) == Slot(n, Seeders);
    assert slots.Of(Leechers) == Slot(n, Leechers) && slots.Of(Published) == Slot(n, Published);
    assert slots.Of(Category) == Slot(n, Category) && slots.Of(Size) == Slot(n, Size);
  }

  /** Appending the field of slot `i`'s owner keeps the loop invariant. */
  function FieldStep(slots: Slots, i: int, t: Torrent, fields: seq<Field>, owner: Option<Show>): (r: seq<Field>)
    requires 1 <= i <= 6 && owner == SlotOwner(slots, i)
    requires fields + Pending(slots, i, t) == Pending(slots, 1, t)
    ensures r + Pending(slots, i + 1, t) == Pending(slots, 1, t)
  {
    FieldsOfCons(slots, i, t);
    match owner
    case None => fields
    case Some(s) =>
      assert (fields + [FieldFor(s, t)]) + FieldsOf(LayoutFrom(slots, i + 1), t)
        == fields + ([FieldFor(s, t)] + FieldsOf(LayoutFrom(slots, i + 1), t));
      fields + [FieldFor(s, t)]
  }

  /** The fields for a list of shown keys. */
  function FieldsOf(shows: seq<Show>, t: Torrent): (r: seq<Field>)
    ensures |r| == |shows|
  {
    seq(|shows|, k requires 0 <= k < |shows| => FieldFor(shows[k], t))
  }

  /** One slot of the layout: the fields from slot `i` are its owner's field, then the rest. */
  lemma FieldsOfCons(slots: Slots, i: int, t: Torrent)
    requires 1 <= i <= 6
    ensures FieldsOf(LayoutFrom(slots, i), t) ==
      (match SlotOwner(slots, i)
       case None => []
       case Some(s) => [FieldFor(s, t)]) + FieldsOf(LayoutFrom(slots, i + 1), t)
  {
    var rest := LayoutFrom(slots, i + 1);
    match SlotOwner(slots, i)
    case None =>
      assert LayoutFrom(slots, i) == rest;
    case Some(s) =>
      assert LayoutFrom(slots, i) == [s] + rest;
      FieldsOfAppend([s], rest, t);
      assert FieldsOf([s], t) == [FieldFor(s, t)];
  }

  /** The fields of two layouts one after the other are the two lists of fields concatenated. */
  lemma FieldsOfAppend(a: seq<Show>, b: seq<Show>, t: Torrent)
    ensures FieldsOf(a + b, t) == FieldsOf(a, t) + FieldsOf(b, t)
  {
    var r := FieldsOf(a + b, t);
    assert forall k :: 0 <= k < |r| ==> r[k] == (FieldsOf(a, t) + FieldsOf(b, t))[k];
  }

  /** `_apply_fields` is the field of each shown key in slot order. */
  lemma ApplyFieldsIsFieldsOf(n: Json.Object, t: Torrent)
    ensures ApplyFields(n, t) == FieldsOf(Layout(SlotsOf(n)), t)
  {
  }

  /**
   * `send_notification`. An entry not found by name ends it before anything is
   * built; a missing `title`, `description` or `show_*` key raises. The title is
   * set only when the configured one is empty, and the embed goes to the
   * connection found by exact name, if any.
   */
  method SendNotification(entries: seq<Webhooker.WebhookJson>, c: Connected, webhookName: string, t: Torrent)
    returns (r: Result<Notice, Webhooker.SendError>)
    ensures r == Failure(Webhooker.NotFound) <==> GetWebhookByName(entries, webhookName).None?
    ensures r.Success? ==> (
      var n := GetWebhookByName(entries, webhookName).value.notifications;
      && Json.Has(n, "title") && Json.Has(n, "description") && (forall s :: Json.Has(n, Key(s)))
      && (r.value.embed.title.Some? <==> Json.Get(n, "title") == Some(Json.Str("")))
      && (r.value.embed.title.Some? ==> r.value.embed.title == Some(Webhooker.DefaultTitle(t)))
      && Some(r.value.embed.description) == Json.Get(n, "description")
      && r.value.embed.fields == ApplyFields(n, t)
      && r.value.embed.url == t.id
      && r.value.target == GetDiscordWebhookByName(c, webhookName))
    ensures r.Failure? && r.error == Webhooker.Raises ==> (
      var n := GetWebhookByName(entries, webhookName).value.notifications;
      !Json.Has(n, "title") || !Json.Has(n, "description") || exists s :: !Json.Has(n, Key(s)))
  {
    var json := GetWebhookByName(entries, webhookName);
    if json.None? {
      return Failure(Webhooker.NotFound);
    }
    var n := json.value.notifications;
    var title := Json.Get(n, "title");
    var description := Json.Get(n, "description");
    if title.None? || description.None? || exists s :: !Json.Has(n, Key(s)) {
      return Failure(Webhooker.Raises);
    }
    var embedTitle := if title.value == Json.Str("") then Some(Webhooker.DefaultTitle(t)) else None;
    var fields := FieldLoop(n, t);
    var embed := LegacyEmbed(embedTitle, description.value, t.id, fields);
    r := Success(Notice(embed, GetDiscordWebhookByName(c, webhookName)));
  }

  /**
   * A name that matches an entry only when case is ignored finds the entry but no
   * connection: the embed is built and then not sent.
   */
  lemma CaseMismatchNotSent(entries: seq<Webhooker.WebhookJson>, webhookName: string, i: nat)
    requires Init(entries).Success?
    requires i < |entries| && Text.Lower(entries[i].name) == Text.Lower(webhookName)
    requires forall j :: 0 <= j < |entries| ==> entries[j].name != webhookName
    ensures GetWebhookByName(entries, webhookName).Some?
    ensures GetDiscordWebhookByName(Init(entries).value, webhookName).None?
  {
    var c := Init(entries).value;
    assert webhookName !in c.names;
  }
}

=== FILE: matching.dfy ===
/**
 * The two title tests every watchlist entry is built from, shared by both
 * generations of the watcher: a case-insensitive tag substring test and a
 * regular-expression search. The regex engine is not modelled: `search(p, t)`
 * stands for `re.search(re.compile(p), t)` finding a match.
 */
module Matching {
  import Text

  /** `re.search(pattern, title) is not None`, supplied by the caller. */
  type Search = (string, string) -> bool

  /** The `for tag in tags: if tag.lower() in title.lower(): ... break` loop. */
  function TagMatch(tags: seq<string>, title: string): (r: bool)
    ensures r <==> exists i :: 0 <= i < |tags| && Text.Contains(Text.Lower(title), Text.Lower(tags[i]))
    decreases |tags|
  {
    if |tags| == 0 then false
    else if Text.Contains(Text.Lower(title), Text.Lower(tags[0])) then true
    else
      var rest := TagMatch(tags[1..], title);
      assert forall i :: 1 <= i < |tags| ==> tags[i] == tags[1..][i - 1];
      rest
  }

  /** The `for regex_pattern in regexes: if re.search(...): ... break` loop. */
  function SearchAny(search: Search, patterns: seq<string>, title: string): (r: bool)
    ensures r <==> exists i :: 0 <= i < |patterns| && search(patterns[i], title)
    decreases |patterns|
  {
    if |patterns| == 0 then false
    else if search(patterns[0], title) then true
    else
      var rest := SearchAny(search, patterns[1..], title);
      assert forall i :: 1 <= i < |patterns| ==> patterns[i] == patterns[1..][i - 1];
      rest
  }

  /** Tags are compared without regard to ASCII case on either side. */
  lemma TagMatchIgnoresCase(tags: seq<string>, title: string)
    ensures TagMatch(tags, Text.Lower(title)) == TagMatch(tags, title)
  {
    Text.LowerIdempotent(title);
  }
}

=== FILE: notify.dfy ===
/**
 * The Discord notification pieces every generation of the webhook code shares:
 * the `show_*` slot layout of `_apply_fields` (slots 1 to 6, one field per slot,
 * ties broken by the order of the `elif` chain), the fields themselves, the
 * `re.sub(r":\d\d -0000", "", published)` clean-up, and `_parse_url`.
 * Sending the embed is not modelled; the embed is the result.
 */
module Notify {
  import opened Wrappers
  import Text
  import Json
  import opened Feed

  /** The six optional detail fields of a notification. */
  datatype Show = Downloads | Seeders | Leechers | Published | Category | Size

  /** A `discord.Embed` field. */
  datatype Field = Field(name: string, value: string)

  /** A `discord.Embed`: `title` and `description` are `None` when never set. */
  datatype Embed = Embed(title: Option<string>, description: Option<string>, url: string, fields: seq<Field>)

  /** The position of a key in the `elif` chain: a lower rank wins a shared slot. */
  function Rank(s: Show): (r: nat)
    ensures r < 6
  {
    match s
    case Downloads => 0
    case Seeders => 1
    case Leechers => 2
    case Published => 3
    case Category => 4
    case Size => 5
  }

  /** The notification key that places a field. */
  function Key(s: Show): string {
    match s
    case Downloads => "show_downloads"
    case Seeders => "show_seeders"
    case Leechers => "show_leechers"
    case Published => "show_published"
    case Category => "show_category"
    case Size => "show_size"
  }

  /** The eight keys a webhook's `notifications` object must have. */
  const NotificationKeys: seq<string> := ["title", "description", "show_downloads", "show_seeders",
                                          "show_leechers", "show_published", "show_category", "show_size"]

  /** Every `show_*` key is one of the required keys. */
  lemma KeysListed(s: Show)
    ensures Key(s) in NotificationKeys
  {
  }

  /** The integer slot a key holds, if its value is an integer (or a boolean). */
  function Slot(n: Json.Object, s: Show): Option<int> {
    match Json.Get(n, Key(s))
    case None => None
    case Some(v) => Json.AsInt(v)
  }

  /** The slots of the six keys of one `notifications` object. */
  datatype Slots = Slots(
    downloads: Option<int>,
    seeders: Option<int>,
    leechers: Option<int>,
    published: Option<int>,
    category: Option<int>,
    size: Option<int>)
  {
    function Of(s: Show): Option<int> {
      match s
      case Downloads => downloads
      case Seeders => seeders
      case Leechers => leechers
      case Published => published
      case Category => category
      case Size => size
    }
  }

  /** Reads the six slots out of a `notifications` object. */
  function SlotsOf(n: Json.Object): (r: Slots)
    ensures forall s :: r.Of(s) == Slot(n, s)
  {
    SlotsOfReadsEachKey(n);
    ReadSlots(n)
  }

  /** The six slots read one key at a time. */
  function ReadSlots(n: Json.Object): Slots {
    Slots(Slot(n, Downloads), Slot(n, Seeders), Slot(n, Leechers),
          Slot(n, Published), Slot(n, Category), Slot(n, Size))
  }

  /** Each slot of `ReadSlots` is the one its key holds. */
  lemma SlotsOfReadsEachKey(n: Json.Object)
    ensures forall s :: ReadSlots(n).Of(s) == Slot(n, s)
  {
    forall s ensures ReadSlots(n).Of(s) == Slot(n, s) {
      match s {
        case Downloads =>
        case Seeders =>
        case Leechers =>
        case Published =>
        case Category =>
        case Size =>
      }
    }
  }

  /** `notifications.get(key) == i`. */
  predicate ShowsAt(slots: Slots, s: Show, i: int) {
    slots.Of(s) == Some(i)
  }

  /** One round of the `for i in range(1, 7)` loop: the first key of the `elif` chain equal to `i`. */
  function SlotOwner(slots: Slots, i: int): (r: Option<Show>)
    ensures r.Some? ==> ShowsAt(slots, r.value, i)
    ensures r.Some? ==> forall s :: Rank(s) < Rank(r.value) ==> !ShowsAt(slots, s, i)
    ensures r.None? <==> forall s :: !ShowsAt(slots, s, i)
  {
    if ShowsAt(slots, Downloads, i) then Some(Downloads)
    else if ShowsAt(slots, Seeders, i) then Some(Seeders)
    else if ShowsAt(slots, Leechers, i) then Some(Leechers)
    else if ShowsAt(slots, Published, i) then Some(Published)
    else if ShowsAt(slots, Category, i) then Some(Category)
    else if ShowsAt(slots, Size, i) then Some(Size)
    else None
  }

  /** The keys shown in slots `i` to 6, in slot order. */
  function LayoutFrom(slots: Slots, i: int): (r: seq<Show>)
    requires 1 <= i <= 7
    ensures |r| <= 7 - i
    ensures forall k :: 0 <= k < |r| ==> slots.Of(r[k]).Some? && i <= slots.Of(r[k]).value <= 6
    ensures forall a, b :: 0 <= a < b < |r| ==> slots.Of(r[a]).value < slots.Of(r[b]).value
    ensures forall s :: s in r <==> exists j :: i <= j <= 6 && SlotOwner(slots, j) == Some(s)
    decreases 7 - i
  {
    if i == 7 then []
    else
      var rest := LayoutFrom(slots, i + 1);
      match SlotOwner(slots, i)
      case None => rest
      case Some(s) =>
        assert forall s' :: s' in [s] + rest <==> s' == s || s' in rest;
        [s] + rest
  }

  /**
   * The keys `_apply_fields` shows, in the order it adds their fields: at most one
   * per slot, slots ascending, each key at most once, and a key is shown exactly
   * when it wins the slot its value names.
   */
  function Layout(slots: Slots): (r: seq<Show>)
    ensures |r| <= 6
    ensures forall k :: 0 <= k < |r| ==> slots.Of(r[k]).Some? && 1 <= slots.Of(r[k]).value <= 6
    ensures forall a, b :: 0 <= a < b < |r| ==> slots.Of(r[a]).value < slots.Of(r[b]).value
    ensures forall a, b :: 0 <= a < b < |r| ==> r[a] != r[b]
    ensures forall s :: s in r <==> exists j :: 1 <= j <= 6 && SlotOwner(slots, j) == Some(s)
  {
    LayoutFrom(slots, 1)
  }

  /** No two keys share a positive slot: what the webhook validator's duplicate check ensures. */
  predicate SlotsDistinct(slots: Slots) {
    forall s, s' :: s != s' && slots.Of(s).Some? && slots.Of(s).value > 0 ==> slots.Of(s) != slots.Of(s')
  }

  /** With distinct slots nothing is shadowed: a key is shown exactly when its slot is 1 to 6. */
  lemma DistinctSlotsShowAll(slots: Slots, s: Show)
    requires SlotsDistinct(slots)
    ensures s in Layout(slots) <==> slots.Of(s).Some? && 1 <= slots.Of(s).value <= 6
  {
    if slots.Of(s).Some? && 1 <= slots.Of(s).value <= 6 {
      var j := slots.Of(s).value;
      assert SlotOwner(slots, j) == Some(s);
    }
  }

  /**
   * A key sharing its slot with a key earlier in the chain is not shown at all,
   * and the slot is taken by a key no later than that earlier one.
   */
  lemma SharedSlotShadows(slots: Slots, s: Show, s': Show)
    requires Rank(s) < Rank(s')
    requires slots.Of(s).Some? && 1 <= slots.Of(s).value <= 6 && slots.Of(s) == slots.Of(s')
    ensures s' !in Layout(slots)
    ensures exists o :: o in Layout(slots) && Rank(o) <= Rank(s) && slots.Of(o) == slots.Of(s)
  {
    var j := slots.Of(s).value;
    var o := SlotOwner(slots, j).value;
    assert o in Layout(slots);
  }

  /**
   * The `elif` chain for slot `i` written with `notifications[key]` lookups
   * raises `KeyError`: it reaches a missing key before any key holding `i`.
   */
  predicate ChainRaises(n: Json.Object, i: int) {
    exists s :: !Json.Has(n, Key(s)) && forall s' :: Rank(s') < Rank(s) ==> !ShowsAt(SlotsOf(n), s', i)
  }

  /**
   * The field loop over slots 1 to 6 with `notifications[key]` lookups raises
   * exactly when some `show_*` key is missing: the keys before a missing one are
   * at most five, too few to hold all six slots.
   */
  lemma FieldLoopRaises(n: Json.Object)
    ensures (exists i :: 1 <= i <= 6 && ChainRaises(n, i)) <==> exists s :: !Json.Has(n, Key(s))
  {
    if exists s :: !Json.Has(n, Key(s)) {
      var s :| !Json.Has(n, Key(s));
      var i := MissingKeyRaises(n, s);
    }
  }

  /** A missing key makes the chain raise at a slot that no key before it holds. */
  lemma MissingKeyRaises(n: Json.Object, s: Show) returns (i: int)
    requires !Json.Has(n, Key(s))
    ensures 1 <= i <= 6 && ChainRaises(n, i)
  {
    i := FreeSlot(SlotsOf(n), Rank(s));
    assert !Json.Has(n, Key(s)) && forall s' :: Rank(s') < Rank(s) ==> !ShowsAt(SlotsOf(n), s', i);
  }

  /** The keys ranked below `r` are at most five, so some slot from 1 to 6 is held by none of them. */
  lemma FreeSlot(slots: Slots, r: nat) returns (i: int)
    requires r < 6
    ensures 1 <= i <= 6 && forall s :: Rank(s) < r ==> !ShowsAt(slots, s, i)
  {
    var before := seq(r, k requires 0 <= k < r => SlotValue(slots.Of(OfRank(k))));
    i := FreeCandidate(before, 1, 6);
    forall s | Rank(s) < r ensures !ShowsAt(slots, s, i) {
      RankOfRank(s);
      assert before[Rank(s)] == SlotValue(slots.Of(s));
    }
  }

  /** `OfRank` inverts `Rank`. */
  lemma RankOfRank(s: Show)
    ensures OfRank(Rank(s)) == s
  {
  }

  /** The key of a given rank. */
  function OfRank(k: nat): (s: Show)
    requires k < 6
    ensures Rank(s) == k
  {
    if k == 0 then Downloads else if k == 1 then Seeders else if k == 2 then Leechers
    else if k == 3 then Published else if k == 4 then Category else Size
  }

  /** A slot as a number, with 0 (never a valid slot) for none. */
  function SlotValue(o: Option<int>): int {
    if o.Some? then o.value else 0
  }

  /** `vals` without its first occurrence of `x`. */
  function RemoveFirst(vals: seq<int>, x: int): (r: seq<int>)
    requires x in vals
    ensures |r| == |vals| - 1
    ensures forall y :: y in vals && y != x ==> y in r
    decreases |vals|
  {
    if vals[0] == x then vals[1..]
    else
      var rest := RemoveFirst(vals[1..], x);
      assert forall y :: y in vals ==> y == vals[0] || y in vals[1..];
      [vals[0]] + rest
  }

  /** A range with more numbers than `vals` has values holds a number not among them. */
  lemma {:induction false} FreeCandidate(vals: seq<int>, lo: int, hi: int) returns (i: int)
    requires hi - lo + 1 > |vals|
    ensures lo <= i <= hi && i !in vals
    decreases hi - lo
  {
    if lo !in vals {
      i := lo;
    } else {
      i := FreeCandidate(RemoveFirst(vals, lo), lo + 1, hi);
    }
  }

  /** Whether `c` is an ASCII decimal digit, as `\d` matches in the pattern. */
  predicate IsDigit(c: char) {
    '0' <= c <= '9'
  }

  /** The text `:\d\d -0000` matches: a colon, two digits, and the UTC offset. */
  predicate SecondsAt(s: string) {
    |s| >= 9 && s[0] == ':' && IsDigit(s[1]) && IsDigit(s[2]) && s[3..9] == " -0000"
  }

  /** `re.sub(r":\d\d -0000", "", published)`: every match, scanned left to right, is removed. */
  function StripSeconds(s: string): (r: string)
    ensures |r| <= |s|
    ensures ':' !in s ==> r == s
    decreases |s|
  {
    if |s| == 0 then ""
    else if SecondsAt(s) then StripSeconds(s[9..])
    else [s[0]] + StripSeconds(s[1..])
  }

  /** The `:SS -0000` ending of an RSS date, for two seconds digits. */
  function SecondsSuffix(d1: char, d2: char): string {
    [':', d1, d2] + " -0000"
  }

  /** Text in which no match can start is kept as it is. */
  lemma {:induction false} StripClean(p: string)
    requires forall k :: 0 <= k && k + 9 <= |p| ==> p[k] != ':'
    ensures StripSeconds(p) == p
    decreases |p|
  {
    if |p| > 0 {
      assert !SecondsAt(p);
      assert forall k :: 0 <= k && k + 9 <= |p[1..]| ==> p[1..][k] == p[k + 1];
      StripClean(p[1..]);
      assert [p[0]] + p[1..] == p;
    }
  }

  /** A seconds-and-offset ending is removed and the rest is processed as if it were absent. */
  lemma {:induction false} StripSuffix(p: string, d1: char, d2: char)
    requires IsDigit(d1) && IsDigit(d2)
    ensures StripSeconds(p + SecondsSuffix(d1, d2)) == StripSeconds(p)
    decreases |p|
  {
    var suffix := SecondsSuffix(d1, d2);
    var s := p + suffix;
    if |p| == 0 {
      assert s == suffix && SecondsAt(s) && s[9..] == [];
    } else if |p| < 9 {
      assert s[|p|] == ':';
      assert !SecondsAt(s);
      assert s[1..] == p[1..] + suffix;
      StripSuffix(p[1..], d1, d2);
    } else {
      assert s[..9] == p[..9];
      if SecondsAt(p) {
        assert SecondsAt(s);
        assert s[9..] == p[9..] + suffix;
        StripSuffix(p[9..], d1, d2);
      } else {
        assert !SecondsAt(s);
        assert s[1..] == p[1..] + suffix;
        StripSuffix(p[1..], d1, d2);
      }
    }
  }

  /**
   * An RSS date such as `Sun, 01 Jan 2023 12:34:56 -0000` loses exactly its
   * `:56 -0000`: the only colon before it lies within its last eight characters.
   */
  lemma StripRssDate(date: string, d1: char, d2: char)
    requires IsDigit(d1) && IsDigit(d2)
    requires forall k :: 0 <= k && k + 9 <= |date| ==> date[k] != ':'
    ensures StripSeconds(date + SecondsSuffix(d1, d2)) == date
  {
    StripSuffix(date, d1, d2);
    StripClean(date);
  }

  /** The detail field for a key, filled from the torrent. */
  function FieldFor(s: Show, t: Torrent): (f: Field)
    ensures s == Published ==> f.value == StripSeconds(t.published)
  {
    match s
    case Downloads => Field("Downloads", t.downloads)
    case Seeders => Field("Seeders", t.seeders)
    case Leechers => Field("Leechers", t.leechers)
    case Published => Field("Published", StripSeconds(t.published))
    case Category => Field("Category", t.category)
    case Size => Field("Size", t.size)
  }

  /** `_apply_fields`: one field per shown key, in slot order. */
  function ApplyFields(n: Json.Object, t: Torrent): (r: seq<Field>)
    ensures |r| == |Layout(SlotsOf(n))| && |r| <= 6
    ensures forall k :: 0 <= k < |r| ==> r[k] == FieldFor(Layout(SlotsOf(n))[k], t)
  {
    var layout := Layout(SlotsOf(n));
    seq(|layout|, k requires 0 <= k < |layout| => FieldFor(layout[k], t))
  }

  /** The URL prefix of a Discord webhook. */
  const DiscordPrefix := "https://discord.com/api/webhooks/"

  /** The older host name of the same endpoint. */
  const DiscordAppPrefix := "https://discordapp.com/api/webhooks/"

  /** `_parse_url`: both prefixes removed wherever they occur, then split on `/`. */
  function ParseUrl(url: string): (r: seq<string>)
    ensures |r| >= 1
    ensures forall k :: 0 <= k < |r| ==> '/' !in r[k]
    ensures Text.Join(r, "/") == Text.Replace(Text.Replace(url, DiscordPrefix, ""), DiscordAppPrefix, "")
  {
    Text.Split(Text.Replace(Text.Replace(url, DiscordPrefix, ""), DiscordAppPrefix, ""), '/')
  }

  /** The part of a webhook URL after the prefix: an id and a token with neither `/` nor `:`. */
  predicate IdToken(id: string, token: string) {
    '/' !in id && '/' !in token && ':' !in id && ':' !in token
  }

  /** Removing either prefix from `id/token` changes nothing, since both prefixes contain a colon. */
  lemma PrefixesAbsent(id: string, token: string)
    requires IdToken(id, token)
    ensures Text.Replace(id + "/" + token, DiscordPrefix, "") == id + "/" + token
    ensures Text.Replace(id + "/" + token, DiscordAppPrefix, "") == id + "/" + token
  {
    var rest := id + "/" + token;
    assert ':' !in rest;
    assert DiscordPrefix[5] == ':' && DiscordAppPrefix[5] == ':';
    Text.CharAbsent(rest, DiscordPrefix, 5);
    Text.CharAbsent(rest, DiscordAppPrefix, 5);
    Text.ReplaceAbsent(rest, DiscordPrefix, "");
    Text.ReplaceAbsent(rest, DiscordAppPrefix, "");
  }

  /** Splitting `id/token` on `/` gives the two parts back. */
  lemma SplitIdToken(id: string, token: string)
    requires IdToken(id, token)
    ensures Text.Split(id + "/" + token, '/') == [id, token]
  {
    Text.SplitJoin([id, token], '/');
    assert Text.Join([id, token], "/") == id + "/" + Text.Join([token], "/");
  }

  /** A `discord.com` webhook URL parses into its id and token. */
  lemma ParseDiscordUrl(id: string, token: string)
    requires IdToken(id, token)
    ensures ParseUrl(DiscordPrefix + id + "/" + token) == [id, token]
  {
    var rest := id + "/" + token;
    var url := DiscordPrefix + id + "/" + token;
    assert url == DiscordPrefix + rest;
    assert url[..|DiscordPrefix|] == DiscordPrefix && url[|DiscordPrefix|..] == rest;
    PrefixesAbsent(id, token);
    assert Text.Replace(url, DiscordPrefix, "") == "" + Text.Replace(rest, DiscordPrefix, "");
    assert "" + rest == rest;
    assert Text.Replace(url, DiscordPrefix, "") == rest;
    SplitIdToken(id, token);
    assert ParseUrl(url) == Text.Split(rest, '/');
  }

  /** A `discordapp.com` webhook URL parses into its id and token. */
  lemma ParseDiscordAppUrl(id: string, token: string)
    requires IdToken(id, token)
    ensures ParseUrl(DiscordAppPrefix + id + "/" + token) == [id, token]
  {
    var rest := id + "/" + token;
    var url := DiscordAppPrefix + id + "/" + token;
    assert url == DiscordAppPrefix + rest;
    DiscordPrefixAbsent(rest);
    Text.ReplaceAbsent(url, DiscordPrefix, "");
    assert url[..|DiscordAppPrefix|] == DiscordAppPrefix && url[|DiscordAppPrefix|..] == rest;
    PrefixesAbsent(id, token);
    assert Text.Replace(url, DiscordAppPrefix, "") == "" + Text.Replace(rest, DiscordAppPrefix, "");
    assert "" + rest == rest;
    SplitIdToken(id, token);
    assert ParseUrl(url) == Text.Split(rest, '/');
  }

  /** The `discord.com` prefix does not occur in a `discordapp.com` URL whose tail has no colon. */
  lemma DiscordPrefixAbsent(rest: string)
    requires ':' !in rest
    ensures !Text.Contains(DiscordAppPrefix + rest, DiscordPrefix)
  {
    var url := DiscordAppPrefix + rest;
    if Text.Contains(url, DiscordPrefix) {
      var i := Text.ContainsOccurs(url, DiscordPrefix);
      var w := url[i..i + |DiscordPrefix|];
      assert w == DiscordPrefix;
      assert url[i + 5] == w[5] == ':';
      ColonOnlyInScheme(rest, i + 5);
      assert url[..|DiscordPrefix|] == w;
      SchemeDiffers(rest);
      assert false;
    }
  }

  /** A `discordapp.com` URL does not start with the `discord.com` prefix. */
  lemma SchemeDiffers(rest: string)
    ensures (DiscordAppPrefix + rest)[..|DiscordPrefix|] != DiscordPrefix
  {
    assert (DiscordAppPrefix + rest)[..|DiscordPrefix|][15] == 'a';
  }

  /** The only colon of a `discordapp.com` URL with a colon-free tail is the scheme's. */
  lemma ColonOnlyInScheme(rest: string, k: int)
    requires ':' !in rest
    requires 0 <= k < |DiscordAppPrefix + rest| && (DiscordAppPrefix + rest)[k] == ':'
    ensures k == 5
  {
    if k >= |DiscordAppPrefix| {
      assert false;
    } else {
      assert forall j :: 0 <= j < |DiscordAppPrefix| && j != 5 ==> DiscordAppPrefix[j] != ':';
    }
  }
}

=== FILE: sorting.dfy ===
/**
 * Sorting records by a string key, as `_sort_torrents` and `sort_torrents` do by
 * sorting `(title, torrent)` pairs. Only the order of keys is specified; how records
 * with equal keys are ordered is not.
 */
module Sorting {
  import Text

  /** Keys never decrease from left to right. */
  predicate SortedBy<T>(s: seq<T>, key: T -> string) {
    forall i, j :: 0 <= i < j < |s| ==> Text.LessEq(key(s[i]), key(s[j]))
  }

  /** Inserts `x` into an already sorted sequence. */
  function Insert<T>(x: T, s: seq<T>, key: T -> string): (r: seq<T>)
    requires SortedBy(s, key)
    ensures SortedBy(r, key)
    ensures multiset(r) == multiset(s) + multiset{x}
    decreases |s|
  {
    if |s| == 0 then [x]
    else if Text.LessEq(key(x), key(s[0])) then
      SmallestFirst(x, s, key);
      assert s == [s[0]] + s[1..];
      [x] + s
    else
      Text.LessEqTotal(key(x), key(s[0]));
      var rest := Insert(x, s[1..], key);
      HeadStaysFirst(s, x, rest, key);
      assert s == [s[0]] + s[1..];
      [s[0]] + rest
  }

  /** A key no greater than the head of a sorted sequence may go in front of it. */
  lemma SmallestFirst<T>(x: T, s: seq<T>, key: T -> string)
    requires SortedBy(s, key) && |s| > 0 && Text.LessEq(key(x), key(s[0]))
    ensures SortedBy([x] + s, key)
  {
    forall j | 0 < j < |s| ensures Text.LessEq(key(x), key(s[j])) {
      Text.LessEqTransitive(key(x), key(s[0]), key(s[j]));
    }
    var r := [x] + s;
    forall i, j | 0 <= i < j < |r| ensures Text.LessEq(key(r[i]), key(r[j])) {
      assert r[j] == s[j - 1];
      if i > 0 { assert r[i] == s[i - 1]; }
    }
  }

  /**
   * The head of a sorted sequence stays in front when the tail is replaced by a
   * sorted permutation of itself plus a key no smaller than the head.
   */
  lemma HeadStaysFirst<T>(s: seq<T>, x: T, rest: seq<T>, key: T -> string)
    requires SortedBy(s, key) && |s| > 0 && Text.LessEq(key(s[0]), key(x))
    requires SortedBy(rest, key) && multiset(rest) == multiset(s[1..]) + multiset{x}
    ensures SortedBy([s[0]] + rest, key)
  {
    forall y | y in multiset(rest) ensures Text.LessEq(key(s[0]), key(y)) {
      if y != x {
        assert y in multiset(s[1..]);
        var j :| 0 <= j < |s[1..]| && s[1..][j] == y;
        assert s[j + 1] == y;
      }
    }
    var r := [s[0]] + rest;
    forall i, j | 0 <= i < j < |r| ensures Text.LessEq(key(r[i]), key(r[j])) {
      assert r[j] == rest[j - 1];
      assert r[j] in multiset(rest);
      if i > 0 { assert r[i] == rest[i - 1]; }
    }
  }

  /** A sorted permutation of `s`, built by insertion. */
  function SortBy<T>(s: seq<T>, key: T -> string): (r: seq<T>)
    ensures SortedBy(r, key)
    ensures multiset(r) == multiset(s)
    decreases |s|
  {
    if |s| == 0 then []
    else
      assert s == [s[0]] + s[1..];
      Insert(s[0], SortBy(s[1..], key), key)
  }

  /** Sorting keeps the length, so an empty input gives an empty output. */
  lemma SortByLength<T>(s: seq<T>, key: T -> string)
    ensures |SortBy(s, key)| == |s|
  {
    assert |multiset(SortBy(s, key))| == |multiset(s)|;
  }
}

=== FILE: template.dfy ===
/**
 * The placeholder substitution of the notification templates: a chain of
 * `str.replace` calls, one per placeholder, applied in a fixed order to the text
 * the previous call produced. Every placeholder starts with `$`.
 */
module Template {
  import Text

  /** Every placeholder is non-empty, starts with `$` and contains no other `$`. */
  predicate Placeholders(pats: seq<string>) {
    forall i :: 0 <= i < |pats| ==> |pats[i]| > 0 && pats[i][0] == '$' && '$' !in pats[i][1..]
  }

  /** No placeholder begins with a different one, so each is only ever replaced by its own value. */
  predicate PrefixFree(pats: seq<string>) {
    forall i, j :: 0 <= i < |pats| && 0 <= j < |pats| && i != j ==> !Text.StartsWith(pats[i], pats[j])
  }

  /** A string differing from `pat` in its second or third character does not start with it. */
  lemma HeadsDiffer(s: string, pat: string)
    requires |s| >= 3 && |pat| >= 3 && (s[1] != pat[1] || s[2] != pat[2])
    ensures !Text.StartsWith(s, pat)
  {
    if |pat| <= |s| {
      var head := s[..|pat|];
      assert head[1] == s[1] && head[2] == s[2];
      assert head != pat;
    }
  }

  /** Placeholders that differ in their second or third character are prefix-free. */
  lemma DistinctHeadsPrefixFree(pats: seq<string>)
    requires forall i :: 0 <= i < |pats| ==> |pats[i]| >= 3
    requires forall i, j :: 0 <= i < |pats| && 0 <= j < |pats| && i != j ==>
      pats[i][1] != pats[j][1] || pats[i][2] != pats[j][2]
    ensures PrefixFree(pats)
  {
    forall i, j | 0 <= i < |pats| && 0 <= j < |pats| && i != j
      ensures !Text.StartsWith(pats[i], pats[j])
    {
      HeadsDiffer(pats[i], pats[j]);
    }
  }

  /** `text.replace(pats[k], vals[k])` for `k` from `from` on, in order. */
  function ReplaceFrom(text: string, pats: seq<string>, vals: seq<string>, from: nat): (r: string)
    requires Placeholders(pats) && |pats| == |vals| && from <= |pats|
    decreases |pats| - from
  {
    if from == |pats| then text
    else ReplaceFrom(Text.Replace(text, pats[from], vals[from]), pats, vals, from + 1)
  }

  /** The whole chain of replacements. */
  function Substitute(text: string, pats: seq<string>, vals: seq<string>): string
    requires Placeholders(pats) && |pats| == |vals|
  {
    ReplaceFrom(text, pats, vals, 0)
  }

  /** A text without `$` goes through every replacement unchanged. */
  lemma {:induction false} NoDollarFrom(text: string, pats: seq<string>, vals: seq<string>, from: nat)
    requires Placeholders(pats) && |pats| == |vals| && from <= |pats|
    requires '$' !in text
    ensures ReplaceFrom(text, pats, vals, from) == text
    decreases |pats| - from
  {
    if from < |pats| {
      Text.ReplaceMissingFirstChar(text, pats[from], vals[from]);
      NoDollarFrom(text, pats, vals, from + 1);
    }
  }

  /** A template without `$` is returned as it is. */
  lemma NoDollarUnchanged(text: string, pats: seq<string>, vals: seq<string>)
    requires Placeholders(pats) && |pats| == |vals|
    requires '$' !in text
    ensures Substitute(text, pats, vals) == text
  {
    NoDollarFrom(text, pats, vals, 0);
  }

  /** A lone placeholder is untouched by a different placeholder that is not a prefix of it. */
  lemma OtherPlaceholderKeeps(tag: string, pat: string, rep: string)
    requires |tag| > 0 && tag[0] == '$' && '$' !in tag[1..]
    requires |pat| > 0 && pat[0] == '$'
    requires !Text.StartsWith(tag, pat)
    ensures Text.Replace(tag, pat, rep) == tag
  {
    if |tag| >= |pat| {
      assert tag[..|pat|] != pat;
      Text.ReplaceMissingFirstChar(tag[1..], pat, rep);
      assert [tag[0]] + tag[1..] == tag;
    }
  }

  /** Placeholder `i`, from step `from <= i` on, comes out as its value. */
  lemma {:induction false} PlaceholderFrom(pats: seq<string>, vals: seq<string>, i: nat, from: nat)
    requires Placeholders(pats) && PrefixFree(pats) && |pats| == |vals|
    requires from <= i < |pats|
    requires forall k :: 0 <= k < |vals| ==> '$' !in vals[k]
    ensures ReplaceFrom(pats[i], pats, vals, from) == vals[i]
    decreases |pats| - from
  {
    if from == i {
      Text.ReplaceWhole(pats[i], vals[i]);
      NoDollarFrom(vals[i], pats, vals, from + 1);
    } else {
      OtherPlaceholderKeeps(pats[i], pats[from], vals[from]);
      PlaceholderFrom(pats, vals, i, from + 1);
    }
  }

  /**
   * A template that is exactly one placeholder becomes that placeholder's value,
   * provided no value introduces a `$` of its own for a later step to replace.
   */
  lemma PlaceholderBecomesValue(pats: seq<string>, vals: seq<string>, i: nat)
    requires Placeholders(pats) && PrefixFree(pats) && |pats| == |vals|
    requires i < |pats|
    requires forall k :: 0 <= k < |vals| ==> '$' !in vals[k]
    ensures Substitute(pats[i], pats, vals) == vals[i]
  {
    PlaceholderFrom(pats, vals, i, 0);
  }

  /** A lone `$`-tag that starts with none of the placeholders passes through every step. */
  lemma {:induction false} UnlistedFrom(tag: string, pats: seq<string>, vals: seq<string>, from: nat)
    requires Placeholders(pats) && |pats| == |vals| && from <= |pats|
    requires |tag| > 0 && tag[0] == '$' && '$' !in tag[1..]
    requires forall k :: 0 <= k < |pats| ==> !Text.StartsWith(tag, pats[k])
    ensures ReplaceFrom(tag, pats, vals, from) == tag
    decreases |pats| - from
  {
    if from < |pats| {
      OtherPlaceholderKeeps(tag, pats[from], vals[from]);
      UnlistedFrom(tag, pats, vals, from + 1);
    }
  }

  /** A `$`-tag that is not a placeholder, and does not start with one, is left in the text. */
  lemma UnlistedKept(tag: string, pats: seq<string>, vals: seq<string>)
    requires Placeholders(pats) && |pats| == |vals|
    requires |tag| > 0 && tag[0] == '$' && '$' !in tag[1..]
    requires forall k :: 0 <= k < |pats| ==> !Text.StartsWith(tag, pats[k])
    ensures Substitute(tag, pats, vals) == tag
  {
    UnlistedFrom(tag, pats, vals, 0);
  }
}

=== FILE: text.dfy ===
/**
 * The fragment of Python's `str` that the watcher relies on: ASCII case mapping,
 * substring tests, left-to-right `replace`, `split` on one character, `join`,
 * decimal rendering of integers and the code-point ordering `sort` uses.
 */
module Text {
  import opened Wrappers

  /** `c.lower()` for ASCII letters; every other character is left as it is. */
  function LowerChar(c: char): char {
    if 'A' <= c <= 'Z' then (c as int + 32) as char else c
  }

  /** `c.upper()` for ASCII letters; every other character is left as it is. */
  function UpperChar(c: char): char {
    if 'a' <= c <= 'z' then (c as int - 32) as char else c
  }

  /** `s.lower()`, character by character. */
  function Lower(s: string): string {
    seq(|s|, i requires 0 <= i < |s| => LowerChar(s[i]))
  }

  /** `s.upper()`, character by character. */
  function Upper(s: string): string {
    seq(|s|, i requires 0 <= i < |s| => UpperChar(s[i]))
  }

  /** Lower-casing twice is lower-casing once. */
  lemma LowerIdempotent(s: string)
    ensures Lower(Lower(s)) == Lower(s)
  {
    assert forall i :: 0 <= i < |s| ==> LowerChar(LowerChar(s[i])) == LowerChar(s[i]);
  }

  /** `s.startswith(p)`. */
  predicate StartsWith(s: string, p: string) {
    |p| <= |s| && s[..|p|] == p
  }

  /** `s.endswith(p)`. */
  predicate EndsWith(s: string, p: string) {
    |p| <= |s| && s[|s| - |p|..] == p
  }

  /** Python's `needle in hay` for two strings. */
  predicate Contains(hay: string, needle: string)
    decreases |hay|
  {
    StartsWith(hay, needle) || (|hay| > 0 && Contains(hay[1..], needle))
  }

  /** `needle` occurs in `hay` starting at index `i`. */
  predicate OccursAt(hay: string, needle: string, i: int) {
    0 <= i && i + |needle| <= |hay| && hay[i..i + |needle|] == needle
  }

  /** A scan that finds `needle` has found it at some index. */
  lemma {:induction false} ContainsOccurs(hay: string, needle: string) returns (i: int)
    requires Contains(hay, needle)
    ensures OccursAt(hay, needle, i)
    decreases |hay|
  {
    if StartsWith(hay, needle) {
      i := 0;
    } else {
      var j := ContainsOccurs(hay[1..], needle);
      assert hay[j + 1..j + 1 + |needle|] == hay[1..][j..j + |needle|];
      i := j + 1;
    }
  }

  /** An occurrence at any index is found by the scan. */
  lemma {:induction false} OccursContains(hay: string, needle: string, i: int)
    requires OccursAt(hay, needle, i)
    ensures Contains(hay, needle)
    decreases i
  {
    if i > 0 {
      assert hay[1..][i - 1..i - 1 + |needle|] == hay[i..i + |needle|];
      OccursContains(hay[1..], needle, i - 1);
    }
  }

  /** The scanning definition of `in` agrees with "occurs at some index". */
  lemma ContainsIffOccurs(hay: string, needle: string)
    ensures Contains(hay, needle) <==> exists i :: OccursAt(hay, needle, i)
  {
    if Contains(hay, needle) {
      var i := ContainsOccurs(hay, needle);
    }
    forall i | OccursAt(hay, needle, i) ensures Contains(hay, needle) {
      OccursContains(hay, needle, i);
    }
  }

  /** The first index at which `needle` occurs in `hay`, as a left-to-right search finds it. */
  function Find(hay: string, needle: string): (r: Option<nat>)
    ensures r.Some? <==> Contains(hay, needle)
    ensures r.Some? ==> OccursAt(hay, needle, r.value)
    ensures r.Some? ==> forall j :: 0 <= j < r.value ==> !OccursAt(hay, needle, j)
    decreases |hay|
  {
    if StartsWith(hay, needle) then Some(0)
    else if |hay| == 0 then None
    else
      match Find(hay[1..], needle)
      case None => None
      case Some(k) =>
        assert hay[k + 1..k + 1 + |needle|] == hay[1..][k..k + |needle|];
        forall j | 1 <= j <= k && OccursAt(hay, needle, j) ensures OccursAt(hay[1..], needle, j - 1) {
          assert hay[j..j + |needle|] == hay[1..][j - 1..j - 1 + |needle|];
        }
        Some(k + 1)
  }

  /** A string framed by a fixed prefix and suffix determines its middle. */
  lemma MiddleDetermined(p: string, a: string, b: string, q: string)
    requires p + a + q == p + b + q
    ensures a == b
  {
    var s := p + a + q;
    assert |a| == |b|;
    assert s[|p|..|p| + |a|] == a;
    assert (p + b + q)[|p|..|p| + |b|] == b;
  }

  /** A needle whose first character is missing from `hay` does not occur in it. */
  lemma {:induction false} FirstCharAbsent(hay: string, needle: string)
    requires |needle| > 0 && needle[0] !in hay
    ensures !Contains(hay, needle)
    decreases |hay|
  {
    if |hay| > 0 {
      assert hay[0] != needle[0];
      FirstCharAbsent(hay[1..], needle);
    }
  }

  /** A needle with any character missing from `hay` does not occur in it. */
  lemma CharAbsent(hay: string, needle: string, k: nat)
    requires k < |needle| && needle[k] !in hay
    ensures !Contains(hay, needle)
  {
    if Contains(hay, needle) {
      var i := ContainsOccurs(hay, needle);
      assert false;
    }
  }

  /**
   * Python's `s.replace(pat, rep)`: every non-overlapping occurrence of `pat`,
   * found left to right, is replaced by `rep`. An empty `pat` is not modelled.
   */
  function Replace(s: string, pat: string, rep: string): string
    requires |pat| > 0
    decreases |s|
  {
    if |s| < |pat| then s
    else if s[..|pat|] == pat then rep + Replace(s[|pat|..], pat, rep)
    else [s[0]] + Replace(s[1..], pat, rep)
  }

  /** Replacing a string that does not occur changes nothing. */
  lemma {:induction false} ReplaceAbsent(s: string, pat: string, rep: string)
    requires |pat| > 0 && !Contains(s, pat)
    ensures Replace(s, pat, rep) == s
    decreases |s|
  {
    if |s| >= |pat| {
      assert !StartsWith(s, pat);
      ReplaceAbsent(s[1..], pat, rep);
      assert [s[0]] + s[1..] == s;
    }
  }

  /** A replacement whose pattern starts with a character absent from `s` changes nothing. */
  lemma ReplaceMissingFirstChar(s: string, pat: string, rep: string)
    requires |pat| > 0 && pat[0] !in s
    ensures Replace(s, pat, rep) == s
  {
    FirstCharAbsent(s, pat);
    ReplaceAbsent(s, pat, rep);
  }

  /** A string that is exactly the pattern is replaced by `rep`. */
  lemma ReplaceWhole(pat: string, rep: string)
    requires |pat| > 0
    ensures Replace(pat, pat, rep) == rep
  {
    assert pat[..|pat|] == pat;
    assert pat[|pat|..] == [];
    assert rep + [] == rep;
  }

  /** `sep.join(parts)`. */
  function Join(parts: seq<string>, sep: string): string {
    if |parts| == 0 then ""
    else if |parts| == 1 then parts[0]
    else parts[0] + sep + Join(parts[1..], sep)
  }

  /** `s.split(sep)` for a one-character separator. */
  function Split(s: string, sep: char): (r: seq<string>)
    ensures |r| >= 1
    ensures forall i :: 0 <= i < |r| ==> sep !in r[i]
    ensures Join(r, [sep]) == s
    decreases |s|
  {
    if |s| == 0 then [""]
    else
      var rest := Split(s[1..], sep);
      if s[0] == sep then
        assert Join([""] + rest, [sep]) == "" + [sep] + Join(rest, [sep]) by {
          assert ([""] + rest)[1..] == rest;
        }
        [""] + rest
      else
        var r := [[s[0]] + rest[0]] + rest[1..];
        assert forall i :: 1 <= i < |r| ==> r[i] == rest[i];
        assert r[1..] == rest[1..];
        assert Join(r, [sep]) == [s[0]] + Join(rest, [sep]);
        r
  }

  /** Splitting a joined list of separator-free pieces gives the pieces back. */
  lemma {:induction false} SplitJoin(parts: seq<string>, sep: char)
    requires |parts| >= 1
    requires forall i :: 0 <= i < |parts| ==> sep !in parts[i]
    ensures Split(Join(parts, [sep]), sep) == parts
    decreases |parts|
  {
    if |parts| == 1 {
      SplitPiece(parts[0], [], sep);
      assert parts[0] + [] == parts[0];
    } else {
      SplitJoin(parts[1..], sep);
      var tail := Join(parts[1..], [sep]);
      SplitPiece(parts[0], [sep] + tail, sep);
      assert parts[0] + [sep] + tail == parts[0] + ([sep] + tail);
      assert ([sep] + tail)[1..] == tail;
      assert [""] + parts[1..] == Split([sep] + tail, sep);
      assert parts == [parts[0]] + parts[1..];
    }
  }

  /** Splitting `piece + rest`, where `rest` is empty or starts with the separator. */
  lemma {:induction false} SplitPiece(piece: string, rest: string, sep: char)
    requires sep !in piece
    requires rest == [] || rest[0] == sep
    ensures rest == [] ==> Split(piece + rest, sep) == [piece]
    ensures rest != [] ==> Split(piece + rest, sep) == [piece] + Split(rest[1..], sep)
    decreases |piece|
  {
    if |piece| > 0 {
      var s := piece + rest;
      assert s[0] == piece[0] && s[1..] == piece[1..] + rest;
      SplitPiece(piece[1..], rest, sep);
      var inner := Split(s[1..], sep);
      assert inner[0] == piece[1..];
      SplitOther(s, sep);
      assert [piece[0]] + piece[1..] == piece;
      if rest != [] {
        assert inner[1..] == Split(rest[1..], sep);
      }
    } else {
      assert piece + rest == rest;
    }
  }

  /** A string not starting with the separator extends the first piece of its tail's split. */
  lemma SplitOther(s: string, sep: char)
    requires |s| > 0 && s[0] != sep
    ensures Split(s, sep) == [[s[0]] + Split(s[1..], sep)[0]] + Split(s[1..], sep)[1..]
  {
  }

  /** The decimal digit character for `d`. */
  function DigitChar(d: nat): char
    requires d < 10
  {
    "0123456789"[d]
  }

  /** The value of a decimal digit character (non-digits read as 0). */
  function DigitValue(c: char): nat {
    if '0' <= c <= '9' then c as int - '0' as int else 0
  }

  /** `str(n)` for a non-negative integer. */
  function NatToString(n: nat): (r: string)
    ensures |r| >= 1
    decreases n
  {
    if n < 10 then [DigitChar(n)] else NatToString(n / 10) + [DigitChar(n % 10)]
  }

  /** `int(s)` for a string of decimal digits. */
  function ParseNat(s: string): nat
    decreases |s|
  {
    if |s| == 0 then 0 else ParseNat(s[..|s| - 1]) * 10 + DigitValue(s[|s| - 1])
  }

  /** Rendering a number in decimal and reading it back gives the number. */
  lemma {:induction false} ParseNatToString(n: nat)
    ensures ParseNat(NatToString(n)) == n
    decreases n
  {
    if n >= 10 {
      ParseNatToString(n / 10);
      var s := NatToString(n);
      assert s[..|s| - 1] == NatToString(n / 10);
    }
  }

  /** Python's `a <= b` on strings: code-point lexicographic order. */
  predicate LessEq(a: string, b: string)
    decreases |a|
  {
    |a| == 0 || (|b| > 0 && (a[0] < b[0] || (a[0] == b[0] && LessEq(a[1..], b[1..]))))
  }

  /** Any two strings are ordered one way or the other. */
  lemma {:induction false} LessEqTotal(a: string, b: string)
    ensures LessEq(a, b) || LessEq(b, a)
    decreases |a|
  {
    if |a| > 0 && |b| > 0 && a[0] == b[0] {
      LessEqTotal(a[1..], b[1..]);
    }
  }

  /** The string order is transitive. */
  lemma {:induction false} LessEqTransitive(a: string, b: string, c: string)
    requires LessEq(a, b) && LessEq(b, c)
    ensures LessEq(a, c)
    decreases |a|
  {
    if |a| > 0 && a[0] == b[0] && b[0] == c[0] {
      LessEqTransitive(a[1..], b[1..], c[1..]);
    }
  }
}

=== FILE: updates.dfy ===
/**
 * The file migrations of src/updates.py: four version steps run in order by
 * `update_files`, the JSON path builder, and the two data reshapings of the
 * 1.2.0 step, the uploader name taken from the feed URL and the history records
 * that gain an `uploader`. Only what the steps return and compute is modelled;
 * the file bodies they read and write are not.
 */
module Updates {
  import opened Wrappers
  import Text

  // ---------------------------------------------------------------------------
  // Version steps
  // ---------------------------------------------------------------------------

  /**
   * `update_to_v111` as written. Its guard `version != "1.0.0" or version != "1.0.1"`
   * holds for every string, so the step always returns at once with its input.
   */
  function V111AsWritten(version: string): (r: string)
    ensures r == version
  {
    if version != "1.0.0" || version != "1.0.1" then version else "1.1.1"
  }

  /** `update_to_v112` as written: the same always-true guard makes it return its input. */
  function V112AsWritten(version: string): (r: string)
    ensures r == version
  {
    if version != "1.1.0" || version != "1.1.1" then version else "1.1.2"
  }

  /** The 1.0.x files the 1.1.1 step exists for are never migrated by it. */
  lemma V111AsWrittenSkipsOldFiles()
    ensures V111AsWritten("1.0.0") == "1.0.0" && V111AsWritten("1.0.1") == "1.0.1"
  {
  }

  /** Likewise the 1.1.0 and 1.1.1 files are left as they are by the 1.1.2 step. */
  lemma V112AsWrittenSkipsOldFiles()
    ensures V112AsWritten("1.1.0") == "1.1.0" && V112AsWritten("1.1.1") == "1.1.1"
  {
  }

  /** `update_to_v111` with the guard its docstring describes: 1.0.0 and 1.0.1 become 1.1.1. */
  function V111(version: string): (r: string)
    ensures version == "1.0.0" || version == "1.0.1" ==> r == "1.1.1"
    ensures version != "1.0.0" && version != "1.0.1" ==> r == version
  {
    if version != "1.0.0" && version != "1.0.1" then version else "1.1.1"
  }

  /** `update_to_v112` with the intended guard: 1.1.0 and 1.1.1 become 1.1.2. */
  function V112(version: string): (r: string)
    ensures version == "1.1.0" || version == "1.1.1" ==> r == "1.1.2"
    ensures version != "1.1.0" && version != "1.1.1" ==> r == version
  {
    if version != "1.1.0" && version != "1.1.1" then version else "1.1.2"
  }

  /** `update_to_v120`: acts on 1.1.2 files only. */
  function V120(version: string): (r: string)
    ensures r == "1.2.0" <==> version == "1.1.2" || version == "1.2.0"
    ensures version != "1.1.2" ==> r == version
  {
    if version != "1.1.2" then version else "1.2.0"
  }

  /** `update_to_v121`: acts on 1.2.0 files only. */
  function V121(version: string): (r: string)
    ensures r == "1.2.1" <==> version == "1.2.0" || version == "1.2.1"
    ensures version != "1.2.0" ==> r == version
  {
    if version != "1.2.0" then version else "1.2.1"
  }

  /**
   * `update_files` as written: with the first two steps inert, only 1.1.2 and
   * 1.2.0 reach 1.2.1 and every other version comes back unchanged.
   */
  function UpdateFilesAsWritten(version: string): (r: string)
    ensures version == "1.1.2" || version == "1.2.0" ==> r == "1.2.1"
    ensures version != "1.1.2" && version != "1.2.0" ==> r == version
  {
    V121(V120(V112AsWritten(V111AsWritten(version))))
  }

  /** The versions the chain of steps is meant to bring up to date. */
  const Migratable: seq<string> := ["1.0.0", "1.0.1", "1.1.0", "1.1.1", "1.1.2", "1.2.0"]

  /** `update_files` with the corrected guards: every older version reaches 1.2.1. */
  function UpdateFiles(version: string): (r: string)
    ensures version in Migratable ==> r == "1.2.1"
    ensures version !in Migratable ==> r == version
  {
    V121(V120(V112(V111(version))))
  }

  /** A second run of the corrected chain changes nothing. */
  lemma UpdateFilesIdempotent(version: string)
    ensures UpdateFiles(UpdateFiles(version)) == UpdateFiles(version)
  {
    assert "1.2.1" !in Migratable;
  }

  /** So does a second run of the chain as written. */
  lemma UpdateFilesAsWrittenIdempotent(version: string)
    ensures UpdateFilesAsWritten(UpdateFilesAsWritten(version)) == UpdateFilesAsWritten(version)
  {
  }

  /**
   * The chain as written and the corrected one agree from 1.1.2 on, and differ
   * exactly on the four versions the inert guards skip.
   */
  lemma AsWrittenDiffersOnOldFiles(version: string)
    ensures UpdateFilesAsWritten(version) != UpdateFiles(version) <==>
      version in ["1.0.0", "1.0.1", "1.1.0", "1.1.1"]
  {
  }

  // ---------------------------------------------------------------------------
  // JSON paths
  // ---------------------------------------------------------------------------

  /** The `ENV` value selects the development files when it lower-cases to `development`. */
  predicate Development(env: Option<string>) {
    Text.Lower(env.GetOr("PRODUCTION")) == "development"
  }

  /**
   * `get_json_path`: `WATCHER_DIR` (default `/watcher`), then `/json/dev.` in
   * development or `/` otherwise, then the file name and `.json`.
   */
  function GetJsonPath(env: Option<string>, watcherDir: Option<string>, filename: string): (r: string)
    ensures Text.StartsWith(r, watcherDir.GetOr("/watcher"))
  {
    var dir := watcherDir.GetOr("/watcher");
    var path := (if Development(env) then "/json/dev." else "/") + filename + ".json";
    assert dir + path == dir + ((if Development(env) then "/json/dev." else "/") + filename + ".json");
    dir + path
  }

  /** The prefix of the file name, which depends on the environment only. */
  function PathLead(env: Option<string>, watcherDir: Option<string>): string {
    watcherDir.GetOr("/watcher") + (if Development(env) then "/json/dev." else "/")
  }

  /** Every path is the directory lead, the file name and `.json`. */
  lemma JsonPathShape(env: Option<string>, watcherDir: Option<string>, filename: string)
    ensures GetJsonPath(env, watcherDir, filename) == PathLead(env, watcherDir) + filename + ".json"
  {
  }

  /** Different files never share a path. */
  lemma JsonPathsDistinct(env: Option<string>, watcherDir: Option<string>, f1: string, f2: string)
    requires f1 != f2
    ensures GetJsonPath(env, watcherDir, f1) != GetJsonPath(env, watcherDir, f2)
  {
    JsonPathShape(env, watcherDir, f1);
    JsonPathShape(env, watcherDir, f2);
    if GetJsonPath(env, watcherDir, f1) == GetJsonPath(env, watcherDir, f2) {
      Text.MiddleDetermined(PathLead(env, watcherDir), f1, f2, ".json");
    }
  }

  /** With neither variable set, the files are the production ones under `/watcher`. */
  lemma JsonPathDefaults(filename: string)
    ensures GetJsonPath(None, None, filename) == "/watcher/" + filename + ".json"
  {
    assert Text.Lower("PRODUCTION") == "production";
  }

  /** The environment name is compared ignoring case. */
  lemma JsonPathDevelopment(watcherDir: Option<string>, filename: string)
    ensures GetJsonPath(Some("DEVELOPMENT"), watcherDir, filename) ==
      watcherDir.GetOr("/watcher") + "/json/dev." + filename + ".json"
  {
    assert Text.Lower("DEVELOPMENT") == "development";
  }

  // ---------------------------------------------------------------------------
  // The 1.2.0 reshaping
  // ---------------------------------------------------------------------------

  /** The longest prefix of `s` without the character `c`: what `[^&]*` matches. */
  function TakeUntil(s: string, c: char): (r: string)
    ensures c !in r && Text.StartsWith(s, r)
    ensures |r| < |s| ==> s[|r|] == c
    decreases |s|
  {
    if |s| == 0 || s[0] == c then ""
    else
      var rest := TakeUntil(s[1..], c);
      assert s[1..][..|rest|] == s[1..|rest| + 1];
      [s[0]] + rest
  }

  /**
   * `re.search(r"u=[^&]*", rss).group().replace("u=", "")`: the leftmost `u=`
   * and what follows it up to the next `&`, with every `u=` removed. `None` is
   * the `AttributeError` raised when the URL has no `u=`.
   */
  function ExtractUsername(rss: string): (r: Option<string>)
    ensures r.None? <==> !Text.Contains(rss, "u=")
  {
    match Text.Find(rss, "u=")
    case None => None
    case Some(i) => Some(Text.Replace(TakeUntil(rss[i + 2..], '&'), "u=", ""))
  }

  /** The text after the first `u=` and up to the next `&` or the end is the user name. */
  lemma UsernameFromFeedUrl(prefix: string, name: string, rest: string)
    requires !Text.Contains(prefix, "u=")
    requires '&' !in name && '=' !in name
    requires rest == [] || rest[0] == '&'
    ensures ExtractUsername(prefix + "u=" + name + rest) == Some(name)
  {
    var body := name + rest;
    assert prefix + "u=" + name + rest == prefix + "u=" + body;
    ExtractAfterFirstMarker(prefix, body);
    TakeUntilStops(name, rest);
    Text.CharAbsent(name, "u=", 1);
    Text.ReplaceAbsent(name, "u=", "");
  }

  /** With no `u=` before the one that follows `prefix`, the user name is read from `body`. */
  lemma ExtractAfterFirstMarker(prefix: string, body: string)
    requires !Text.Contains(prefix, "u=")
    ensures ExtractUsername(prefix + "u=" + body) == Some(Text.Replace(TakeUntil(body, '&'), "u=", ""))
  {
    var rss := prefix + "u=" + body;
    assert rss == prefix + ("u=" + body);
    FirstOccurrenceAfter(prefix, "u=" + body);
    assert rss[|prefix| + 2..] == body;
  }

  /** Past a prefix free of `u=`, the first `u=` is the one that starts the tail. */
  lemma FirstOccurrenceAfter(prefix: string, tail: string)
    requires !Text.Contains(prefix, "u=")
    requires Text.StartsWith(tail, "u=")
    ensures Text.Find(prefix + tail, "u=") == Some(|prefix|)
  {
    var rss := prefix + tail;
    var i := |prefix|;
    assert rss[i..i + 2] == tail[..2];
    assert Text.OccursAt(rss, "u=", i);
    Text.OccursContains(rss, "u=", i);
    forall j | 0 <= j < i ensures !Text.OccursAt(rss, "u=", j) {
      NotBeforeTail(prefix, tail, j);
    }
    var r := Text.Find(rss, "u=");
    assert r.Some? && Text.OccursAt(rss, "u=", r.value);
    assert r.value <= i;
  }

  /** No `u=` of `prefix + tail` starts inside the prefix. */
  lemma NotBeforeTail(prefix: string, tail: string, j: int)
    requires !Text.Contains(prefix, "u=")
    requires Text.StartsWith(tail, "u=")
    requires 0 <= j < |prefix|
    ensures !Text.OccursAt(prefix + tail, "u=", j)
  {
    var rss := prefix + tail;
    if j + 2 <= |prefix| {
      if Text.OccursAt(prefix, "u=", j) {
        Text.OccursContains(prefix, "u=", j);
      }
      assert rss[j..j + 2] == prefix[j..j + 2];
    } else {
      assert tail[0] == tail[..2][0] == 'u';
      assert rss[j + 1] == tail[0];
      assert rss[j..j + 2][1] == rss[j + 1];
    }
  }

  /** `TakeUntil` stops at the separator that ends the text before it. */
  lemma {:induction false} TakeUntilStops(name: string, rest: string)
    requires '&' !in name && (rest == [] || rest[0] == '&')
    ensures TakeUntil(name + rest, '&') == name
    decreases |name|
  {
    if |name| > 0 {
      assert (name + rest)[1..] == name[1..] + rest;
      TakeUntilStops(name[1..], rest);
      assert [name[0]] + name[1..] == name;
    }
  }

  /** The default feed URL yields the placeholder user name. */
  lemma DefaultFeedUsername()
    ensures ExtractUsername("https://nyaa.si/?page=rss&u=USERNAME") == Some("USERNAME")
  {
    DefaultFeedPrefix();
    DefaultFeedPieces();
    UsernameFromFeedUrl("https://nyaa.si/?page=rss&", "USERNAME", "");
  }

  /** The default feed URL has no `u=` before the user name. */
  lemma DefaultFeedPrefix()
    ensures !Text.Contains("https://nyaa.si/?page=rss&", "u=")
  {
    Text.FirstCharAbsent("https://nyaa.si/?page=rss&", "u=");
  }

  /** The default feed URL splits into prefix, marker and placeholder user name. */
  lemma DefaultFeedPieces()
    ensures '&' !in "USERNAME" && '=' !in "USERNAME"
    ensures "https://nyaa.si/?page=rss&" + "u=" + "USERNAME" + "" == "https://nyaa.si/?page=rss&u=USERNAME"
  {
  }

  /** One record of `history['downloads']` before 1.2.0; every key is read with `.get`. */
  datatype PriorRecord = PriorRecord(
    uploader: Option<string>,
    title: Option<string>,
    date: Option<string>,
    page: Option<string>,
    hash: Option<string>)

  /** One record of the history 1.2.0 writes. */
  datatype MigratedRecord = MigratedRecord(
    uploader: string,
    title: Option<string>,
    date: Option<string>,
    page: Option<string>,
    hash: Option<string>)

  /** The record a former download becomes: its own uploader if it has one, else the feed's user. */
  function Migrate(p: PriorRecord, username: string): (r: MigratedRecord)
    ensures r.title == p.title && r.date == p.date && r.page == p.page && r.hash == p.hash
    ensures p.uploader.Some? ==> r.uploader == p.uploader.value
    ensures p.uploader.None? ==> r.uploader == username
  {
    MigratedRecord(p.uploader.GetOr(username), p.title, p.date, p.page, p.hash)
  }

  /**
   * The loop over `history.get('downloads')` that builds the new history, a bare
   * list with one record per former download. `None` is the `TypeError` of
   * iterating a missing key.
   */
  method MigrateHistory(downloads: Option<seq<PriorRecord>>, username: string) returns (r: Option<seq<MigratedRecord>>)
    ensures r.None? <==> downloads.None?
    ensures r.Some? ==> |r.value| == |downloads.value|
    ensures r.Some? ==> forall i :: 0 <= i < |r.value| ==> r.value[i] == Migrate(downloads.value[i], username)
  {
    if downloads.None? {
      return None;
    }
    var prior := downloads.value;
    var out: seq<MigratedRecord> := [];
    var i := 0;
    while i < |prior|
      invariant 0 <= i <= |prior|
      invariant |out| == i
      invariant forall k :: 0 <= k < i ==> out[k] == Migrate(prior[k], username)
    {
      out := out + [Migrate(prior[i], username)];
      i := i + 1;
    }
    r := Some(out);
  }

  /** The migration neither loses nor invents an infohash, so the dedup history survives it. */
  lemma MigrationKeepsHashes(prior: seq<PriorRecord>, migrated: seq<MigratedRecord>, username: string, h: string)
    requires |migrated| == |prior|
    requires forall i :: 0 <= i < |prior| ==> migrated[i] == Migrate(prior[i], username)
    ensures (exists i :: 0 <= i < |migrated| && migrated[i].hash == Some(h)) <==>
      (exists i :: 0 <= i < |prior| && prior[i].hash == Some(h))
  {
    if exists i :: 0 <= i < |prior| && prior[i].hash == Some(h) {
      var i :| 0 <= i < |prior| && prior[i].hash == Some(h);
      assert migrated[i].hash == Some(h);
    }
  }
}

=== FILE: watcher.dfy ===
/**
 * The feed matching and dedup engine of the current watcher (src/watcher.py):
 * per subscription, walk the feed newest-first up to the previous checkpoint,
 * claim each entry for the first watchlist rule that matches it unless its
 * infohash is already among the downloads, advance the checkpoint to the newest
 * entry, and sort the claimed entries by title.
 */
module Watcher {
  import opened Wrappers
  import Text
  import Sorting
  import Matching
  import opened Feed

  /** The watchlist name recorded when a rule has no `name` key. */
  const UnknownWatchlist := "Unknown Watchlist"

  /**
   * One `watchlist` entry of a subscription. Missing `tags`, `regex`,
   * `exclude_regex` and `webhooks` keys read as empty lists, as `.get(key, [])` does.
   */
  datatype Rule = Rule(
    name: Option<string>,
    tags: seq<string>,
    regex: seq<string>,
    excludeRegex: seq<string>,
    webhooks: seq<string>)

  /** One `subscriptions` entry; `previousHash` is the dedup checkpoint. */
  datatype Subscription = Subscription(
    username: string,
    rss: string,
    watchlist: seq<Rule>,
    previousHash: Option<string>)

  /**
   * A feed entry placed on the download queue, with the keys `fetch_feed` attaches:
   * `uploader`, `watchlist` (absent when the subscription has no watchlist) and `webhooks`.
   */
  datatype Queued = Queued(
    torrent: Torrent,
    uploader: string,
    watchlist: Option<string>,
    webhooks: seq<string>)

  /** One record of `history['downloads']`. */
  datatype DownloadRecord = DownloadRecord(
    uploader: string,
    title: string,
    date: string,
    page: string,
    hash: string)

  /** What `fetch_feed` returns, together with the checkpoint it commits (if any). */
  datatype FeedResult = FeedResult(queue: seq<Queued>, checkpoint: Option<string>)

  /** The sort key of a queued torrent: its title. */
  function QueuedTitle(q: Queued): string {
    q.torrent.title
  }

  /** Some download record carries `hash`. Only `downloads` is consulted, never `errors`. */
  predicate Downloaded(downloads: seq<DownloadRecord>, hash: string) {
    exists i :: 0 <= i < |downloads| && downloads[i].hash == hash
  }

  /**
   * The decision for one rule: `(tag_match or not tags) and (regex_match or not regexes)`,
   * vetoed by any matching exclude pattern.
   */
  function Decide(search: Matching.Search, rule: Rule, title: string): (r: bool)
    ensures r <==>
      && (|rule.tags| == 0 || exists i :: 0 <= i < |rule.tags| && Text.Contains(Text.Lower(title), Text.Lower(rule.tags[i])))
      && (|rule.regex| == 0 || exists i :: 0 <= i < |rule.regex| && search(rule.regex[i], title))
      && (forall i :: 0 <= i < |rule.excludeRegex| ==> !search(rule.excludeRegex[i], title))
  {
    var tagMatch := Matching.TagMatch(rule.tags, title);
    var regexMatch := Matching.SearchAny(search, rule.regex, title);
    var excluded := Matching.SearchAny(search, rule.excludeRegex, title);
    var matched := (tagMatch || |rule.tags| == 0) && (regexMatch || |rule.regex| == 0);
    if excluded then false else matched
  }

  /** A rule with neither tags nor regexes matches every title no exclude pattern finds. */
  lemma EmptyRuleMatchesAll(search: Matching.Search, rule: Rule, title: string)
    requires |rule.tags| == 0 && |rule.regex| == 0
    ensures Decide(search, rule, title) <==> !Matching.SearchAny(search, rule.excludeRegex, title)
  {
  }

  /** Rule `k` is the first rule of `rules` that decides for `title`. */
  predicate IsFirstMatch(search: Matching.Search, rules: seq<Rule>, title: string, k: int) {
    0 <= k < |rules| && Decide(search, rules[k], title)
    && forall j :: 0 <= j < k ==> !Decide(search, rules[j], title)
  }

  /**
   * The inner `for watchlist_entry in watchlist` loop from rule `k` on: the first
   * rule that matches claims the entry unless its hash is already downloaded (`seen`).
   */
  function ClaimFrom(search: Matching.Search, rules: seq<Rule>, title: string, seen: bool, k: nat): (r: Option<nat>)
    requires k <= |rules|
    ensures r.Some? ==> k <= r.value < |rules| && !seen && Decide(search, rules[r.value], title)
    ensures r.Some? ==> forall j :: k <= j < r.value ==> !Decide(search, rules[j], title)
    ensures r.None? <==> seen || forall j :: k <= j < |rules| ==> !Decide(search, rules[j], title)
    decreases |rules| - k
  {
    if k == |rules| then None
    else if Decide(search, rules[k], title) && !seen then Some(k)
    else ClaimFrom(search, rules, title, seen, k + 1)
  }

  /** The body of the feed loop for one entry that lies before the checkpoint. */
  function Consider(search: Matching.Search, sub: Subscription, downloads: seq<DownloadRecord>, t: Torrent): (r: Option<Queued>)
    ensures r.Some? ==> r.value.torrent == t && r.value.uploader == sub.username && !Downloaded(downloads, t.infohash)
    ensures |sub.watchlist| == 0 ==> (r.Some? <==> !Downloaded(downloads, t.infohash))
    ensures |sub.watchlist| == 0 && r.Some? ==> r.value.watchlist.None? && r.value.webhooks == []
    ensures |sub.watchlist| > 0 ==>
      (r.Some? <==> !Downloaded(downloads, t.infohash) && exists k :: 0 <= k < |sub.watchlist| && Decide(search, sub.watchlist[k], t.title))
    ensures |sub.watchlist| > 0 && r.Some? ==>
      exists k :: IsFirstMatch(search, sub.watchlist, t.title, k)
        && r.value.watchlist == Some(sub.watchlist[k].name.GetOr(UnknownWatchlist))
        && r.value.webhooks == sub.watchlist[k].webhooks
  {
    var seen := Downloaded(downloads, t.infohash);
    if |sub.watchlist| > 0 then
      match ClaimFrom(search, sub.watchlist, t.title, seen, 0)
      case Some(k) =>
        var rule := sub.watchlist[k];
        assert IsFirstMatch(search, sub.watchlist, t.title, k);
        Some(Queued(t, sub.username, Some(rule.name.GetOr(UnknownWatchlist)), rule.webhooks))
      case None => None
    else if seen then None
    else Some(Queued(t, sub.username, None, []))
  }

  /** The `for torrent in feed.entries` loop: stop at the checkpoint, queue what is claimed. */
  function Scan(search: Matching.Search, sub: Subscription, downloads: seq<DownloadRecord>, entries: seq<Torrent>): (r: seq<Queued>)
    ensures |r| <= |entries|
    decreases |entries|
  {
    if |entries| == 0 || Some(entries[0].infohash) == sub.previousHash then []
    else
      var head := match Consider(search, sub, downloads, entries[0])
        case Some(q) => [q]
        case None => [];
      head + Scan(search, sub, downloads, entries[1..])
  }

  /** The index of the first entry whose hash is the checkpoint (`|entries|` when none is). */
  function Cut(entries: seq<Torrent>, checkpoint: Option<string>): (n: nat)
    ensures n <= |entries|
    ensures forall i :: 0 <= i < n ==> Some(entries[i].infohash) != checkpoint
    ensures n < |entries| ==> Some(entries[n].infohash) == checkpoint
    decreases |entries|
  {
    if |entries| == 0 || Some(entries[0].infohash) == checkpoint then 0
    else
      var n := 1 + Cut(entries[1..], checkpoint);
      assert forall i :: 1 <= i < n ==> entries[i] == entries[1..][i - 1];
      n
  }

  /**
   * Scanning queues exactly the entries before the checkpoint that `Consider` claims:
   * the checkpoint entry and everything after it are never queued.
   */
  lemma {:induction false} ScanMembers(search: Matching.Search, sub: Subscription, downloads: seq<DownloadRecord>, entries: seq<Torrent>)
    ensures forall q :: q in Scan(search, sub, downloads, entries) <==>
      exists i :: 0 <= i < Cut(entries, sub.previousHash) && Consider(search, sub, downloads, entries[i]) == Some(q)
    decreases |entries|
  {
    if |entries| > 0 && Some(entries[0].infohash) != sub.previousHash {
      ScanMembers(search, sub, downloads, entries[1..]);
      var n := Cut(entries, sub.previousHash);
      assert n == 1 + Cut(entries[1..], sub.previousHash);
      forall q ensures q in Scan(search, sub, downloads, entries) <==>
        exists i :: 0 <= i < n && Consider(search, sub, downloads, entries[i]) == Some(q)
      {
        if q in Scan(search, sub, downloads, entries) {
          if Consider(search, sub, downloads, entries[0]) != Some(q) {
            assert q in Scan(search, sub, downloads, entries[1..]);
            var j :| 0 <= j < n - 1 && Consider(search, sub, downloads, entries[1..][j]) == Some(q);
            assert entries[1..][j] == entries[j + 1];
          }
        }
        if exists i :: 0 <= i < n && Consider(search, sub, downloads, entries[i]) == Some(q) {
          var i :| 0 <= i < n && Consider(search, sub, downloads, entries[i]) == Some(q);
          if i > 0 {
            assert entries[1..][i - 1] == entries[i];
          }
        }
      }
    }
  }

  /** An entry whose infohash is already downloaded is never queued, whatever the checkpoint. */
  lemma DownloadedNeverQueued(search: Matching.Search, sub: Subscription, downloads: seq<DownloadRecord>, entries: seq<Torrent>, q: Queued)
    requires q in Scan(search, sub, downloads, entries)
    ensures !Downloaded(downloads, q.torrent.infohash)
    ensures q.torrent in entries[..Cut(entries, sub.previousHash)]
  {
    ScanMembers(search, sub, downloads, entries);
    var i :| 0 <= i < Cut(entries, sub.previousHash) && Consider(search, sub, downloads, entries[i]) == Some(q);
    assert entries[..Cut(entries, sub.previousHash)][i] == entries[i];
  }

  /** Every queued torrent comes from the scanned entries. */
  lemma {:induction false} ScanFromEntries(search: Matching.Search, sub: Subscription, downloads: seq<DownloadRecord>, entries: seq<Torrent>)
    ensures forall q :: q in Scan(search, sub, downloads, entries) ==> q.torrent in entries
    decreases |entries|
  {
    if |entries| > 0 && Some(entries[0].infohash) != sub.previousHash {
      ScanFromEntries(search, sub, downloads, entries[1..]);
      assert forall t :: t in entries[1..] ==> t in entries;
    }
  }

  /** Each entry is queued at most once: distinct feed entries give distinct queue entries. */
  lemma {:induction false} ScanQueuesOnce(search: Matching.Search, sub: Subscription, downloads: seq<DownloadRecord>, entries: seq<Torrent>)
    requires forall i, j :: 0 <= i < j < |entries| ==> entries[i] != entries[j]
    ensures forall a, b :: 0 <= a < b < |Scan(search, sub, downloads, entries)| ==>
      Scan(search, sub, downloads, entries)[a].torrent != Scan(search, sub, downloads, entries)[b].torrent
    decreases |entries|
  {
    if |entries| > 0 && Some(entries[0].infohash) != sub.previousHash {
      var tail := entries[1..];
      ScanQueuesOnce(search, sub, downloads, tail);
      ScanFromEntries(search, sub, downloads, tail);
      var rest := Scan(search, sub, downloads, tail);
      assert entries[0] !in tail by {
        forall i | 0 <= i < |tail| ensures tail[i] != entries[0] {
          assert tail[i] == entries[i + 1];
        }
      }
      var r := Scan(search, sub, downloads, entries);
      var head := Consider(search, sub, downloads, entries[0]);
      if head.Some? {
        assert r == [head.value] + rest;
        assert forall q :: q in rest ==> q.torrent != head.value.torrent;
        PrependKeepsDistinct(head.value, rest);
      } else {
        assert r == rest;
      }
    }
  }

  /** A queue entry for a torrent no other entry has may go in front of a queue without repeats. */
  lemma PrependKeepsDistinct(h: Queued, rest: seq<Queued>)
    requires forall a, b :: 0 <= a < b < |rest| ==> rest[a].torrent != rest[b].torrent
    requires forall q :: q in rest ==> q.torrent != h.torrent
    ensures forall a, b :: 0 <= a < b < |[h] + rest| ==> ([h] + rest)[a].torrent != ([h] + rest)[b].torrent
  {
    var r := [h] + rest;
    forall a, b | 0 <= a < b < |r| ensures r[a].torrent != r[b].torrent {
      assert r[b] == rest[b - 1];
      if a > 0 {
        assert r[a] == rest[a - 1];
      }
    }
  }

  /**
   * `fetch_feed` on the entries the feed returned: an empty feed yields nothing and
   * commits no checkpoint; otherwise the checkpoint becomes the newest entry's hash,
   * matched or not, and the queue is the scan sorted by title.
   */
  function FetchFeed(search: Matching.Search, sub: Subscription, downloads: seq<DownloadRecord>, entries: seq<Torrent>): (r: FeedResult)
    ensures |entries| == 0 ==> r.queue == [] && r.checkpoint.None?
    ensures |entries| > 0 ==> r.checkpoint == Some(entries[0].infohash)
    ensures Sorting.SortedBy(r.queue, QueuedTitle)
    ensures multiset(r.queue) == multiset(Scan(search, sub, downloads, entries))
  {
    if |entries| == 0 then FeedResult([], None)
    else FeedResult(Sorting.SortBy(Scan(search, sub, downloads, entries), QueuedTitle), Some(entries[0].infohash))
  }

  /** `sub` is the first subscription of `subs` whose username is `name`. */
  predicate FirstNamed(subs: seq<Subscription>, name: string, i: int) {
    0 <= i < |subs| && subs[i].username == name && forall j :: 0 <= j < i ==> subs[j].username != name
  }

  /**
   * The in-memory `set_previous_hash`: the first subscription named `name` takes
   * `value`, unless `value` is empty, in which case it keeps its old checkpoint.
   */
  function SetPreviousHash(subs: seq<Subscription>, name: string, value: string): (r: seq<Subscription>)
    ensures |r| == |subs|
    ensures forall i :: 0 <= i < |subs| && !FirstNamed(subs, name, i) ==> r[i] == subs[i]
    ensures forall i :: FirstNamed(subs, name, i) ==>
      r[i] == subs[i].(previousHash := if value != "" then Some(value) else subs[i].previousHash)
    decreases |subs|
  {
    if |subs| == 0 then []
    else if subs[0].username == name then
      [subs[0].(previousHash := if value != "" then Some(value) else subs[0].previousHash)] + subs[1..]
    else
      var rest := SetPreviousHash(subs[1..], name, value);
      assert forall i :: 1 <= i < |subs| ==> (FirstNamed(subs, name, i) <==> FirstNamed(subs[1..], name, i - 1));
      [subs[0]] + rest
  }

  /** One step of `fetch_all_feeds`: fetch subscription `i` and commit its checkpoint. */
  function FetchAllFrom(search: Matching.Search, cur: seq<Subscription>, i: nat, downloads: seq<DownloadRecord>, feeds: string -> seq<Torrent>): (r: (seq<Queued>, seq<Subscription>))
    requires i <= |cur|
    ensures |r.1| == |cur|
    decreases |cur| - i
  {
    if i == |cur| then ([], cur)
    else
      var sub := cur[i];
      var res := FetchFeed(search, sub, downloads, feeds(sub.rss));
      var next := if res.checkpoint.Some? then SetPreviousHash(cur, sub.username, res.checkpoint.value) else cur;
      var rest := FetchAllFrom(search, next, i + 1, downloads, feeds);
      (res.queue + rest.0, rest.1)
  }

  /** The per-feed queues of `subs`, concatenated in subscription order. */
  function ConcatFeeds(search: Matching.Search, subs: seq<Subscription>, downloads: seq<DownloadRecord>, feeds: string -> seq<Torrent>): seq<Queued>
    decreases |subs|
  {
    if |subs| == 0 then []
    else FetchFeed(search, subs[0], downloads, feeds(subs[0].rss)).queue + ConcatFeeds(search, subs[1..], downloads, feeds)
  }

  /** Committing subscription `i`'s checkpoint never touches a later subscription. */
  lemma CommitKeepsLater(subs: seq<Subscription>, i: nat, value: string)
    requires i < |subs|
    ensures SetPreviousHash(subs, subs[i].username, value)[i + 1..] == subs[i + 1..]
  {
    var r := SetPreviousHash(subs, subs[i].username, value);
    forall j | i < j < |subs| ensures r[j] == subs[j] {
      assert !FirstNamed(subs, subs[i].username, j);
    }
  }

  /** The queues `fetch_all_feeds` gathers from `i` on are the feeds of the later subscriptions, in order. */
  lemma {:induction false} FetchAllFromConcat(search: Matching.Search, cur: seq<Subscription>, i: nat, downloads: seq<DownloadRecord>, feeds: string -> seq<Torrent>)
    requires i <= |cur|
    ensures FetchAllFrom(search, cur, i, downloads, feeds).0 == ConcatFeeds(search, cur[i..], downloads, feeds)
    decreases |cur| - i
  {
    if i < |cur| {
      var sub := cur[i];
      var res := FetchFeed(search, sub, downloads, feeds(sub.rss));
      var next := if res.checkpoint.Some? then SetPreviousHash(cur, sub.username, res.checkpoint.value) else cur;
      if res.checkpoint.Some? {
        CommitKeepsLater(cur, i, res.checkpoint.value);
      }
      assert next[i + 1..] == cur[i + 1..] == cur[i..][1..];
      FetchAllFromConcat(search, next, i + 1, downloads, feeds);
    }
  }

  /**
   * `fetch_all_feeds`: the per-subscription results concatenated in subscription
   * order, not re-sorted across feeds, plus the subscriptions with their new checkpoints.
   */
  function FetchAllFeeds(search: Matching.Search, subs: seq<Subscription>, downloads: seq<DownloadRecord>, feeds: string -> seq<Torrent>): (r: (seq<Queued>, seq<Subscription>))
    ensures r.0 == ConcatFeeds(search, subs, downloads, feeds)
    ensures |r.1| == |subs|
  {
    FetchAllFromConcat(search, subs, 0, downloads, feeds);
    assert subs[0..] == subs;
    FetchAllFrom(search, subs, 0, downloads, feeds)
  }

  /**
   * The checkpoint a subscription holds after its feed returned `entries`: the
   * newest entry's hash, unless the feed was empty or that hash is empty.
   */
  function Committed(sub: Subscription, entries: seq<Torrent>): Option<string> {
    if |entries| > 0 && entries[0].infohash != "" then Some(entries[0].infohash) else sub.previousHash
  }

  /** No two subscriptions share a username. */
  predicate DistinctUsernames(subs: seq<Subscription>) {
    forall a, b :: 0 <= a < b < |subs| ==> subs[a].username != subs[b].username
  }

  /** With distinct usernames, committing subscription `i`'s checkpoint changes only subscription `i`. */
  lemma SetPreviousHashAt(subs: seq<Subscription>, i: nat, value: string)
    requires i < |subs| && DistinctUsernames(subs)
    ensures var r := SetPreviousHash(subs, subs[i].username, value);
      && DistinctUsernames(r)
      && r[i] == subs[i].(previousHash := if value != "" then Some(value) else subs[i].previousHash)
      && forall k :: 0 <= k < |subs| && k != i ==> r[k] == subs[k]
  {
    var r := SetPreviousHash(subs, subs[i].username, value);
    assert FirstNamed(subs, subs[i].username, i);
    forall k | 0 <= k < |subs| && k != i ensures r[k] == subs[k] {
      assert !FirstNamed(subs, subs[i].username, k);
    }
  }

  /** The subscriptions after subscription `i`'s feed has been read and its checkpoint committed. */
  function CommitAt(search: Matching.Search, cur: seq<Subscription>, i: nat, downloads: seq<DownloadRecord>, feeds: string -> seq<Torrent>): seq<Subscription>
    requires i < |cur|
  {
    var res := FetchFeed(search, cur[i], downloads, feeds(cur[i].rss));
    if res.checkpoint.Some? then SetPreviousHash(cur, cur[i].username, res.checkpoint.value) else cur
  }

  /** One step of the `fetch_all_feeds` loop: the rest of the loop runs on the committed subscriptions. */
  lemma FetchAllFromStep(search: Matching.Search, cur: seq<Subscription>, i: nat, downloads: seq<DownloadRecord>, feeds: string -> seq<Torrent>)
    requires i < |cur|
    ensures |CommitAt(search, cur, i, downloads, feeds)| == |cur|
    ensures FetchAllFrom(search, cur, i, downloads, feeds).1 == FetchAllFrom(search, CommitAt(search, cur, i, downloads, feeds), i + 1, downloads, feeds).1
  {
  }

  /** With distinct usernames, the commit at `i` sets subscription `i`'s checkpoint and nothing else. */
  lemma CommitAtEffect(search: Matching.Search, cur: seq<Subscription>, i: nat, downloads: seq<DownloadRecord>, feeds: string -> seq<Torrent>)
    requires i < |cur| && DistinctUsernames(cur)
    ensures var next := CommitAt(search, cur, i, downloads, feeds);
      && |next| == |cur|
      && DistinctUsernames(next)
      && next[i] == cur[i].(previousHash := Committed(cur[i], feeds(cur[i].rss)))
      && forall k :: 0 <= k < |cur| && k != i ==> next[k] == cur[k]
  {
    var res := FetchFeed(search, cur[i], downloads, feeds(cur[i].rss));
    if res.checkpoint.Some? {
      SetPreviousHashAt(cur, i, res.checkpoint.value);
    }
  }

  /** From subscription `i` on, each subscription ends with the checkpoint its own feed commits; earlier ones are untouched. */
  lemma {:induction false} FetchAllFromCommits(search: Matching.Search, cur: seq<Subscription>, i: nat, downloads: seq<DownloadRecord>, feeds: string -> seq<Torrent>)
    requires i <= |cur| && DistinctUsernames(cur)
    ensures forall k :: 0 <= k < |cur| ==>
      FetchAllFrom(search, cur, i, downloads, feeds).1[k]
        == if k < i then cur[k] else cur[k].(previousHash := Committed(cur[k], feeds(cur[k].rss)))
    decreases |cur| - i
  {
    if i < |cur| {
      var next := CommitAt(search, cur, i, downloads, feeds);
      CommitAtEffect(search, cur, i, downloads, feeds);
      FetchAllFromStep(search, cur, i, downloads, feeds);
      FetchAllFromCommits(search, next, i + 1, downloads, feeds);
      var out := FetchAllFrom(search, cur, i, downloads, feeds).1;
      forall k | 0 <= k < |cur|
        ensures out[k] == if k < i then cur[k] else cur[k].(previousHash := Committed(cur[k], feeds(cur[k].rss)))
      {
        if k != i {
          assert next[k] == cur[k];
        }
      }
    }
  }

  /**
   * With distinct usernames, `fetch_all_feeds` leaves every subscription holding the
   * hash of its feed's newest entry, and an empty feed keeps the old checkpoint.
   */
  lemma FetchAllFeedsCheckpoints(search: Matching.Search, subs: seq<Subscription>, downloads: seq<DownloadRecord>, feeds: string -> seq<Torrent>)
    requires DistinctUsernames(subs)
    ensures forall k :: 0 <= k < |subs| ==>
      FetchAllFeeds(search, subs, downloads, feeds).1[k] == subs[k].(previousHash := Committed(subs[k], feeds(subs[k].rss)))
  {
    FetchAllFromCommits(search, subs, 0, downloads, feeds);
  }

  /**
   * Feeds are sorted one at a time, never across subscriptions: a subscription
   * yielding "Zeta" listed before one yielding "Alpha" gives a batch that is not
   * in title order.
   */
  lemma CrossFeedOrderKept(search: Matching.Search, feeds: string -> seq<Torrent>)
    requires feeds("rss-z") == [Torrent("Zeta", "p1", "l1", "h1", "", "", "", "", "", "")]
    requires feeds("rss-a") == [Torrent("Alpha", "p2", "l2", "h2", "", "", "", "", "", "")]
    ensures var batch := FetchAllFeeds(search, [Subscription("z", "rss-z", [], None), Subscription("a", "rss-a", [], None)], [], feeds).0;
      && batch == [Queued(feeds("rss-z")[0], "z", None, []), Queued(feeds("rss-a")[0], "a", None, [])]
      && !Sorting.SortedBy(batch, QueuedTitle)
  {
    var zeta := feeds("rss-z")[0];
    var alpha := feeds("rss-a")[0];
    var subs := [Subscription("z", "rss-z", [], None), Subscription("a", "rss-a", [], None)];
    var qz := Queued(zeta, "z", None, []);
    var qa := Queued(alpha, "a", None, []);
    assert Scan(search, subs[0], [], [zeta]) == [qz];
    assert Scan(search, subs[1], [], [alpha]) == [qa];
    assert FetchFeed(search, subs[0], [], [zeta]).queue == [qz];
    assert FetchFeed(search, subs[1], [], [alpha]).queue == [qa];
    assert subs[1..][1..] == [];
    assert ConcatFeeds(search, subs, [], feeds) == [qz, qa];
    var batch := FetchAllFeeds(search, subs, [], feeds).0;
    assert batch == [qz, qa];
    assert !Text.LessEq(QueuedTitle(batch[0]), QueuedTitle(batch[1]));
  }

  /** The `downloads` record `append_to_history` writes for one queued torrent. */
  function Record(q: Queued, date: string): DownloadRecord {
    DownloadRecord(q.uploader, q.torrent.title, date, q.torrent.id, q.torrent.infohash)
  }

  /** `append_to_history`: one record per torrent, in order, after the existing ones. */
  function AppendToHistory(downloads: seq<DownloadRecord>, torrents: seq<Queued>, dateOf: Queued -> string): (r: seq<DownloadRecord>)
    ensures |r| == |downloads| + |torrents|
    ensures r[..|downloads|] == downloads
    ensures forall i :: 0 <= i < |torrents| ==> r[|downloads| + i].hash == torrents[i].torrent.infohash
    ensures forall i :: 0 <= i < |torrents| ==> r[|downloads| + i] == Record(torrents[i], dateOf(torrents[i]))
    decreases |torrents|
  {
    if |torrents| == 0 then downloads
    else AppendToHistory(downloads + [Record(torrents[0], dateOf(torrents[0]))], torrents[1..], dateOf)
  }

  /** Appending to the history only adds hashes: whatever was downloaded stays downloaded. */
  lemma AppendKeepsDownloaded(downloads: seq<DownloadRecord>, torrents: seq<Queued>, dateOf: Queued -> string, hash: string)
    requires Downloaded(downloads, hash)
    ensures Downloaded(AppendToHistory(downloads, torrents, dateOf), hash)
  {
    var r := AppendToHistory(downloads, torrents, dateOf);
    var i :| 0 <= i < |downloads| && downloads[i].hash == hash;
    assert r[..|downloads|][i] == r[i];
  }

  /** Closing the dedup loop: once appended, a torrent is never queued again by any subscription. */
  lemma AppendedNeverRequeued(search: Matching.Search, downloads: seq<DownloadRecord>, torrents: seq<Queued>, dateOf: Queued -> string,
                              sub: Subscription, entries: seq<Torrent>, k: nat)
    requires k < |torrents|
    ensures forall q :: q in Scan(search, sub, AppendToHistory(downloads, torrents, dateOf), entries) ==>
      q.torrent.infohash != torrents[k].torrent.infohash
  {
    var h := AppendToHistory(downloads, torrents, dateOf);
    assert h[|downloads| + k].hash == torrents[k].torrent.infohash;
    forall q | q in Scan(search, sub, h, entries) ensures q.torrent.infohash != torrents[k].torrent.infohash {
      DownloadedNeverQueued(search, sub, h, entries, q);
    }
  }
}

=== FILE: webhook.dfy ===
/**
 * The Discord notifier of the intermediate generation (src/webhook.py). It
 * differs from the current one in three ways: `__init__` refuses an entry with an
 * empty name or URL, and raises on a URL that does not split in two; the
 * template placeholder for the webhook is `$webhook_name`, with no `$uploader`
 * or `$watchlist`; and every lookup in `notifications` uses `[key]`, so a
 * missing key raises.
 */
module Webhook {
  import opened Wrappers
  import Text
  import Json
  import Template
  import opened Feed
  import opened Notify
  import Webhooker
  import Watcher

  /** Why `Webhook.__init__` raises, and at which entry. */
  datatype InitError =
    | MissingNameOrUrl(index: nat)  // the `WebhookError`
    | BadUrl(index: nat)            // the unpacking of `_parse_url` into `id, token`

  /** The placeholders `_insert_tags` replaces, in the order it replaces them. */
  const Tags: seq<string> := ["$webhook_name", "$title", "$downloads", "$seeders", "$leechers",
                              "$size", "$published", "$category"]

  /** The placeholders all start with `$` and none is a prefix of another. */
  lemma TagsWellFormed()
    ensures Template.Placeholders(Tags) && Template.PrefixFree(Tags)
  {
    TagsArePlaceholders();
    TagsPrefixFree();
  }

  /** Every placeholder starts with `$`. */
  lemma TagsArePlaceholders()
    ensures Template.Placeholders(Tags)
  {
  }

  /** No placeholder is a prefix of another, since the two letters after the `$` differ. */
  lemma TagsPrefixFree()
    ensures Template.PrefixFree(Tags)
  {
    assert Tags[0][1] == 'w' && Tags[0][2] == 'e';
    assert Tags[1][1] == 't' && Tags[1][2] == 'i';
    assert Tags[2][1] == 'd' && Tags[2][2] == 'o';
    assert Tags[3][1] == 's' && Tags[3][2] == 'e';
    assert Tags[4][1] == 'l' && Tags[4][2] == 'e';
    assert Tags[5][1] == 's' && Tags[5][2] == 'i';
    assert Tags[6][1] == 'p' && Tags[6][2] == 'u';
    assert Tags[7][1] == 'c' && Tags[7][2] == 'a';
    Template.DistinctHeadsPrefixFree(Tags);
  }

  /** What each placeholder is replaced by; `$category` again receives the download count. */
  function TagValues(webhookName: string, t: Torrent): (r: seq<string>)
    ensures |r| == |Tags|
  {
    [webhookName, t.title, t.downloads, t.seeders, t.leechers, t.size, StripSeconds(t.published), t.downloads]
  }

  /**
   * `_insert_tags`: every key it reads exists on a feed entry, so it always
   * yields a string; a template without `$` comes back unchanged.
   */
  function InsertTags(template: string, webhookName: string, t: Torrent): (r: string)
    ensures '$' !in template ==> r == template
  {
    TagsWellFormed();
    var r := Template.Substitute(template, Tags, TagValues(webhookName, t));
    assert '$' !in template ==> r == template by {
      if '$' !in template { Template.NoDollarUnchanged(template, Tags, TagValues(webhookName, t)); }
    }
    r
  }

  /** Each placeholder on its own is replaced by its value, when no value brings in a `$`. */
  lemma InsertTagsEachTag(k: nat, webhookName: string, t: Torrent)
    requires k < |Tags|
    requires forall j :: 0 <= j < |Tags| ==> '$' !in TagValues(webhookName, t)[j]
    ensures InsertTags(Tags[k], webhookName, t) == TagValues(webhookName, t)[k]
  {
    TagsWellFormed();
    Template.PlaceholderBecomesValue(Tags, TagValues(webhookName, t), k);
  }

  /**
   * The two generations read each other's webhook placeholder differently: here
   * `$webhook` is left in the text, while the current templating turns
   * `$webhook_name` into the name followed by `_name`.
   */
  lemma WebhookTagsDiffer(webhookName: string, t: Torrent, q: Watcher.Queued)
    requires '$' !in webhookName && q.watchlist.Some?
    ensures InsertTags("$webhook", webhookName, t) == "$webhook"
    ensures Webhooker.InsertTags("$webhook_name", webhookName, q) == Some(webhookName + "_name")
  {
    TagsWellFormed();
    var tag := "$webhook";
    assert |tag| < |Tags[0]|;
    forall k | 1 <= k < |Tags| ensures !Text.StartsWith(tag, Tags[k]) {
      Template.HeadsDiffer(tag, Tags[k]);
    }
    Template.UnlistedKept(tag, Tags, TagValues(webhookName, t));
    Webhooker.OldNameTagMangled(webhookName, q);
  }

  /** Entry `i` stops `__init__`: an empty name or URL, or a non-sample URL that does not split in two. */
  predicate Refused(hooks: seq<Webhooker.WebhookJson>, i: int) {
    && 0 <= i < |hooks|
    && (|| hooks[i].name == "" || hooks[i].url == ""
        || (hooks[i].url != Webhooker.PlaceholderUrl && Webhooker.CreateWebhook(hooks[i].url).None?))
  }

  /** The first entry from `k` on that stops `__init__`, if any. */
  function FirstRefused(hooks: seq<Webhooker.WebhookJson>, k: nat): (r: Option<nat>)
    requires k <= |hooks|
    ensures r.Some? <==> exists i :: k <= i < |hooks| && Refused(hooks, i)
    ensures r.Some? ==> k <= r.value && Refused(hooks, r.value) && forall i :: k <= i < r.value ==> !Refused(hooks, i)
    decreases |hooks| - k
  {
    if k == |hooks| then None
    else if Refused(hooks, k) then Some(k)
    else FirstRefused(hooks, k + 1)
  }

  /**
   * `Webhook.__init__`: the entries are visited in order; an empty name or URL
   * raises before the sample URL is skipped, and a URL that does not split in two
   * raises outside the `try`. Otherwise every non-sample entry is connected by name.
   */
  function Init(hooks: seq<Webhooker.WebhookJson>): (r: Result<map<string, Webhooker.Connection>, InitError>)
    ensures r.Failure? <==> exists i :: 0 <= i < |hooks| && Refused(hooks, i)
    ensures r.Failure? ==> (
      var i := r.error.index;
      && Refused(hooks, i) && (forall j :: 0 <= j < i ==> !Refused(hooks, j))
      && (r.error.MissingNameOrUrl? <==> hooks[i].name == "" || hooks[i].url == ""))
    ensures r.Success? ==> forall name :: name in r.value <==>
      exists i :: 0 <= i < |hooks| && hooks[i].url != Webhooker.PlaceholderUrl && hooks[i].name == name
  {
    match FirstRefused(hooks, 0)
    case Some(i) =>
      if hooks[i].name == "" || hooks[i].url == "" then Failure(MissingNameOrUrl(i)) else Failure(BadUrl(i))
    case None =>
      assert forall i :: 0 <= i < |hooks| ==>
        (Webhooker.Attempt(hooks[i]).Some? <==> hooks[i].url != Webhooker.PlaceholderUrl) by {
        forall i | 0 <= i < |hooks| ensures Webhooker.Attempt(hooks[i]).Some? <==> hooks[i].url != Webhooker.PlaceholderUrl {
          assert !Refused(hooks, i);
        }
      }
      Success(Webhooker.ConnectLoop(hooks, Webhooker.Attempt))
  }

  /** Of several accepted entries with one name, the connection comes from the last one. */
  lemma InitLastWins(hooks: seq<Webhooker.WebhookJson>, name: string)
    requires Init(hooks).Success? && name in Init(hooks).value
    ensures exists i :: (Webhooker.LastConnected(hooks, Webhooker.Attempt, name, i) &&
      Some(Init(hooks).value[name]) == Webhooker.CreateWebhook(hooks[i].url))
  {
    Webhooker.ConnectLoopLastWins(hooks, Webhooker.Attempt, name);
  }

  /** `notifications[key]` for a text: `None` when the key is missing. */
  function Lookup(n: Json.Object, key: string): (r: Option<Json.Value>)
    ensures r.Some? <==> Json.Has(n, key)
  {
    Json.Get(n, key)
  }

  /** Every `show_*` key is present, so the field loop does not raise. */
  predicate AllShowKeys(n: Json.Object) {
    forall s :: Json.Has(n, Key(s))
  }

  /** `_insert_tags` on a configured text; `None` when it raises (a missing key, or no string). */
  function Fill(v: Option<Json.Value>, webhookName: string, t: Torrent): (r: Option<string>)
    ensures r.Some? <==> v.Some? && v.value.Str?
  {
    match v
    case Some(Str(s)) => Some(InsertTags(s, webhookName, t))
    case _ => None
  }

  /**
   * The embed `send_notification` builds: the default title for an empty
   * configured title and the filled-in template otherwise, a description only
   * when the configured one is non-empty, the `show_*` fields, and the Nyaa page
   * as link. A missing `title`, `description` or `show_*` key raises.
   */
  function Compose(json: Webhooker.WebhookJson, t: Torrent): (r: Result<Embed, Webhooker.SendError>)
    ensures r.Failure? ==> r.error == Webhooker.Raises
    ensures r.Success? ==> AllShowKeys(json.notifications) && Json.Has(json.notifications, "title") && Json.Has(json.notifications, "description")
    ensures r.Success? ==> r.value.url == t.id && r.value.fields == ApplyFields(json.notifications, t)
    ensures r.Success? && Json.Get(json.notifications, "title") == Some(Json.Str("")) ==> r.value.title == Some(Webhooker.DefaultTitle(t))
    ensures r.Success? ==> (r.value.description.None? <==> Json.Get(json.notifications, "description") == Some(Json.Str("")))
    ensures r.Success? && Json.Get(json.notifications, "title") != Some(Json.Str("")) ==>
      r.value.title == Fill(Json.Get(json.notifications, "title"), json.name, t)
    ensures r.Success? && r.value.description.Some? ==>
      r.value.description == Fill(Json.Get(json.notifications, "description"), json.name, t)
    ensures AllShowKeys(json.notifications)
      && Json.Get(json.notifications, "title").Some? && Json.Get(json.notifications, "title").value.Str?
      && Json.Get(json.notifications, "description").Some? && Json.Get(json.notifications, "description").value.Str?
      ==> r.Success?
  {
    var n := json.notifications;
    var title := if Lookup(n, "title") == Some(Json.Str("")) then Some(Webhooker.DefaultTitle(t)) else Fill(Lookup(n, "title"), json.name, t);
    var description := if Lookup(n, "description") == Some(Json.Str("")) then Some(None) else
      match Fill(Lookup(n, "description"), json.name, t)
      case None => None
      case Some(d) => Some(Some(d));
    if title.None? || description.None? || !AllShowKeys(n) then Failure(Webhooker.Raises)
    else Success(Embed(title, description.value, t.id, ApplyFields(n, t)))
  }

  /**
   * `send_notification`: the entry and the connection are looked up by exact
   * name, and nothing is sent when either is missing.
   */
  function SendNotification(hooks: seq<Webhooker.WebhookJson>, connections: map<string, Webhooker.Connection>,
                            webhookName: string, t: Torrent): (r: Result<Webhooker.Delivery, Webhooker.SendError>)
    ensures r == Failure(Webhooker.NotFound) <==>
      Webhooker.GetJsonWebhook(hooks, webhookName).None? || webhookName !in connections
    ensures r.Success? ==>
      && r.value.connection == connections[webhookName]
      && Success(r.value.embed) == Compose(Webhooker.GetJsonWebhook(hooks, webhookName).value, t)
  {
    var json := Webhooker.GetJsonWebhook(hooks, webhookName);
    var connection := Webhooker.GetDiscordWebhook(connections, webhookName);
    if json.None? || connection.None? then Failure(Webhooker.NotFound)
    else
      match Compose(json.value, t)
      case Failure(e) => Failure(e)
      case Success(embed) => Success(Webhooker.Delivery(connection.value, embed))
  }
}

=== FILE: webhooker.dfy ===
/**
 * The Discord notifier of the current watcher (src/webhooker.py): the webhook
 * connections made at start-up, the lookup of a webhook entry by name, the
 * `$`-placeholder templating of title and description, and the embed a
 * notification carries. Posting the embed is not modelled; the connection it
 * would go to and the embed are the result.
 */
module Webhooker {
  import opened Wrappers
  import Text
  import Json
  import Template
  import opened Feed
  import opened Notify
  import Watcher

  /** The URL of the sample entry a freshly generated webhooks file holds. */
  const PlaceholderUrl := DiscordPrefix + PlaceholderPart + "/" + PlaceholderPart

  /** The id and the token of the sample URL. */
  const PlaceholderPart := "RANDOM_STRING"

  /** One entry of `webhooks`: the validator has made sure the three keys exist. */
  datatype WebhookJson = WebhookJson(name: string, url: string, notifications: Json.Object)

  /** A `discord.SyncWebhook.partial(id, token)`. */
  datatype Connection = Connection(id: string, token: string)

  /** Why no notification goes out: the webhook is unknown, or building the embed raised. */
  datatype SendError = NotFound | Raises

  /** A notification ready to post: where it goes and what it carries. */
  datatype Delivery = Delivery(connection: Connection, embed: Embed)

  /** The placeholders `_insert_tags` replaces, in the order it replaces them. */
  const Tags: seq<string> := ["$webhook", "$title", "$downloads", "$seeders", "$leechers",
                              "$size", "$published", "$category", "$uploader", "$watchlist"]

  /** The placeholders all start with `$` and none is a prefix of another. */
  lemma TagsWellFormed()
    ensures Template.Placeholders(Tags) && Template.PrefixFree(Tags)
  {
    TagsArePlaceholders();
    TagsPrefixFree();
  }

  /** Every placeholder starts with `$`. */
  lemma TagsArePlaceholders()
    ensures Template.Placeholders(Tags)
  {
  }

  /** No placeholder is a prefix of another, since the two letters after the `$` differ. */
  lemma TagsPrefixFree()
    ensures Template.PrefixFree(Tags)
  {
    assert Tags[0][1] == 'w' && Tags[0][2] == 'e';
    assert Tags[1][1] == 't' && Tags[1][2] == 'i';
    assert Tags[2][1] == 'd' && Tags[2][2] == 'o';
    assert Tags[3][1] == 's' && Tags[3][2] == 'e';
    assert Tags[4][1] == 'l' && Tags[4][2] == 'e';
    assert Tags[5][1] == 's' && Tags[5][2] == 'i';
    assert Tags[6][1] == 'p' && Tags[6][2] == 'u';
    assert Tags[7][1] == 'c' && Tags[7][2] == 'a';
    assert Tags[8][1] == 'u' && Tags[8][2] == 'p';
    assert Tags[9][1] == 'w' && Tags[9][2] == 'a';
    Template.DistinctHeadsPrefixFree(Tags);
  }

  /**
   * What each placeholder is replaced by, position for position. `$category`
   * receives the download count, as the source has it.
   */
  function TagValues(webhookName: string, q: Watcher.Queued, watchlist: string): (r: seq<string>)
    ensures |r| == |Tags|
  {
    var t := q.torrent;
    [webhookName, t.title, t.downloads, t.seeders, t.leechers,
     t.size, StripSeconds(t.published), t.downloads, q.uploader, watchlist]
  }

  /**
   * `_insert_tags`. A queued torrent without a `watchlist` key makes the last
   * `replace` raise (`None` is not a string), so there is no result.
   */
  function InsertTags(template: string, webhookName: string, q: Watcher.Queued): (r: Option<string>)
    ensures r.None? <==> q.watchlist.None?
  {
    match q.watchlist
    case None => None
    case Some(w) =>
      TagsWellFormed();
      Some(Template.Substitute(template, Tags, TagValues(webhookName, q, w)))
  }

  /** A template without `$` comes back unchanged whenever the torrent has a watchlist. */
  lemma InsertTagsPlainText(template: string, webhookName: string, q: Watcher.Queued)
    requires '$' !in template && q.watchlist.Some?
    ensures InsertTags(template, webhookName, q) == Some(template)
  {
    TagsWellFormed();
    Template.NoDollarUnchanged(template, Tags, TagValues(webhookName, q, q.watchlist.value));
  }

  /** Each placeholder on its own is replaced by its value, when no value brings in a `$`. */
  lemma InsertTagsEachTag(k: nat, webhookName: string, q: Watcher.Queued)
    requires k < |Tags| && q.watchlist.Some?
    requires forall j :: 0 <= j < |Tags| ==> '$' !in TagValues(webhookName, q, q.watchlist.value)[j]
    ensures InsertTags(Tags[k], webhookName, q) == Some(TagValues(webhookName, q, q.watchlist.value)[k])
  {
    TagsWellFormed();
    Template.PlaceholderBecomesValue(Tags, TagValues(webhookName, q, q.watchlist.value), k);
  }

  /** `$category` shows the number of downloads, not the category. */
  lemma CategoryShowsDownloads(webhookName: string, q: Watcher.Queued)
    requires q.watchlist.Some?
    requires forall j :: 0 <= j < |Tags| ==> '$' !in TagValues(webhookName, q, q.watchlist.value)[j]
    ensures InsertTags("$category", webhookName, q) == Some(q.torrent.downloads)
  {
    assert Tags[7] == "$category";
    InsertTagsEachTag(7, webhookName, q);
  }

  /**
   * The placeholder of the previous generation is not one of these: `$webhook`
   * matches its beginning, so `$webhook_name` turns into the name followed by `_name`.
   */
  lemma OldNameTagMangled(webhookName: string, q: Watcher.Queued)
    requires '$' !in webhookName && q.watchlist.Some?
    ensures InsertTags("$webhook_name", webhookName, q) == Some(webhookName + "_name")
  {
    TagsWellFormed();
    var vals := TagValues(webhookName, q, q.watchlist.value);
    var tag := "$webhook_name";
    assert tag[..|Tags[0]|] == Tags[0];
    assert tag[|Tags[0]|..] == "_name";
    Text.ReplaceMissingFirstChar("_name", Tags[0], webhookName);
    assert Text.Replace(tag, Tags[0], webhookName) == webhookName + "_name";
    Template.NoDollarFrom(webhookName + "_name", Tags, vals, 1);
  }

  /**
   * `_parse_url` then the `(webhook_id, token)` unpacking: a connection exactly
   * when the URL splits into two parts.
   */
  function CreateWebhook(url: string): (r: Option<Connection>)
    ensures r.Some? <==> |ParseUrl(url)| == 2
    ensures r.Some? ==> ParseUrl(url) == [r.value.id, r.value.token]
  {
    var parts := ParseUrl(url);
    if |parts| == 2 then Some(Connection(parts[0], parts[1])) else None
  }

  /** A well-formed Discord webhook URL, under either host name, connects to its id and token. */
  lemma CreateWebhookFromUrl(id: string, token: string)
    requires IdToken(id, token)
    ensures CreateWebhook(DiscordPrefix + id + "/" + token) == Some(Connection(id, token))
    ensures CreateWebhook(DiscordAppPrefix + id + "/" + token) == Some(Connection(id, token))
  {
    ParseDiscordUrl(id, token);
    ParseDiscordAppUrl(id, token);
  }

  /**
   * The sample URL splits into two pieces, so the model's `partial`, which
   * accepts any two pieces, would connect it; the constructor's skip by URL is
   * what keeps it out of the model's connections.
   */
  lemma PlaceholderUrlWouldConnect()
    ensures CreateWebhook(PlaceholderUrl) == Some(Connection(PlaceholderPart, PlaceholderPart))
  {
    CreateWebhookFromUrl(PlaceholderPart, PlaceholderPart);
  }

  /**
   * One round of the start-up loop: the sample entry is skipped, and any other
   * entry connects when its URL splits in two.
   */
  function Attempt(h: WebhookJson): (r: Option<Connection>)
    ensures r.Some? <==> h.url != PlaceholderUrl && |ParseUrl(h.url)| == 2
    ensures r.Some? ==> r == CreateWebhook(h.url)
  {
    if h.url == PlaceholderUrl then None else CreateWebhook(h.url)
  }

  /** Entry `i` is the last entry named `name` that `connect` connects. */
  predicate LastConnected(hooks: seq<WebhookJson>, connect: WebhookJson -> Option<Connection>, name: string, i: int) {
    && 0 <= i < |hooks| && connect(hooks[i]).Some? && hooks[i].name == name
    && forall j :: i < j < |hooks| ==> !(connect(hooks[j]).Some? && hooks[j].name == name)
  }

  /**
   * The `for webhook in ...` loop of `__init__` over `hooks`, with `connect` for
   * one round: every connected entry is stored under its name, a later entry
   * overwriting an earlier one, and the others are left out.
   */
  function ConnectLoop(hooks: seq<WebhookJson>, connect: WebhookJson -> Option<Connection>): (r: map<string, Connection>)
    ensures forall name :: name in r <==> exists i :: 0 <= i < |hooks| && connect(hooks[i]).Some? && hooks[i].name == name
    decreases |hooks|
  {
    if |hooks| == 0 then map[]
    else
      var init := hooks[..|hooks| - 1];
      var h := hooks[|hooks| - 1];
      var m := ConnectLoop(init, connect);
      assert forall i :: 0 <= i < |init| ==> init[i] == hooks[i];
      if connect(h).Some? then m[h.name := connect(h).value] else m
  }

  /** A name is connected through the last entry carrying it that connects. */
  lemma {:induction false} ConnectLoopLastWins(hooks: seq<WebhookJson>, connect: WebhookJson -> Option<Connection>, name: string)
    requires name in ConnectLoop(hooks, connect)
    ensures exists i :: LastConnected(hooks, connect, name, i) && Some(ConnectLoop(hooks, connect)[name]) == connect(hooks[i])
    decreases |hooks|
  {
    var n := |hooks|;
    var init := hooks[..n - 1];
    var h := hooks[n - 1];
    var m := ConnectLoop(init, connect);
    ConnectLoopLast(hooks, connect);
    if connect(h).Some? && h.name == name {
      assert LastConnected(hooks, connect, name, n - 1);
      assert Some(ConnectLoop(hooks, connect)[name]) == connect(hooks[n - 1]);
    } else {
      assert name in m && ConnectLoop(hooks, connect)[name] == m[name];
      ConnectLoopLastWins(init, connect, name);
      var i :| LastConnected(init, connect, name, i) && Some(m[name]) == connect(init[i]);
      LastConnectedExtends(hooks, connect, name, i);
      assert Some(ConnectLoop(hooks, connect)[name]) == connect(hooks[i]);
    }
  }

  /** One round of the loop: the last entry, when it connects, overwrites its name. */
  lemma ConnectLoopLast(hooks: seq<WebhookJson>, connect: WebhookJson -> Option<Connection>)
    requires |hooks| > 0
    ensures ConnectLoop(hooks, connect) ==
      var h := hooks[|hooks| - 1];
      var m := ConnectLoop(hooks[..|hooks| - 1], connect);
      if connect(h).Some? then m[h.name := connect(h).value] else m
  {
  }

  /** An entry that is last in a prefix stays last when the next entry does not compete. */
  lemma LastConnectedExtends(hooks: seq<WebhookJson>, connect: WebhookJson -> Option<Connection>, name: string, i: int)
    requires |hooks| > 0 && LastConnected(hooks[..|hooks| - 1], connect, name, i)
    requires !(connect(hooks[|hooks| - 1]).Some? && hooks[|hooks| - 1].name == name)
    ensures LastConnected(hooks, connect, name, i) && hooks[..|hooks| - 1][i] == hooks[i]
  {
    var init := hooks[..|hooks| - 1];
    assert forall j :: 0 <= j < |init| ==> init[j] == hooks[j];
  }

  /**
   * `Webhooker.__init__`: a file holding only the sample entry connects nothing;
   * otherwise the entries that connect are stored by name.
   */
  function Connections(hooks: seq<WebhookJson>): (r: map<string, Connection>)
    ensures |hooks| == 1 && hooks[0].url == PlaceholderUrl ==> r == map[]
    ensures !(|hooks| == 1 && hooks[0].url == PlaceholderUrl) ==>
      forall name :: name in r <==> exists i :: 0 <= i < |hooks| && Attempt(hooks[i]).Some? && hooks[i].name == name
  {
    if |hooks| == 1 && hooks[0].url == PlaceholderUrl then map[] else ConnectLoop(hooks, Attempt)
  }

  /** Of several entries with one name, the connection comes from the last one that connects. */
  lemma ConnectionsLastWins(hooks: seq<WebhookJson>, name: string)
    requires name in Connections(hooks)
    ensures exists i :: LastConnected(hooks, Attempt, name, i) && Some(Connections(hooks)[name]) == CreateWebhook(hooks[i].url)
  {
    ConnectLoopLastWins(hooks, Attempt, name);
  }

  /** Entry `i` is the first entry named exactly `name`. */
  predicate FirstNamed(hooks: seq<WebhookJson>, name: string, i: int) {
    0 <= i < |hooks| && hooks[i].name == name && forall j :: 0 <= j < i ==> hooks[j].name != name
  }

  /** `get_json_webhook`: the first entry whose name equals `name` exactly, if any. */
  function GetJsonWebhook(hooks: seq<WebhookJson>, name: string): (r: Option<WebhookJson>)
    ensures r.Some? <==> exists i :: 0 <= i < |hooks| && hooks[i].name == name
    ensures r.Some? ==> exists i :: FirstNamed(hooks, name, i) && r.value == hooks[i]
    decreases |hooks|
  {
    if |hooks| == 0 then None
    else if hooks[0].name == name then Some(hooks[0])
    else
      var rest := GetJsonWebhook(hooks[1..], name);
      assert forall i :: 1 <= i < |hooks| ==> hooks[1..][i - 1] == hooks[i];
      rest
  }

  /** `get_discord_webhook`: the connection stored under `name`, if any. */
  function GetDiscordWebhook(connections: map<string, Connection>, name: string): (r: Option<Connection>)
    ensures r.Some? <==> name in connections
    ensures r.Some? ==> r.value == connections[name]
  {
    if name in connections then Some(connections[name]) else None
  }

  /** The fixed lead of the default title. */
  const DefaultTitleLead := "Downloading New Torrent: "

  /** The title of a notification whose configured title is empty: the lead, then the torrent's title unchanged. */
  function DefaultTitle(t: Torrent): (r: string)
    ensures |r| == |DefaultTitleLead| + |t.title|
    ensures r[..|DefaultTitleLead|] == DefaultTitleLead && r[|DefaultTitleLead|..] == t.title
  {
    DefaultTitleLead + t.title
  }

  /** `_insert_tags` on a configured text; `None` when it raises (no string, or no watchlist). */
  function Fill(v: Option<Json.Value>, webhookName: string, q: Watcher.Queued): (r: Option<string>)
    ensures r.Some? <==> v.Some? && v.value.Str? && q.watchlist.Some?
  {
    match v
    case Some(Str(s)) => InsertTags(s, webhookName, q)
    case _ => None
  }

  /**
   * The embed `send_notification` builds from a webhook entry: the default title
   * for an empty configured title and the filled-in template otherwise, a
   * description only when the configured one is non-empty, the Nyaa page as
   * link, and the `show_*` fields.
   */
  function Compose(json: WebhookJson, q: Watcher.Queued): (r: Result<Embed, SendError>)
    ensures r.Failure? ==> r.error == Raises
    ensures r.Success? ==> r.value.url == q.torrent.id && r.value.fields == ApplyFields(json.notifications, q.torrent)
    ensures r.Success? && Json.Get(json.notifications, "title") == Some(Json.Str("")) ==> r.value.title == Some(DefaultTitle(q.torrent))
    ensures r.Success? ==> (r.value.description.None? <==> Json.Get(json.notifications, "description") == Some(Json.Str("")))
    ensures r.Success? && Json.Get(json.notifications, "title") != Some(Json.Str("")) ==>
      r.value.title == Fill(Json.Get(json.notifications, "title"), json.name, q)
    ensures r.Success? && r.value.description.Some? ==>
      r.value.description == Fill(Json.Get(json.notifications, "description"), json.name, q)
    ensures r.Success? <==> (
      && (Json.Get(json.notifications, "title") == Some(Json.Str("")) || Fill(Json.Get(json.notifications, "title"), json.name, q).Some?)
      && (Json.Get(json.notifications, "description") == Some(Json.Str("")) || Fill(Json.Get(json.notifications, "description"), json.name, q).Some?))
  {
    var n := json.notifications;
    var title := if Json.Get(n, "title") == Some(Json.Str("")) then Some(DefaultTitle(q.torrent)) else Fill(Json.Get(n, "title"), json.name, q);
    var description := if Json.Get(n, "description") == Some(Json.Str("")) then Some(None) else
      match Fill(Json.Get(n, "description"), json.name, q)
      case None => None
      case Some(d) => Some(Some(d));
    if title.None? || description.None? then Failure(Raises)
    else Success(Embed(title, description.value, q.torrent.id, ApplyFields(n, q.torrent)))
  }

  /**
   * `send_notification`. When both `webhook` and `url` are given (an empty `url`
   * stands for a missing one) they are used as they are; otherwise the entry and
   * the connection are looked up by `webhookName`. Either one missing means
   * nothing is sent.
   */
  function SendNotification(hooks: seq<WebhookJson>, connections: map<string, Connection>, webhookName: string,
                            q: Watcher.Queued, webhook: Option<WebhookJson>, url: string): (r: Result<Delivery, SendError>)
    ensures (url == "" || webhook.None?) ==>
      (r == Failure(NotFound) <==> GetJsonWebhook(hooks, webhookName).None? || webhookName !in connections)
    ensures (url == "" || webhook.None?) && r.Success? ==>
      && r.value.connection == connections[webhookName]
      && Success(r.value.embed) == Compose(GetJsonWebhook(hooks, webhookName).value, q)
    ensures url != "" && webhook.Some? ==> (r == Failure(NotFound) <==> CreateWebhook(url).None?)
    ensures url != "" && webhook.Some? && r.Success? ==> Success(r.value.embed) == Compose(webhook.value, q)
  {
    var json := if url == "" || webhook.None? then GetJsonWebhook(hooks, webhookName) else webhook;
    var connection := if url == "" || webhook.None? then GetDiscordWebhook(connections, webhookName) else CreateWebhook(url);
    if json.None? || connection.None? then Failure(NotFound)
    else
      match Compose(json.value, q)
      case Failure(e) => Failure(e)
      case Success(embed) => Success(Delivery(connection.value, embed))
  }

  /** A configured title without `$` is shown as it is. */
  lemma PlainTitleShown(json: WebhookJson, q: Watcher.Queued, title: string)
    requires Json.Get(json.notifications, "title") == Some(Json.Str(title))
    requires title != "" && '$' !in title && q.watchlist.Some?
    ensures Compose(json, q).Success? ==> Compose(json, q).value.title == Some(title)
  {
    InsertTagsPlainText(title, json.name, q);
  }

  /** Looking up a known, connected webhook never reports it missing. */
  lemma KnownWebhookFound(hooks: seq<WebhookJson>, connections: map<string, Connection>, webhookName: string, q: Watcher.Queued, i: nat)
    requires i < |hooks| && hooks[i].name == webhookName && webhookName in connections
    ensures SendNotification(hooks, connections, webhookName, q, None, "") != Failure(NotFound)
  {
  }
}

=== FILE: wrappers.dfy ===
/** Failure-carrying datatypes shared by every module of the model. */
module Wrappers {

  /** A value that may be absent; Python's `None` or a missing dictionary key. */
  datatype Option<+T> = None | Some(value: T) {

    /** The wrapped value, or `default` when absent (Python's `d.get(key, default)`). */
    function GetOr(default: T): T {
      match this
      case Some(v) => v
      case None => default
    }
  }

  /** The value of a computation that may raise. */
  datatype Result<+R, +E> = Success(value: R) | Failure(error: E)

  /** The verdict of a validator: pass, or fail with a reason. */
  datatype Outcome<+E> = Pass | Fail(error: E)
}
